=== FILE: README.md ===
# Lending system backend, modelled in Dafny

This project models the core of a campus equipment-lending backend written
in JavaScript (Express and PostgreSQL).

**The borrow-transaction state machine.** A student submits a borrow request
(`pending`). An admin accepts it (`accepted`) and scans an available item's
barcode, which puts the transaction on loan (`dipinjam`) and marks the item
lent. A request can instead be rejected, or rejected automatically when
nobody acts on it (`dikembalikan`). An admin can also lend an item directly.

- The database is a `Store` of finite maps: transactions, items, students,
  study programmes (prodi), lecturers, classes and schedules.
- Each `BEGIN ... COMMIT` block is one pure function returning a `Result`.
  Three functions open their block with mysql-style calls that a pg client
  lacks; `PgClient` models what those calls do.
- Socket notifications are an event log, appended only on success.
- The clock is an integer number of milliseconds, passed in as `now`.
- The loan invariant (`BorrowStore.Valid`) says two things:
  - every transaction on loan refers to an existing item;
  - an item is `dipinjam` exactly when one transaction on loan refers to it.

It is proved preserved by every borrow operation, by item creation and by
item deletion. It is shown breakable by item update and by creating an item
already marked lent.

**Inventory.** The model covers:
- the available-items listing, creation, update and deletion with its loan
  guard;
- the controller's pagination arithmetic, and its answer to an update.

**Spreadsheet row extraction.** A workbook is modelled as sheet names plus,
per sheet, the rows `xlsx` produces. Each cell is a string, an integral number
or a hole. On top of that the model covers:
- the template-aware parser (`utils/excelParser.mjs`), with BMM, TL and TOLI
  layouts;
- the two-layout upload parser (`ultils/excelParser.mjs`);
- the preview handler's header search;
- the class-group grouping of the upload route.

Each regular expression is rewritten as a predicate over string positions,
and matching takes the leftmost position where it holds.

**Helpers and in-memory operations.** The model covers:
- the two `standardizeProdiName` functions;
- academic-year derivation from a NIM (the current year is a parameter);
- the insert/update accounting of `saveStudentsToDB`;
- the `updateMahasiswa` SET-clause builder;
- the per-row accounting of `importMahasiswa`;
- the stock classifications;
- the express-validator chains, as functions from a request body to the list
  of error messages;
- the in-memory user list behind `/api/users/:id`.

JavaScript's `parseInt` and `isNaN` on strings are modelled in `JsNumber`,
with `None` standing for `NaN`.

## Model

| member | source | states |
|---|---|---|
| `BorrowStore.ItemStatusOf` | services/borrowService.js:231-236 | A stored item status reads as available exactly when its text is 'tersedia' and as lent exactly when it is 'dipinjam'; any other text is kept as it is and never names one of those two. |
| `BorrowStore.StatusText` | services/borrowService.js:316-318 | Writing a status back as text and reading it again gives the same status. |
| `BorrowUtils.ValidateBorrowEligibility` | utils/borrowUtils.js:5-71 | Succeeds exactly when the student exists, the schedule exists, both belong to the same study programme and the return time lies after `now`. The answer is then the schedule row. Otherwise the message is that of the first failing check, in the order student, schedule, programme, time; in particular, once the first three pass, a return time at or before `now` gives "Waktu pengembalian harus di waktu selanjutnya". |
| `BorrowUtils.MarkAutoRejected` | utils/borrowUtils.js:98-107 | The automatic rejection keeps the set of transaction ids and never touches items or students. |
| `BorrowUtils.AutoRejectExpiredRequest` | utils/borrowUtils.js:73-132 | Intended behaviour, with a transaction API that works (see Findings). Answers true exactly for a pending transaction whose promised return is at or before `now` and whose student exists. The transaction is then returned, with the automatic note and the actual return time `now`, and two events are logged. Otherwise the answer is false and the store is unchanged. Items are never changed. |
| `BorrowUtils.AutoRejectAsWritten` | utils/borrowUtils.js:73-132 | As written on a pg client: `beginTransaction` throws, the catch clause's `rollback` throws too, and the promise rejects with "connection.rollback is not a function". The store is unchanged for every request. |
| `BorrowUtils.AutoRejectNeverRuns` | utils/borrowUtils.js:77-93 | A request the rejection is meant to catch is rejected by the intended operation, but stays pending as written, which rejects with the rollback `TypeError`. |
| `PgClient.Invoke` | data/db_postgres.js:8-13 | A pg pool client answers `query` and `release`. Any other call, `beginTransaction`, `commit` or `rollback` among them, throws the "connection.<name> is not a function" `TypeError`. |
| `PgClient.MysqlStyleBlock` | utils/borrowUtils.js:76-130 | The begin/commit/rollback block the three functions share: on a pg client, whatever the body and the catch handler would do, the block throws the rollback `TypeError`. |
| `BorrowUtils.AutoRejectIdempotent` | utils/borrowUtils.js:84-93 | After one successful automatic rejection, a second one for the same id, at any later time, answers false and changes nothing. |
| `BorrowUtils.AutoRejectKeepsValid` | utils/borrowUtils.js:98-107 | Automatic rejection preserves the loan invariant. |
| `BorrowUtils.AutoRejectOnCountdown` | utils/borrowUtils.js:79-107 | The corrected guard rejects exactly the pending transactions whose recorded 15-minute countdown has expired. It otherwise changes nothing and never touches items. |
| `BorrowUtils.AutoRejectOnCountdownKeepsValid` | utils/borrowUtils.js:98-107 | The corrected automatic rejection preserves the loan invariant. |
| `BorrowService.UpsertStudent` | services/borrowService.js:33-43 | A new NIM is inserted with the given name and programme. An existing student is left exactly as stored. |
| `BorrowService.RequestMetadata` | services/borrowService.js:73-84 | The request's metadata carries the countdown expiry `now + 15 minutes`, the lecturer's name and the class name. |
| `BorrowService.SubmitBorrowRequest` | services/borrowService.js:10-137 | Commits exactly when the student is eligible, the lecturer and class exist and the student has no open request whose promised return is still ahead; an open request always refuses. On commit it adds one pending transaction under the fresh id, with the given item, promised return and schedule, no checkout, and the 15-minute countdown. Everything else in the store is unchanged except the log. The admin event is logged only when the re-read after `COMMIT`, which joins the student's programme, finds the request. |
| `BorrowService.SubmitAnswer` | services/borrowService.js:102-149 | The caller gets the new id exactly when the request commits and the re-read finds it. A committed request whose student or programme the re-read misses still stands, logs nothing, and the caller gets the `TypeError`. A refused request passes its error on. |
| `BorrowService.SubmitAddsOne` | services/borrowService.js:86-102 | A successful submission adds exactly one transaction, under an id not yet used. |
| `BorrowService.SubmitKeepsValid` | services/borrowService.js:86-102 | Submission preserves the loan invariant. |
| `BorrowService.AcceptBorrowRequest` | services/borrowService.js:157-199 | Succeeds exactly for a pending transaction whose student exists; any other id or status gives the "already processed" error. On success only the transactions and the log change, and of the transactions only that one: it becomes accepted with the admin as checkout admin. Every earlier metadata key other than the four it writes survives, and those four are added: `accepted_at` and `student_arrived_at` are `now`, `accepted_by_admin` is the admin, and `status` is "ready_for_barcode_scan". Items are unchanged, and the student and admin events are logged. |
| `BorrowService.AcceptKeepsValid` | services/borrowService.js:178-197 | Acceptance preserves the loan invariant. |
| `BorrowService.ProcessBarcodeScan` | services/borrowService.js:231-244 | Answers an available item carrying the barcode, and fails exactly when there is none. |
| `BorrowService.CompleteTransaction` | services/borrowService.js:246-321 | Succeeds exactly when the transaction is accepted, its student and programme exist, and the item is available. A transaction not ready gives the "not in the right status" message, and an unavailable item gives "Item tidak tersedia". On success the transaction goes on loan with the given item, checkout `now`, the admin and the new promised return. Its earlier metadata keys survive and the approving admin is recorded. The item is marked lent in the same step, no other transaction or item changes, and students, programmes and the id counter are untouched. |
| `BorrowService.CompleteKeepsValid` | services/borrowService.js:283-319 | Completing a transaction preserves the loan invariant. |
| `BorrowService.RejectBorrowRequest` | services/borrowService.js:374-404 | Succeeds exactly for a pending or accepted transaction. It becomes returned, with the admin, the time `now` and the reason after the fixed prefix in its check-in notes. Only the transactions and the log change. |
| `BorrowService.RejectKeepsValid` | services/borrowService.js:392-402 | Rejection preserves the loan invariant. |
| `BorrowService.DirectMetadata` | services/borrowService.js:588-596 | A direct loan's metadata marks it as direct, names the lending admin and carries no countdown. |
| `BorrowService.DirectAdminLendingOp` | services/borrowService.js:532-620 | Succeeds exactly when the lecturer, the class and an available item exist; an unavailable item gives "Item tidak tersedia". On success one new transaction starts on loan for the requested student, item, schedule, programme and return time, with checkout `now`, the lending admin, and metadata naming the lecturer's NIP and name, the class and its id, the direct-lending flag, the date and the admin. Only that item changes, to lent. The rest of the store is the store after the student upsert: a new NIM is added with the given name and programme, and no other table changes. |
| `BorrowService.DirectLendingKeepsValid` | services/borrowService.js:576-620 | Direct lending preserves the loan invariant. |
| `BorrowService.AutoRejectMissesCountdown` | utils/borrowUtils.js:79-93 | A request whose promised return lies more than 15 minutes ahead is not rejected by the guard as written when its countdown runs out. The countdown guard does reject it. |
| `PendingRequests.SecondsRemaining` | services/borrowService.js:513-519 | The whole seconds left are positive exactly when at least one second remains, and then they are the floor of the remaining milliseconds over 1000. An invalid expiry gives `NaN`. |
| `PendingRequests.RowOf` | services/borrowService.js:509-527 | A row carries the transaction's id, status and NIM. Its positive seconds bracket the time to the countdown expiry. `student_arrived` is the truthiness of the arrival key. |
| `PendingRequests.GetPendingRequests` | services/borrowService.js:491-529 | Lists exactly the open transactions, with their student and programme, that have time left. Each appears once, as its row, ordered by creation time. |
| `InventoryService.GetAvailableItems` | services/inventoryService.js:33-41 | Returns every item with status `tersedia` and no other, each once. They are sorted by type, brand and model. |
| `InventoryService.CreateItem` | services/inventoryService.js:43-75 | Adds one item carrying exactly the given fields under a fresh key; its status is a stored status, the admin's text as `ItemStatusOf` reads it. Every other item and all transactions are unchanged. |
| `InventoryService.CreateItemKeepsValid` | services/inventoryService.js:56-69 | Creating an item not marked lent preserves the loan invariant and adds one item. A stored status is canonical by type (`StoredStatus`), so "not marked lent" means its text is not 'dipinjam'. |
| `InventoryService.CreateLentItemBreaksInvariant` | services/inventoryService.js:43-75 | Creating an item already marked lent breaks the loan invariant. |
| `InventoryService.UpdateItem` | services/inventoryService.js:77-110 | Fails only when `parseInt(id)` is `NaN`. Otherwise that item's fields are all overwritten; an absent id changes nothing. Transactions are never consulted or changed. |
| `InventoryService.UpdateItemCanBreakInvariant` | services/inventoryService.js:90-104 | Setting a lent item back to `tersedia` through an update succeeds and breaks the loan invariant. |
| `InventoryService.DeleteItem` | services/inventoryService.js:112-127 | A `NaN` id gives the database error. Otherwise it is refused while a transaction on loan refers to the item, and else exactly that item disappears; every other item and all transactions are unchanged. |
| `InventoryService.DeleteItemKeepsValid` | services/inventoryService.js:117-122 | Deletion preserves the loan invariant. |
| `InventoryController.PageCount` | controllers/inventoryController.js:21 | `Math.ceil(total / limit)` for a positive limit: zero for no rows, otherwise the fewest pages that hold all rows, so `(p-1)*limit < total <= p*limit`. |
| `InventoryController.Window` | services/inventoryService.js:19-26 | `LIMIT`/`OFFSET` returns the rows from the offset on, at most `limit` of them, in order. |
| `InventoryController.GetAllItems` | controllers/inventoryController.js:4-31 | Fails with the fetch message exactly when the page or limit is `NaN`, or the limit or offset is negative. Otherwise it echoes page and limit and reports the row count. `total_pages` is null exactly for a zero limit. The data are the rows from `(page-1)*limit` on, at most `limit` of them. |
| `InventoryController.DefaultsListFirstTen` | controllers/inventoryController.js:6-7 | Without parameters, page 1 with 10 rows is listed: the first ten rows. |
| `InventoryController.PageOfStarts` | controllers/inventoryController.js:7-21 | Page `p` of a positive limit starts at row `(p-1)*limit`, and its page count is the ceiling. |
| `InventoryController.EveryRowHasItsPage` | controllers/inventoryController.js:7-21 | Row `k` appears on page `k/limit + 1` at position `k%limit`, and that page is within `total_pages`. |
| `InventoryController.PagesPastTheEndAreEmpty` | controllers/inventoryController.js:7-21 | A page beyond `total_pages` is empty. |
| `InventoryController.UpdateItem` | controllers/inventoryController.js:67-99 | The 404 answer never happens. The answer is a success exactly when the id parses. Otherwise it is the 400 answer and the store is unchanged. |
| `InventoryController.UpdateOfMissingItemSucceeds` | controllers/inventoryController.js:72-89 | Updating an item that does not exist reports success and changes nothing. |
| `Users.ValidateId` | routes/users.mjs:9-24 | Passes exactly when a named route parameter is present and `parseInt` of its value is a number, which becomes the id. Otherwise the 400 message names the parameter, or "ID". |
| `Users.ValidateIdOfNumber` | routes/users.mjs:13-22 | The decimal text of every natural number passes and yields that number. |
| `Users.IndexOf` | routes/users.mjs:92 | `findIndex`: the first user with that numeric id, or -1 exactly when no user has it. |
| `Users.GetUser` | routes/users.mjs:80-86 | Finds a user exactly when some user has the id, and the user found has it. Otherwise the answer is 404. |
| `Users.PutUser` | routes/users.mjs:90-99 | 404 exactly when no user has the id. Otherwise only the first match changes and the length stays. The new user's keys are the body's plus `id`: body values win, and `id` is the parsed id unless the body gives one. |
| `Users.PatchUser` | routes/users.mjs:103-111 | 404 exactly when no user has the id. Otherwise only the first match changes. Body fields override, every other field is kept, and the length stays. |
| `Users.DeleteUser` | routes/users.mjs:115-122 | 404 exactly when no user has the id. Otherwise the first match is removed: the length drops by one and the others keep their order. |
| `Users.PutThenGet` | routes/users.mjs:80-99 | After a PUT whose body leaves `id` alone, GET of that id finds exactly the user written. |
| `Users.PatchIdempotent` | routes/users.mjs:103-111 | Applying the same PATCH twice gives the same list as applying it once, when the body leaves `id` alone. |
| `Users.DeleteRemovesUniqueId` | routes/users.mjs:115-122 | After deleting an id only one user carries, GET of it answers 404. |
| `Validation.LengthChain` | utils/validation.js:33-37 | `notEmpty` plus `isLength` yields no message exactly when the length is within bounds. An empty value yields both messages, and only the chain's two messages ever appear. |
| `Validation.OptionalChain` | utils/validation.js:5-10 | A chain behind `.if(exists())` yields no message exactly when the field is absent or within bounds. |
| `Validation.IsIntOfNatToString` | utils/validation.js:43-45 | The decimal text of a number passes `isInt({min: 1})` exactly when the number is at least 1. |
| `Validation.IsIntRejectsNegative` | utils/validation.js:51-53 | A negative number written with its sign fails `isInt({min: 1})`. |
| `Validation.RequesterErrors` | utils/validation.js:56-73 | The custom rule passes exactly when one of the two requester pairs is complete. Neither complete gives the "Harus ada data" message; both complete give the "bersamaan" message. |
| `Validation.IdentityErrors` | utils/validation.js:4-30 | No message exactly when each present requester field has an admissible length: names 2 to 255, NIM and NIP 5 to 50. |
| `Validation.CourseErrors` | utils/validation.js:32-45 | No message exactly when `kelas` has 2 to 100 characters, `nama_prodi` 2 to 50, and `jadwal_id` is an integer of at least 1. A missing `kelas` reports its message. |
| `Validation.LoanErrors` | utils/validation.js:46-53 | No message exactly when the return time is a non-empty ISO-8601 date and `id_barang` an integer of at least 1. |
| `Validation.BorrowRequestErrors` | utils/validation.js:3-74 | No message exactly when the body is acceptable field by field and exactly one requester pair is complete. A requester failure reports its message last. |
| `Validation.CompleteErrors` | utils/validation.js:76-85 | No message exactly when `item_id` is an integer of at least 1 and the return time is a non-empty ISO-8601 date. A missing time reports its message. |
| `Validation.RejectErrors` | utils/validation.js:87-93 | No message exactly when the reason has 5 to 500 characters. A missing reason gives both messages. |
| `Cells.SafeString` | utils/excelParser.mjs:4-9 | A string cell reads as itself upper-cased, with no lower-case ASCII letter left and its length kept. Any other cell reads as "". |
| `HeaderPatterns.NamaMahasiswaGroup` | utils/excelParser.mjs:167 | The capture is present exactly when `NAMA MAHASISWA` plus whitespace matches somewhere. It has no line terminator and does not start with whitespace. |
| `HeaderPatterns.YearClass` | utils/excelParser.mjs:173-177 | Absent exactly when no position holds two digits, optional whitespace and a letter A to D. Otherwise it gives two digits and an upper-case letter A to D. |
| `HeaderPatterns.KompenToliGroup` | utils/excelParser.mjs:245-246 | Present exactly when `KOMPEN` plus whitespace plus a TOLI class matches. The capture starts with `TOLI` in any case. |
| `SheetRows.HeaderLayoutOf` | ultils/excelParser.mjs:70-81 | A row is a header exactly when some cell reads "NIM" once whitespace is removed. The layout's NIM column is the first such cell. |
| `SheetRows.RowStudent` | ultils/excelParser.mjs:84-102 | A data row yields a student exactly when the NIM cell is truthy and not `NaN` and the name cell is a non-blank string. The student carries the sheet's class group. |
| `SheetRows.DedupProperties` | ultils/excelParser.mjs:93-105 | Keeping first occurrences gives pairwise-distinct NIMs: every NIM not seen before, each with its first student. |
| `SheetRows.SheetLoopIsDedup` | ultils/excelParser.mjs:68-108 | One sheet's loop equals the accepted rows with only first NIM occurrences kept. The processed set grows by exactly their NIMs. |
| `SheetRows.SheetsLoopIsDedup` | ultils/excelParser.mjs:61-110 | The loop over sheets equals all sheets' accepted rows, in order, with only first NIM occurrences kept across sheets. |
| `SheetRows.SheetCandidatesShape` | ultils/excelParser.mjs:88-102 | Every accepted row of a sheet has a non-blank name and the sheet's class group. |
| `SheetRows.SheetCandidatesSkipPreamble` | ultils/excelParser.mjs:84 | Rows before the first header row contribute nothing. |
| `SheetRows.ParseSheets` | utils/excelParser.mjs:78-128 | The per-sheet parse has pairwise-distinct NIMs, the same NIM set as all accepted rows, and each NIM's first accepted row. Every student has a non-blank name and the group of one of the sheets. |
| `SheetRows.ParsePerSheet` | ultils/excelParser.mjs:56-111 | `parsePerSheet` gives distinct NIMs, first occurrence across all sheets kept, each with a sheet name as class group and a non-blank name. |
| `SheetRows.BlocksFrom` | ultils/excelParser.mjs:138-146 | Each block sits on a NAMA-prefixed column with its NIM one column to the left, in increasing column order. |
| `SheetRows.BlocksFromComplete` | ultils/excelParser.mjs:138-146 | Every NAMA-prefixed column of a header opens a block. |
| `SheetRows.BlocksFromCount` | ultils/excelParser.mjs:39-41 | A header opens exactly as many blocks as it has NAMA-prefixed cells, which is the count the layout detection uses. |
| `SheetRows.ColumnLoopSkipsPreamble` | ultils/excelParser.mjs:131-149 | Rows before the first NIM-mentioning row contribute nothing to the per-column parse. |
| `SheetRows.ColumnLoopIsReference` | ultils/excelParser.mjs:130-174 | The column loop equals the reference reading: row by row in order, each non-NIM row contributes what the blocks of the last NIM row above it read, and repeated NIMs are all kept. |
| `SheetRows.ColumnLoopComplete` | ultils/excelParser.mjs:149-171 | A data row read by any block in force there yields that block's student in the result. |
| `SheetRows.ColumnLoopSound` | ultils/excelParser.mjs:149-171 | Every student is read from some data row by a block in force there, so its name is non-blank and its class group is computed from a block header. |
| `SheetRows.ColumnLoopKeepsRepeats` | ultils/excelParser.mjs:149-175 | A data row repeated below a header yields its students twice: the column loop does not de-duplicate. |
| `HeaderFold.FoldIsYields` | ultils/excelParser.mjs:130-174 | A pass in which header rows replace the state and other rows emit their reading equals the row-by-row reference reading. |
| `SheetRows.FirstNimRow` | ultils/excelParser.mjs:35-50 | Present exactly when some row mentions NIM, and then it is the first such row. |
| `SheetRows.FirstNimRowSplit` | ultils/excelParser.mjs:35-50 | After a preamble without NIM rows, the first NIM row is found, whatever follows it. |
| `SheetRows.BlockStudentsSound` | ultils/excelParser.mjs:150-171 | A data row yields at most one student per block, each read by one of the blocks from its NIM and name columns. |
| `SheetRows.BlockStudentsComplete` | ultils/excelParser.mjs:150-171 | Conversely, every block that accepts the row's NIM and name cells contributes its student. |
| `SheetRows.BlockStudentsAppend` | ultils/excelParser.mjs:150-172 | The blocks are read left to right and independently: two runs of blocks give their students one after the other. |
| `TemplateParser.TemplateKind` | utils/excelParser.mjs:22-33 | An explicit template type selects BMM, TL or TOLI exactly when it upper-cases to that name. |
| `TemplateParser.HeaderKind` | utils/excelParser.mjs:55-71 | The first NIM row gives TL exactly when it has several NAMA-prefixed cells or the literal year pattern. Otherwise there is no answer. |
| `TemplateParser.DetectFileType` | utils/excelParser.mjs:21-76 | A recognised template type wins. Without one: no first sheet gives BMM; a sheet name holding both KOMPEN and TOLI gives TOLI; otherwise the first NIM row decides through the header rules, and no NIM row gives `undefined`. |
| `TemplateParser.DetectFileTypeFirstHeader` | utils/excelParser.mjs:52-75 | Without template type and TOLI sheets, the answer is fixed by the first NIM row alone, whatever follows it. |
| `TemplateParser.DetectedTlOpensBlocks` | utils/excelParser.mjs:52-61 | When the NAMA count selects TL, the TL parser's first header opens more than one block. |
| `TemplateParser.TlGroup` | utils/excelParser.mjs:167-181 | A TL class group is "Unknown" (always so without the header match), "TL" plus two digits plus A to D, or a non-empty upper-case text without whitespace. |
| `TemplateParser.TlClassInfoGroup` | utils/excelParser.mjs:172-180 | When the tail holds two digits and a class letter, the group is five characters: "TL", those two digits, then the letter. |
| `TemplateParser.ParseTL` | utils/excelParser.mjs:134-188 | The TL parse is the reference column reading of the first sheet with the TL class groups. Every (row, block) pair that accepts its cells contributes, and every student has a non-blank name and a class group of one of the TL shapes. |
| `TemplateParser.ParseTLFirstSheetOnly` | utils/excelParser.mjs:134-137 | Only the first sheet is read: workbooks with the same first sheet parse alike. |
| `TemplateParser.ToliSheets` | utils/excelParser.mjs:199-210 | Keeps exactly the sheet names with KOMPEN, TOLI and one of 1A, 1B, 3B, 5A, 5B, in order. |
| `TemplateParser.ToliGroup` | utils/excelParser.mjs:245-246 | A TOLI sheet's group is its `TOLI <n><A/B>` part, or the sheet name when that does not match. |
| `TemplateParser.ParseTOLI` | utils/excelParser.mjs:195-261 | TOLI students have pairwise-distinct NIMs and non-blank names. Each comes from a selected TOLI sheet, with that sheet's group. The NIMs are exactly those of every candidate student of the selected sheets, read in order, and each student kept is the first candidate with its NIM. |
| `TemplateParser.ExtractAkronim` | utils/excelParser.mjs:263-269 | "TOLI" exactly when the upper-cased name mentions TOLI; "TL" exactly when it does not but mentions TEKNIK LISTRIK; "BMM" exactly when it mentions neither but BMM; "" exactly when none occurs. |
| `TemplateParser.AkronimIsTemplateType` | utils/excelParser.mjs:22-33 | Every non-empty acronym is a template type the detector honours, naming the same layout. |
| `LayoutParser.DetectLayout` | ultils/excelParser.mjs:21-54 | Per-sheet without a first sheet. Per-column only when the first NIM row has more than one NAMA-prefixed cell. |
| `LayoutParser.DetectLayoutFirstHeader` | ultils/excelParser.mjs:35-50 | The first NIM row alone decides: per-column exactly when it has more than one NAMA cell, exactly when it opens more than one block. |
| `LayoutParser.SplitOnSpace` | ultils/excelParser.mjs:124 | `split(" ")` gives at least one piece and no piece contains a space. |
| `LayoutParser.SplitJoin` | ultils/excelParser.mjs:124 | Joining the pieces with single spaces gives the string back. |
| `LayoutParser.InitialsAreWordStarts` | ultils/excelParser.mjs:123-127 | The first letters of the split pieces are exactly the characters that start a word. |
| `LayoutParser.Akronim` | ultils/excelParser.mjs:121-128 | "" without a programme; otherwise the upper-cased first letters of its space-separated words. |
| `LayoutParser.ColumnGroup` | ultils/excelParser.mjs:159-169 | "Unknown" without a header match. With a non-empty tail it is the acronym followed by the tail upper-cased and stripped of whitespace. |
| `LayoutParser.ParsePerColumn` | ultils/excelParser.mjs:114-176 | The per-column parse is the reference column reading of the first sheet with the acronym-prefixed class groups. Every (row, block) pair that accepts its cells contributes, and every student has a non-blank name and a class group that is "Unknown" or starts with the acronym. |
| `UploadPreview.FindPreviewHeader` | dokumentasi/routes/students.mjs:52-64 | Absent exactly when no row holds both a NIM and a NAMA string cell. Otherwise it is the first such row, with the first NIM column and the first NAMA column. |
| `UploadPreview.PreviewRecordsSound` | dokumentasi/routes/students.mjs:68-85 | At most one record per row. Each record's NIM is a number and its name a non-blank string, read from one row's NIM and name columns. |
| `UploadPreview.SearchHeader` | dokumentasi/routes/students.mjs:46-64 | The search loop with its `break` finds exactly the first header and its columns, or -1. |
| `UploadPreview.ScanRows` | dokumentasi/routes/students.mjs:67-86 | The scan yields the records of the given rows, in row order. |
| `UploadPreview.ExtractStudents` | dokumentasi/routes/students.mjs:46-95 | No header gives no students. Otherwise the students are the records of the rows after the header, and `studentsFound` is their number. |
| `StudentUpload.ParseUpload` | routes/students.mjs:60-70 | Per-sheet detection dispatches to the per-sheet parser: distinct NIMs, sheet names as groups, exactly the candidate NIMs of all sheets, each student the first candidate with its NIM. Per-column detection dispatches to the per-column parser: the row-by-row reading of the first sheet's blocks, whose groups start with the acronym. |
| `StudentUpload.AddStudent` | routes/students.mjs:78-89 | One iteration appends the student's `{nim, name}` to exactly its group's array, creating it when new. Every other array is untouched. |
| `StudentUpload.GroupByClass` | routes/students.mjs:75-103 | One key per class group occurring in the input, each holding exactly that group's students in input order. The sizes add up to `totalStudentsFound`. |
| `StudentUpload.AddStudentGroups` | routes/students.mjs:76-90 | Each iteration keeps the buckets the grouping of the students seen so far. |
| `ImportUtils.MappingValuesAreCompact` | utils/importUtils.js:2-11 | Every corrected spelling is non-empty and has no whitespace. |
| `ImportUtils.StandardizeProdiName` | utils/importUtils.js:1-13 | A listed spelling maps to its correction, and anything else loses all whitespace. The result never contains whitespace. |
| `ImportUtils.StandardizeStable` | utils/importUtils.js:12 | Standardizing again changes nothing unless the first pass produced a listed spelling. |
| `ImportUtils.StandardizeNotIdempotent` | utils/importUtils.js:12 | "BM -4A" standardizes to "BM-4A", which a second pass turns into "BM4A". |
| `ImportUtils.StartYear` | utils/importUtils.js:19-26 | For a two-digit prefix, the start year ends in those digits and lies within the 99 years up to the current year. |
| `ImportUtils.ExtractAcademicYear` | utils/importUtils.js:15-28 | Null exactly for a missing NIM or one shorter than two characters. Otherwise it is the `y/(y+1)` range of the year the prefix denotes. |
| `ImportUtils.AcademicYearOfDigits` | utils/importUtils.js:16-27 | For a NIM starting with two digits, the result is `y/(y+1)`, where `y` ends in those digits and lies in the last hundred years. |
| `ImportUtils.StartYearUnique` | utils/importUtils.js:19-26 | That start year is the only year of the window ending in the prefix. |
| `SaveStudent.StandardizeProdiName` | utils/saveStudent.mjs:3-15 | A listed spelling maps to its correction; any other input is returned unchanged. |
| `SaveStudent.StandardizersAgreeWithoutSpaces` | utils/saveStudent.mjs:14 | The two standardizations agree on listed spellings and on any input without whitespace. |
| `SaveStudent.StandardizersDiffer` | utils/saveStudent.mjs:14 | They differ on "TL 1A". |
| `SaveStudent.SaveAll` | utils/saveStudent.mjs:72-99 | The insert and update counters add up to the number of students. |
| `SaveStudent.SaveAllKeys` | utils/saveStudent.mjs:75-99 | The loop stores every input NIM and leaves every other stored row alone. |
| `SaveStudent.SaveAllInserted` | utils/saveStudent.mjs:78-91 | The inserted count is the number of distinct input NIMs not stored before; a repeated NIM counts as an update. |
| `SaveStudent.SaveAllLastSeen` | utils/saveStudent.mjs:84-98 | Each NIM is stored with the name and standardized programme of its last entry. |
| `SaveStudent.SaveStudentsToDB` | utils/saveStudent.mjs:17-108 | Intended behaviour, with a transaction API that works (see Findings). An empty list reports nothing and changes nothing. Otherwise the missing standardized programmes are created and counted, and inserted plus updated equals the input length. Inserted counts the new NIMs, and every NIM holds its last entry. Other students, transactions and items are unchanged. |
| `SaveStudent.SaveTwiceOnlyUpdates` | utils/saveStudent.mjs:72-108 | Saving the same list again inserts nothing, updates every entry and creates no programme. |
| `SaveStudent.SaveStudentsAsWritten` | utils/saveStudent.mjs:17-117 | As written on a pg client: the empty list is answered with nothing done; any other list fails with "connection.rollback is not a function" and stores nothing. |
| `SaveStudent.SaveNeverStores` | utils/saveStudent.mjs:24-117 | A list with a new student: the intended operation inserts it, the code as written stores nothing and fails with the rollback `TypeError`. |
| `AdminService.LowStockStatus` | services/adminService.js:109-113 | "Critical" exactly at 5 or fewer remaining, "Low" otherwise. |
| `AdminService.Availability` | services/adminService.js:141-145 | "Out of Stock" exactly at zero, "Low Stock" exactly from 1 to 15, and "In-stock" above. |
| `AdminService.ClassificationsAgree` | services/adminService.js:103-145 | More stock never gives a worse availability. A count is labelled other than "In-stock" exactly when it is at most 15, the low-stock list's bound, and a count of none left would be critical there. |
| `AdminService.AcademicYearOfNim` | services/adminService.js:11-24 | The service's own copy of the academic-year function, textually the import helper's, gives `y/(y+1)` for a NIM starting with two digits, with `y` in the last hundred years. |
| `AdminService.Provided` | services/adminService.js:312-323 | The SET columns are exactly the given fields, in the fixed order name, programme, active. |
| `AdminService.ApplyUpdate` | services/adminService.js:334-337 | The stored row takes the given name and programme and keeps the rest. Every other student and all other tables are unchanged. |
| `AdminService.StatementDone` | services/adminService.js:329-342 | The given fields are numbered `$1..$k` in order and the NIM is bound as `$(k+1)`. The returned data is the NIM plus exactly the given fields. |
| `AdminService.UpdateMahasiswa` | services/adminService.js:290-343 | As written: succeeds exactly when the body's programme exists. Every failure says "Mahasiswa tidak ditemukan", and success performs the numbered update. |
| `AdminService.NameOnlyUpdateRefused` | services/adminService.js:293-300 | Renaming a stored student without giving a programme is refused as a missing student. |
| `AdminService.UpdateMahasiswaChecked` | services/adminService.js:290-343 | Corrected: succeeds exactly when the student exists, any given programme exists and some field is given. Each failure has its own message. |
| `AdminService.NameOnlyUpdateAccepted` | services/adminService.js:312-342 | With the corrected checks the rename binds the name as `$1` and the NIM as `$2`, and changes only the name. |
| `AdminService.FileTypeName` | services/adminService.js:348 | The template-aware detector only ever answers "bmm", "tl", "toli" or `undefined`. |
| `AdminService.ImportParseAsWritten` | services/adminService.js:348-355 | As written, every workbook is read by the per-sheet parser. |
| `AdminService.PerColumnBranchDead` | services/adminService.js:351 | The comparison with "perColumn" is false for every workbook. |
| `AdminService.ImportParse` | services/adminService.js:348-355 | Corrected reading choice: a workbook detected as TL is read by the TL parser and any other by the per-sheet parser. All names are non-blank. |
| `AdminService.FinalProdi` | services/adminService.js:395-399 | A given programme is stored without whitespace; an absent one stays absent. |
| `AdminService.ImportLoop` | services/adminService.js:373-430 | Successful plus failed imports equal the rows processed, and one entry is reported per success. |
| `AdminService.ImportLoopErrors` | services/adminService.js:375-383 | Exactly one error entry per non-numeric NIM, in input order. |
| `AdminService.ImportLoopKeys` | services/adminService.js:385-414 | Afterwards the stored NIMs are the earlier ones plus every numeric input NIM. |
| `AdminService.ImportLoopKeeps` | services/adminService.js:390-394 | A stored student is never overwritten. |
| `AdminService.ImportLoopRows` | services/adminService.js:385-414 | The stored NIMs grow by exactly the numeric input NIMs, and no stored row changes. |
| `AdminService.ImportLoopImported` | services/adminService.js:385-421 | Each reported import is a numeric NIM not stored before, reported once, stored with the trimmed name and the whitespace-free programme. Conversely, the reported NIMs are exactly the numeric input NIMs not stored before. |
| `AdminService.DistinctImportsCount` | services/adminService.js:411-421 | With no NIM reported twice, the number of reports is the number of distinct reported NIMs. |
| `AdminService.ImportLoopNothingNew` | services/adminService.js:390-394 | When every numeric NIM is already stored, nothing is imported. |
| `AdminService.ImportMahasiswa` | services/adminService.js:345-439 | The parser dispatch as written, with a transaction API that works (see Findings): the rows are those of the per-sheet parser, for TL workbooks too. Refused exactly when nothing is parsed. Otherwise every row either fails or adds one new student, the error list is the non-numeric NIMs, and the counts add up. Exactly the new numeric NIMs are added and reported, and no stored student, transaction, item or programme changes. |
| `AdminService.ImportRows` | services/adminService.js:357-439 | The import transaction over parsed rows: refused exactly when there are none; otherwise the counts add up, the errors are the non-numeric NIMs, and the reported NIMs are exactly the numeric ones not stored before, each stored as reported. |
| `AdminService.ImportMahasiswaAsWritten` | services/adminService.js:345-442 | Exactly as written on a pg client: always refused. An empty parse gives the "Tidak ada data" error; any other parse gives "Gagal memproses file excel: connection.rollback is not a function", and no student is stored. |
| `AdminService.ImportNeverStores` | services/adminService.js:362-442 | A workbook with a student row: the intended import succeeds, the code as written refuses it with the wrapped rollback `TypeError`. |
| `AdminService.ImportMahasiswaChecked` | services/adminService.js:345-439 | Corrected dispatch, with a transaction API that works: a workbook detected as TL is imported from the TL parser's rows, any other from the per-sheet parser's rows, with the same import outcome. |
| `AdminService.ImportAgainAddsNothing` | services/adminService.js:385-394 | Importing the same rows again adds nothing: every row fails. |
| `JsNumber.ParseInt` | routes/users.mjs:13 | `parseInt` is `NaN` exactly when no digit follows the optional whitespace, sign and hexadecimal prefix. |
| `JsNumber.ParseIntOfNatToString` | routes/users.mjs:13 | `parseInt` reads back the decimal text of every natural number. |
| `JsNumber.ParseIntTwoDigits` | utils/importUtils.js:22 | A two-digit prefix parses to its two-digit value. |
| `JsNumber.DigitsAreNumeric` | utils/excelParser.mjs:106-111 | A non-empty run of decimal digits passes `!isNaN`. |

## Left out

- SQL text, connection pools and `BEGIN`/`ROLLBACK` plumbing: each
  transaction block is one atomic function. The mysql-style transaction calls
  of three functions are modelled separately (see Findings).
- `BorrowUtils.AutoRejectExpiredRequest`: promises the intended rejection,
  which needs a working transaction API. As written the call always rejects
  with the rollback `TypeError` and changes nothing
  (`BorrowUtils.AutoRejectAsWritten`). The timer callback does not handle
  that rejection.
- `AdminService.ImportMahasiswa`: promises the import with the dispatch as
  written but a working transaction API. As written every non-empty parse is
  refused with the wrapped rollback `TypeError`
  (`AdminService.ImportMahasiswaAsWritten`).
- `SaveStudent.SaveStudentsToDB`: promises the intended save, which needs a
  working transaction API. As written every non-empty list fails with the
  rollback `TypeError` and stores nothing
  (`SaveStudent.SaveStudentsAsWritten`). A `null` list is not modelled.
- `StudentUpload.GroupByClass`: groups into an ordered list of keys. The
  source's plain object differs in two ways that are not modelled. A class
  group named like an inherited property (`"constructor"`, `"__proto__"`)
  makes `.push` throw. Integer-like class groups are listed first, in
  ascending order, rather than in input order.
- `AdminService.LowStockStatus`: only the status mapping is modelled. As
  written, the query's `HAVING remaining_quantity <= 15` names an output
  alias, which PostgreSQL rejects, so the mapping is never reached. The
  `remainingQuantity` field would always be `undefined`, since the row's key
  is `remaining_quantity`.
- The `setTimeout` that schedules the automatic rejection, and races between
  acceptance and automatic rejection. Automatic rejection is an ordinary
  operation callable at any clock value.
- Socket payloads: only event names and recipients are logged.
- Authentication, cookies, the route wiring files, multer and file-system
  handling in the upload routes, and the controllers' HTTP mapping other than
  the inventory controller.
- Dashboard and list queries of the admin service, including the `NaN`
  statistic in one of them: these are aggregation queries without logic of
  their own.
- `data/saveStudent.mjs` (a single upsert whose counts come from the driver)
  and `ultils/validation.js` (declarative chains only) are not part of this
  model.
- The user list's `GET /` filter, whose callback returns nothing, and `POST /`,
  which calls an undeclared `matchedData`.
- The academic-year check inside the import loop tests a Promise, which is
  always truthy, so the check never fails. The loop model omits it.
- The `countDownExpiry` key typo in the pending list's `expires_at`: that
  field is not modelled.
- `BorrowService.SubmitBorrowRequest`: a missing lecturer or class is the
  `TypeError` the source throws when it reads the first row. The exact
  runtime message text is a modelling choice. So is the text of the
  `TypeError` that `BorrowService.SubmitAnswer` reports when the re-read
  after `COMMIT` finds no row.
- Dates: times are integers. ISO-8601 formatting and parsing are not
  modelled, and `isISO8601` is a predicate parameter of the validators.
- `BorrowUtils.CountdownOf`: a countdown stored as text is not parsed and
  reads as an invalid date.
- `InventoryController.GetAllItems`: the listed rows are an abstract ordered
  sequence. Under the loan invariant the `LEFT JOIN` yields one row per item,
  so the row count equals `COUNT(*)`. That `COUNT(*)` arrives as text is not
  modelled.
- `JsNumber.ParseInt`: integers beyond 2^53, where JavaScript loses
  precision, are not modelled.
- `Validation.LengthChain`: string lengths are counted in characters, not
  UTF-16 code units, and `null` body values are not distinguished from
  strings.
- `Cells.SafeString`: upper-casing folds ASCII letters only. Cells holding
  booleans, dates or non-integral numbers are not modelled.
- `LayoutParser.Akronim`: upper-casing folds ASCII letters only, as it
  does everywhere in this model.
- `TemplateParser.TemplateKind`: upper-casing folds ASCII letters only.
- `TemplateParser.ExtractAkronim`: upper-casing folds ASCII letters only.
- `TemplateParser.TlGroup`: upper-casing folds ASCII letters only.
- `ImportUtils.StandardizeProdiName`: inherited object keys such as
  `"constructor"`, which the JavaScript lookup would also find, are not
  modelled.
- `SaveStudent.StandardizeProdiName`: inherited object keys such as
  `"constructor"`, which the JavaScript lookup would also find, are not
  modelled.
- `AdminService.ImportLoop`: a missing programme is stored as "" where the
  database receives `NULL`. The active flag is not part of the stored
  student, and database errors inside the loop are not modelled.
- `AdminService.ApplyUpdate`: the `mahasiswa_aktif` column is not part of
  the stored student, so an update of the flag alone leaves the row as it
  was.

## Findings

| source | as written | input that shows it | evidently intended | confidence | as-written member | corrected member |
|---|---|---|---|---|---|---|
| utils/borrowUtils.js:79-93 | Assuming the transaction calls work (see the row for lines 77-126), the automatic rejection selects a pending request whose promised return time has passed. | A request submitted at `t` with promised return `t + 2 hours`: when the 15-minute timer fires at `t + 15 min`, it is not rejected. | Reject a pending request whose 15-minute `countdown_expiry` has passed. | not executed | `BorrowService.AutoRejectMissesCountdown` | `BorrowUtils.AutoRejectOnCountdown` |
| services/adminService.js:293-300 | The first check looks up the body's `nama_prodi` among the programmes and reports "Mahasiswa tidak ditemukan" when it is absent. | A body `{nama_mahasiswa: "X"}` for a stored NIM is refused; the "Tidak ada data" error can never be reached. | Check that the student with that NIM exists. | not executed | `AdminService.NameOnlyUpdateRefused` | `AdminService.UpdateMahasiswaChecked` |
| utils/borrowUtils.js:77-126 | The rejection opens its transaction with `connection.beginTransaction()` and, in the catch clause, calls `connection.rollback()`; a pg pool client has neither. | Any pending, expired request: the promise rejects with "connection.rollback is not a function" and the request stays pending. | Use `query("BEGIN")`, `query("COMMIT")` and `query("ROLLBACK")`, as the borrow service does. | not executed | `BorrowUtils.AutoRejectNeverRuns` | `BorrowUtils.AutoRejectExpiredRequest` |
| services/adminService.js:372-434 | The import opens its transaction with `connection.beginTransaction()` and rolls back with `connection.rollback()` on a pg pool client. | Any workbook with one valid student row: the import throws "Gagal memproses file excel: connection.rollback is not a function" and inserts nothing. | Use `query("BEGIN")`, `query("COMMIT")` and `query("ROLLBACK")`. | not executed | `AdminService.ImportNeverStores` | `AdminService.ImportMahasiswa` |
| utils/saveStudent.mjs:26-111 | The save opens its transaction with `connection.beginTransaction()` and rolls back with `connection.rollback()` on a pg pool client. | Any non-empty student list: the call throws "connection.rollback is not a function" and stores nothing. | Use `query("BEGIN")`, `query("COMMIT")` and `query("ROLLBACK")`. | not executed | `SaveStudent.SaveNeverStores` | `SaveStudent.SaveStudentsToDB` |
| services/adminService.js:348-355 | The detector's answer is compared with "perColumn", which the template-aware detector never returns. | Any TL workbook, for which the detector answers "tl", is read per sheet. | Read a TL (column-layout) workbook with the column parser. | not executed | `AdminService.PerColumnBranchDead` | `AdminService.ImportMahasiswaChecked` |

=== FILE: admin_service.dfy ===
/** `services/adminService.js`: the parts with logic of their own, namely
    the stock classifications, the student update with its numbered SET
    clause, and the per-row accounting of a spreadsheet import. */
module AdminService {
  import opened Wrappers
  import opened Text
  import opened Cells
  import opened BorrowStore
  import TemplateParser
  import SheetRows
  import ImportUtils
  import PgClient

  // -------------------------------------------------------- classifications

  /** The status of a row of the low-stock list (those with at most 15 left). */
  function LowStockStatus(remaining: int): (r: string)
    ensures r == "Critical" <==> remaining <= 5
    ensures r == "Low" <==> remaining > 5
  {
    if remaining <= 5 then "Critical" else "Low"
  }

  /** The `availability` column of the inventory table. */
  function Availability(remaining: nat): (r: string)
    ensures r == "Out of Stock" <==> remaining == 0
    ensures r == "Low Stock" <==> 0 < remaining <= 15
    ensures r == "In-stock" <==> remaining > 15
  {
    if remaining == 0 then "Out of Stock"
    else if remaining <= 15 then "Low Stock"
    else "In-stock"
  }

  /** How bad an availability label is: 0 for none left, 2 for plenty. */
  function AvailabilityRank(tag: string): nat {
    if tag == "Out of Stock" then 0 else if tag == "Low Stock" then 1 else 2
  }

  /** More stock never gives a worse label, and the two classifications share
      their threshold: a count is labelled other than "In-stock" exactly when it
      is at most 15, the bound of the low-stock list, and a count of none left
      would be "Critical" there. (The low-stock query groups only 'tersedia'
      rows, so a type with none available never actually appears in it.) */
  lemma ClassificationsAgree(a: nat, b: nat)
    requires a <= b
    ensures AvailabilityRank(Availability(a)) <= AvailabilityRank(Availability(b))
    ensures Availability(a) != "In-stock" <==> a <= 15
    ensures Availability(a) == "Out of Stock" ==> LowStockStatus(a) == "Critical"
  {
  }

  /** `extractAcademicYear` of this service computes what the import helper
      does: for a NIM whose first two characters are digits, the start year
      is the year of the last hundred ending in those digits. */
  lemma AcademicYearOfNim(nim: string, currentYear: int)
    requires |nim| >= 2 && IsDigit(nim[0]) && IsDigit(nim[1])
    ensures var y := ImportUtils.StartYear(DigitValue(nim[0]) * 10 + DigitValue(nim[1]), currentYear);
      && ImportUtils.ExtractAcademicYear(Some(nim), currentYear) == Some(IntToString(y) + "/" + IntToString(y + 1))
      && currentYear - 99 <= y <= currentYear
  {
    ImportUtils.AcademicYearOfDigits(nim, currentYear);
  }

  // -------------------------------------------------------- updateMahasiswa

  const StudentNotFound := "Mahasiswa tidak ditemukan"
  const ProdiNotFound := "Program studi tidak ditemukan"
  const NothingToUpdate := "Tidak ada data yang di update"

  /** The body fields; `None` is a field left `undefined`. */
  datatype MahasiswaUpdate = MahasiswaUpdate(nama: Option<string>, prodi: Option<string>, aktif: Option<bool>)

  datatype Param = PText(text: string) | PFlag(flag: bool)

  /** `column = $placeholder` in the SET clause. */
  datatype SetItem = SetItem(column: string, placeholder: nat)

  /** The columns in the order the update collects them. */
  const Columns: seq<string> := ["nama_mahasiswa", "nama_prodi", "mahasiswa_aktif"]

  /** The value the body gives `column`, if it gives one. */
  function ValueOf(u: MahasiswaUpdate, column: string): Option<Param> {
    if column == "nama_mahasiswa" && u.nama.Some? then Some(PText(u.nama.value))
    else if column == "nama_prodi" && u.prodi.Some? then Some(PText(u.prodi.value))
    else if column == "mahasiswa_aktif" && u.aktif.Some? then Some(PFlag(u.aktif.value))
    else None
  }

  /** The position of a column in `Columns`. */
  function Rank(column: string): nat {
    if column == "nama_mahasiswa" then 0 else if column == "nama_prodi" then 1 else 2
  }

  /** How many of the three fields the body gives. */
  function GivenCount(u: MahasiswaUpdate): nat {
    (if u.nama.Some? then 1 else 0) + (if u.prodi.Some? then 1 else 0) + (if u.aktif.Some? then 1 else 0)
  }

  /** The keys of `updateData` in insertion order: every column the body
      gives a value for, in the order of `Columns`. */
  function Provided(u: MahasiswaUpdate): (cols: seq<string>)
    ensures |cols| == GivenCount(u)
    ensures forall i :: 0 <= i < |cols| ==> cols[i] in Columns && ValueOf(u, cols[i]).Some?
    ensures forall i, j :: 0 <= i < j < |cols| ==> Rank(cols[i]) < Rank(cols[j])
  {
    (if u.nama.Some? then ["nama_mahasiswa"] else [])
    + (if u.prodi.Some? then ["nama_prodi"] else [])
    + (if u.aktif.Some? then ["mahasiswa_aktif"] else [])
  }

  /** The statement's pieces: the numbered SET items, the parameter list (the
      values, then the NIM), and the returned `data` (the NIM and the
      provided fields). */
  datatype Statement = Statement(setClause: seq<SetItem>, params: seq<Param>, data: map<string, Param>)

  function StatementOf(nim: string, u: MahasiswaUpdate): Statement {
    var cols := Provided(u);
    Statement(seq(|cols|, i requires 0 <= i < |cols| => SetItem(cols[i], i + 1)),
              seq(|cols|, i requires 0 <= i < |cols| => ValueOf(u, cols[i]).value) + [PText(nim)],
              map["nim" := PText(nim)] + map c | c in Columns && ValueOf(u, c).Some? :: ValueOf(u, c).value)
  }

  /** The row after `UPDATE mahasiswa SET ... WHERE nim = ...`: unchanged
      when no row has that NIM. The active flag is not part of the stored
      student. */
  function ApplyUpdate(s: Store, nim: string, u: MahasiswaUpdate): (s': Store)
    ensures s'.students.Keys == s.students.Keys
    ensures forall k :: k in s.students && k != nim ==> s'.students[k] == s.students[k]
    ensures nim in s.students ==>
      s'.students[nim] == Student(u.nama.GetOr(s.students[nim].name), u.prodi.GetOr(s.students[nim].prodi))
    ensures s'.txns == s.txns && s'.items == s.items && s'.prodis == s.prodis
  {
    if nim in s.students then
      s.(students := s.students[nim := Student(u.nama.GetOr(s.students[nim].name), u.prodi.GetOr(s.students[nim].prodi))])
    else s
  }

  /** What a successful update answers and does: the row is updated, the
      given fields are numbered `$1..$k` in the fixed column order, the NIM is
      bound last, as `$(k+1)`, and the answer holds the NIM and exactly the
      given fields. */
  ghost predicate UpdateDone(s: Store, nim: string, u: MahasiswaUpdate, r: (Store, Statement)) {
    var k := |r.1.setClause|;
    && r.0 == ApplyUpdate(s, nim, u)
    && k > 0
    && (forall i :: 0 <= i < k ==> r.1.setClause[i].placeholder == i + 1)
    && (forall i, j :: 0 <= i < j < k ==> Rank(r.1.setClause[i].column) < Rank(r.1.setClause[j].column))
    && (forall i :: 0 <= i < k ==> r.1.setClause[i].column in Columns && ValueOf(u, r.1.setClause[i].column).Some?)
    && k == GivenCount(u)
    && |r.1.params| == k + 1 && r.1.params[k] == PText(nim)
    && (forall i :: 0 <= i < k ==> Some(r.1.params[i]) == ValueOf(u, r.1.setClause[i].column))
    && r.1.data.Keys == {"nim"} + (set c | c in Columns && ValueOf(u, c).Some?)
    && r.1.data["nim"] == PText(nim)
    && (forall c :: c in r.1.data && c != "nim" ==> Some(r.1.data[c]) == ValueOf(u, c))
  }

  lemma StatementDone(s: Store, nim: string, u: MahasiswaUpdate)
    requires GivenCount(u) > 0
    ensures UpdateDone(s, nim, u, (ApplyUpdate(s, nim, u), StatementOf(nim, u)))
  {
    var st := StatementOf(nim, u);
    var given := set c | c in Columns && ValueOf(u, c).Some?;
    assert st.data.Keys == {"nim"} + given;
  }

  /** `updateMahasiswa(nim, data)` as written: the first query looks the body's
      `nama_prodi` up in the study programmes and reports a missing student
      when it is not found, so every failure carries that message and the two
      later checks never fire. A NIM without a row is not an error. */
  function UpdateMahasiswa(s: Store, nim: string, u: MahasiswaUpdate): (r: Result<(Store, Statement), string>)
    ensures r.Ok? <==> u.prodi.Some? && u.prodi.value in s.prodis
    ensures r.Err? ==> r.error == StudentNotFound
    ensures r.Ok? ==> UpdateDone(s, nim, u, r.value)
  {
    if !(u.prodi.Some? && u.prodi.value in s.prodis) then Err(StudentNotFound)
    else if u.prodi.Some? && u.prodi.value != "" && u.prodi.value !in s.prodis then Err(ProdiNotFound)
    else
      if GivenCount(u) == 0 then Err(NothingToUpdate)
      else
        StatementDone(s, nim, u);
        Ok((ApplyUpdate(s, nim, u), StatementOf(nim, u)))
  }

  /** The input that shows it: renaming a stored student without touching
      the study programme is refused, with a message saying the student does
      not exist. */
  lemma NameOnlyUpdateRefused(s: Store, nim: string, name: string)
    requires nim in s.students
    ensures UpdateMahasiswa(s, nim, MahasiswaUpdate(Some(name), None, None)) == Err(StudentNotFound)
  {
  }

  /** `updateMahasiswa` with the checks its messages describe: the student
      must exist, a given study programme must exist, and at least one field
      must be given. */
  function UpdateMahasiswaChecked(s: Store, nim: string, u: MahasiswaUpdate): (r: Result<(Store, Statement), string>)
    ensures r.Ok? <==>
      && nim in s.students
      && !(u.prodi.Some? && u.prodi.value != "" && u.prodi.value !in s.prodis)
      && (u.nama.Some? || u.prodi.Some? || u.aktif.Some?)
    ensures nim !in s.students ==> r == Err(StudentNotFound)
    ensures nim in s.students && u.prodi.Some? && u.prodi.value != "" && u.prodi.value !in s.prodis ==> r == Err(ProdiNotFound)
    ensures nim in s.students && u == MahasiswaUpdate(None, None, None) ==> r == Err(NothingToUpdate)
    ensures r.Ok? ==> UpdateDone(s, nim, u, r.value)
  {
    if nim !in s.students then Err(StudentNotFound)
    else if u.prodi.Some? && u.prodi.value != "" && u.prodi.value !in s.prodis then Err(ProdiNotFound)
    else
      if GivenCount(u) == 0 then Err(NothingToUpdate)
      else
        StatementDone(s, nim, u);
        Ok((ApplyUpdate(s, nim, u), StatementOf(nim, u)))
  }

  /** With the checks in place, the rename that was refused goes through,
      binding the name as `$1` and the NIM as `$2`, and changes only the name. */
  lemma NameOnlyUpdateAccepted(s: Store, nim: string, name: string)
    requires nim in s.students
    ensures var r := UpdateMahasiswaChecked(s, nim, MahasiswaUpdate(Some(name), None, None));
      && r.Ok?
      && r.value.1.setClause == [SetItem("nama_mahasiswa", 1)]
      && r.value.1.params == [PText(name), PText(nim)]
      && r.value.0.students[nim] == Student(name, s.students[nim].prodi)
  {
    var u := MahasiswaUpdate(Some(name), None, None);
    assert Provided(u) == ["nama_mahasiswa"];
  }

  // -------------------------------------------------------- importMahasiswa

  const NoValidStudents := "Gagal memproses file excel: Tidak ada data mahasiswa yang valid ditemukan dalam excel"

  /** The outer catch clause's wrapping of any error the import throws. */
  function ImportFailure(message: string): string {
    "Gagal memproses file excel: " + message
  }
  const NimNotNumeric := "NIM harus berupa angka"

  /** What the template-aware `detectFileType` answers, as the string the
      service compares; `None` is `undefined`. */
  function FileTypeName(k: Option<TemplateParser.FileKind>): (r: Option<string>)
    ensures r.Some? ==> r.value in {"bmm", "tl", "toli"}
  {
    if k.None? then None
    else if k.value.Bmm? then Some("bmm")
    else if k.value.Tl? then Some("tl")
    else Some("toli")
  }

  /** The parser the import picks, as written: `detectFileType` of the
      template-aware parser never answers `"perColumn"`, so the per-sheet
      parser reads every workbook. */
  function ImportParseAsWritten(wb: Workbook): (r: seq<ParsedStudent>)
    ensures r == SheetRows.ParsePerSheet(wb)
  {
    if FileTypeName(TemplateParser.DetectFileType(wb, None)) == Some("perColumn")
    then TemplateParser.ParseTL(wb)
    else SheetRows.ParsePerSheet(wb)
  }

  /** The per-column branch is dead for every workbook, the TL layout included. */
  lemma PerColumnBranchDead(wb: Workbook)
    ensures FileTypeName(TemplateParser.DetectFileType(wb, None)) != Some("perColumn")
  {
  }

  /** The dispatch the comparison was meant to make: a workbook the detector
      recognises as the column layout (TL) is read by the column parser. */
  function ImportParse(wb: Workbook): (r: seq<ParsedStudent>)
    ensures TemplateParser.DetectFileType(wb, None) == Some(TemplateParser.Tl) ==> r == TemplateParser.ParseTL(wb)
    ensures TemplateParser.DetectFileType(wb, None) != Some(TemplateParser.Tl) ==> r == SheetRows.ParsePerSheet(wb)
    ensures forall st :: st in r ==> Trim(st.name) != ""
  {
    if TemplateParser.DetectFileType(wb, None) == Some(TemplateParser.Tl)
    then TemplateParser.ParseTL(wb)
    else SheetRows.ParsePerSheet(wb)
  }

  datatype ImportError = ImportError(nim: string, name: string, error: string)
  datatype ImportedStudent = ImportedStudent(nim: string, name: string, namaProdi: Option<string>, classGroup: string)
  datatype ImportReport = ImportReport(
    totalProcessed: nat,
    successful: nat,
    failed: nat,
    errors: seq<ImportError>,
    imported: seq<ImportedStudent>)

  /** `/^\d+$/.test(nim)`. */
  predicate NumericNim(nim: string) {
    |nim| > 0 && AllDigits(nim)
  }

  /** The programme every imported student gets: the given one without
      whitespace when it is a non-empty string, otherwise as given. */
  function FinalProdi(prodi: Option<string>): (r: Option<string>)
    ensures r.None? <==> prodi.None?
    ensures r.Some? ==> NoSpaces(r.value) || r.value == ""
  {
    if prodi.Some? && prodi.value != "" then Some(StripSpaces(prodi.value)) else prodi
  }

  /** The error entries of an import: one per non-numeric NIM, in input order. */
  function NonNumericErrors(students: seq<ParsedStudent>): seq<ImportError> {
    if |students| == 0 then []
    else
      (if NumericNim(students[0].nim) then [] else [ImportError(students[0].nim, students[0].name, NimNotNumeric)])
      + NonNumericErrors(students[1..])
  }

  /** The numeric NIMs among the input. */
  function NumericNims(students: seq<ParsedStudent>): set<string> {
    set x | x in students && NumericNim(x.nim) :: x.nim
  }

  datatype LoopState = LoopState(rows: map<string, Student>, successful: nat, failed: nat, errors: seq<ImportError>, imported: seq<ImportedStudent>)

  /** The row an accepted student is inserted as. */
  function InsertedAs(x: ParsedStudent, prodi: Option<string>): Student {
    Student(Trim(x.name), FinalProdi(prodi).GetOr(""))
  }

  /** The per-row loop from stored rows `m`. A NIM inserted earlier in the
      same import counts as stored. */
  function ImportLoop(m: map<string, Student>, students: seq<ParsedStudent>, prodi: Option<string>): (r: LoopState)
    ensures r.successful + r.failed == |students|
    ensures |r.imported| == r.successful
    decreases |students|
  {
    if |students| == 0 then
      LoopState(m, 0, 0, [], [])
    else
      var x := students[0];
      var rest := students[1..];
      if !NumericNim(x.nim) then
        var t := ImportLoop(m, rest, prodi);
        LoopState(t.rows, t.successful, t.failed + 1, [ImportError(x.nim, x.name, NimNotNumeric)] + t.errors, t.imported)
      else if x.nim in m then
        var t := ImportLoop(m, rest, prodi);
        LoopState(t.rows, t.successful, t.failed + 1, t.errors, t.imported)
      else
        var t := ImportLoop(m[x.nim := InsertedAs(x, prodi)], rest, prodi);
        LoopState(t.rows, t.successful + 1, t.failed,
                  t.errors, [ImportedStudent(x.nim, Trim(x.name), FinalProdi(prodi), x.classGroup)] + t.imported)
  }

  lemma NumericNimsCons(students: seq<ParsedStudent>)
    requires |students| > 0
    ensures NumericNims(students) ==
      (if NumericNim(students[0].nim) then {students[0].nim} else {}) + NumericNims(students[1..])
  {
    assert students == [students[0]] + students[1..];
    assert forall y :: y in students <==> y == students[0] || y in students[1..];
  }

  /** One error entry per non-numeric NIM, in input order, and no other. */
  lemma {:induction false} ImportLoopErrors(m: map<string, Student>, students: seq<ParsedStudent>, prodi: Option<string>)
    ensures ImportLoop(m, students, prodi).errors == NonNumericErrors(students)
    decreases |students|
  {
    if |students| > 0 {
      var x := students[0];
      if NumericNim(x.nim) && x.nim !in m {
        ImportLoopErrors(m[x.nim := InsertedAs(x, prodi)], students[1..], prodi);
      } else {
        ImportLoopErrors(m, students[1..], prodi);
      }
    }
  }

  /** Every numeric NIM ends up stored, and nothing else is added. */
  lemma {:induction false} ImportLoopKeys(m: map<string, Student>, students: seq<ParsedStudent>, prodi: Option<string>)
    ensures ImportLoop(m, students, prodi).rows.Keys == m.Keys + NumericNims(students)
    decreases |students|
  {
    if |students| == 0 {
      assert NumericNims(students) == {};
    } else {
      var x := students[0];
      var rest := students[1..];
      var n := NumericNims(rest);
      NumericNimsCons(students);
      if NumericNim(x.nim) && x.nim !in m {
        var m1 := m[x.nim := InsertedAs(x, prodi)];
        ImportLoopKeys(m1, rest, prodi);
        assert m1.Keys + n == m.Keys + ({x.nim} + n);
      } else {
        ImportLoopKeys(m, rest, prodi);
      }
    }
  }

  /** No stored row is overwritten. */
  lemma {:induction false} ImportLoopKeeps(m: map<string, Student>, students: seq<ParsedStudent>, prodi: Option<string>, k: string)
    requires k in m
    ensures k in ImportLoop(m, students, prodi).rows && ImportLoop(m, students, prodi).rows[k] == m[k]
    decreases |students|
  {
    if |students| > 0 {
      var x := students[0];
      if NumericNim(x.nim) && x.nim !in m {
        ImportLoopKeeps(m[x.nim := InsertedAs(x, prodi)], students[1..], prodi, k);
      } else {
        ImportLoopKeeps(m, students[1..], prodi, k);
      }
    }
  }

  lemma ImportLoopRows(m: map<string, Student>, students: seq<ParsedStudent>, prodi: Option<string>)
    ensures ImportLoop(m, students, prodi).rows.Keys == m.Keys + NumericNims(students)
    ensures forall k :: k in m ==> ImportLoop(m, students, prodi).rows[k] == m[k]
  {
    ImportLoopKeys(m, students, prodi);
    forall k | k in m ensures ImportLoop(m, students, prodi).rows[k] == m[k] {
      ImportLoopKeeps(m, students, prodi, k);
    }
  }

  /** Entry `i` of the report is a numeric NIM stored with the trimmed name and
      the whitespace-free programme. */
  predicate StoredAsImported(r: LoopState, i: int, prodi: Option<string>)
    requires 0 <= i < |r.imported|
  {
    var e := r.imported[i];
    && NumericNim(e.nim) && e.namaProdi == FinalProdi(prodi)
    && e.nim in r.rows && r.rows[e.nim] == Student(e.name, FinalProdi(prodi).GetOr(""))
  }

  /** The entry the loop reports for an inserted student. */
  function ImportedEntry(x: ParsedStudent, prodi: Option<string>): ImportedStudent {
    ImportedStudent(x.nim, Trim(x.name), FinalProdi(prodi), x.classGroup)
  }

  /** One step of the loop when the first student is inserted. */
  lemma ImportLoopInsertStep(m: map<string, Student>, students: seq<ParsedStudent>, prodi: Option<string>)
    requires |students| > 0 && NumericNim(students[0].nim) && students[0].nim !in m
    ensures var x := students[0];
      var t := ImportLoop(m[x.nim := InsertedAs(x, prodi)], students[1..], prodi);
      && ImportLoop(m, students, prodi).rows == t.rows
      && ImportLoop(m, students, prodi).imported == [ImportedEntry(x, prodi)] + t.imported
  {
  }

  /** One step of the loop when the first student fails. */
  lemma ImportLoopSkipStep(m: map<string, Student>, students: seq<ParsedStudent>, prodi: Option<string>)
    requires |students| > 0 && !(NumericNim(students[0].nim) && students[0].nim !in m)
    ensures var t := ImportLoop(m, students[1..], prodi);
      ImportLoop(m, students, prodi).rows == t.rows && ImportLoop(m, students, prodi).imported == t.imported
  {
  }

  /** No reported NIM is among `keys`. */
  ghost predicate AllNew(imported: seq<ImportedStudent>, keys: set<string>) {
    forall k :: 0 <= k < |imported| ==> imported[k].nim !in keys
  }

  /** No NIM is reported twice. */
  ghost predicate DistinctImports(imported: seq<ImportedStudent>) {
    forall a, b :: 0 <= a < b < |imported| ==> imported[a].nim != imported[b].nim
  }

  /** The NIMs a report lists. */
  function ImportedNims(imported: seq<ImportedStudent>): set<string> {
    set i | 0 <= i < |imported| :: imported[i].nim
  }

  lemma ImportedNimsCons(e: ImportedStudent, t: seq<ImportedStudent>)
    ensures ImportedNims([e] + t) == {e.nim} + ImportedNims(t)
  {
    var r := [e] + t;
    forall n | n in ImportedNims(r) ensures n in {e.nim} + ImportedNims(t) {
      var i :| 0 <= i < |r| && r[i].nim == n;
      if i > 0 {
        assert r[i] == t[i - 1];
      }
    }
    forall n | n in {e.nim} + ImportedNims(t) ensures n in ImportedNims(r) {
      if n == e.nim {
        assert r[0].nim == n;
      } else {
        var i :| 0 <= i < |t| && t[i].nim == n;
        assert r[i + 1] == t[i];
      }
    }
  }

  /** A list without repeated NIMs has as many entries as NIMs. */
  lemma {:induction false} DistinctImportsCount(imported: seq<ImportedStudent>)
    requires DistinctImports(imported)
    ensures |ImportedNims(imported)| == |imported|
    decreases |imported|
  {
    if |imported| > 0 {
      var t := imported[1..];
      assert imported == [imported[0]] + t;
      assert DistinctImports(t) by {
        forall a, b | 0 <= a < b < |t| ensures t[a].nim != t[b].nim {
          assert t[a] == imported[a + 1] && t[b] == imported[b + 1];
        }
      }
      DistinctImportsCount(t);
      ImportedNimsCons(imported[0], t);
      assert imported[0].nim !in ImportedNims(t) by {
        forall i | 0 <= i < |t| ensures t[i].nim != imported[0].nim {
          assert t[i] == imported[i + 1];
        }
      }
    }
  }

  /** Every reported entry is stored as reported. */
  ghost predicate AllStored(r: LoopState, prodi: Option<string>) {
    forall i :: 0 <= i < |r.imported| ==> StoredAsImported(r, i, prodi)
  }

  /** Prepending a freshly inserted entry keeps the three report facts. */
  lemma ConsImported(e: ImportedStudent, t: LoopState, r: LoopState, keys: set<string>, keys1: set<string>, prodi: Option<string>)
    requires r.rows == t.rows && r.imported == [e] + t.imported
    requires e.nim !in keys && e.nim in keys1 && keys <= keys1
    requires NumericNim(e.nim) && e.namaProdi == FinalProdi(prodi)
    requires e.nim in t.rows && t.rows[e.nim] == Student(e.name, FinalProdi(prodi).GetOr(""))
    requires AllNew(t.imported, keys1) && DistinctImports(t.imported) && AllStored(t, prodi)
    ensures AllNew(r.imported, keys) && DistinctImports(r.imported) && AllStored(r, prodi)
  {
    forall i | 0 <= i < |r.imported| ensures r.imported[i].nim !in keys && StoredAsImported(r, i, prodi) {
      if i > 0 {
        assert r.imported[i] == t.imported[i - 1];
        assert StoredAsImported(t, i - 1, prodi);
      }
    }
    forall a, b | 0 <= a < b < |r.imported| ensures r.imported[a].nim != r.imported[b].nim {
      assert r.imported[b] == t.imported[b - 1];
      if a > 0 {
        assert r.imported[a] == t.imported[a - 1];
      }
    }
  }

  /** Each reported import is a new numeric NIM, reported once and stored with
      the trimmed name and the whitespace-free programme; and conversely every
      numeric input NIM that was not stored before is reported. */
  lemma {:induction false} ImportLoopImported(m: map<string, Student>, students: seq<ParsedStudent>, prodi: Option<string>)
    ensures AllNew(ImportLoop(m, students, prodi).imported, m.Keys)
    ensures DistinctImports(ImportLoop(m, students, prodi).imported)
    ensures AllStored(ImportLoop(m, students, prodi), prodi)
    ensures ImportedNims(ImportLoop(m, students, prodi).imported) == NumericNims(students) - m.Keys
    decreases |students|
  {
    ImportLoopImportedNims(m, students, prodi);
    if |students| > 0 {
      var x := students[0];
      var rest := students[1..];
      var r := ImportLoop(m, students, prodi);
      if NumericNim(x.nim) && x.nim !in m {
        var m1 := m[x.nim := InsertedAs(x, prodi)];
        var t := ImportLoop(m1, rest, prodi);
        var e := ImportedEntry(x, prodi);
        assert r.rows == t.rows && r.imported == [e] + t.imported by {
          ImportLoopInsertStep(m, students, prodi);
        }
        assert AllNew(t.imported, m1.Keys) && DistinctImports(t.imported) && AllStored(t, prodi) by {
          ImportLoopImported(m1, rest, prodi);
        }
        assert x.nim in t.rows && t.rows[x.nim] == InsertedAs(x, prodi) by {
          ImportLoopKeeps(m1, rest, prodi, x.nim);
        }
        ConsImported(e, t, r, m.Keys, m1.Keys, prodi);
      } else {
        var t := ImportLoop(m, rest, prodi);
        assert r.rows == t.rows && r.imported == t.imported by { ImportLoopSkipStep(m, students, prodi); }
        assert AllNew(t.imported, m.Keys) && DistinctImports(t.imported) && AllStored(t, prodi) by {
          ImportLoopImported(m, rest, prodi);
        }
        forall i | 0 <= i < |r.imported| ensures StoredAsImported(r, i, prodi) {
          assert StoredAsImported(t, i, prodi);
        }
      }
    }
  }

  /** Set algebra for a step that inserts a key `x` not stored before. */
  lemma AddNewKey(x: string, later: set<string>, stored: set<string>)
    requires x !in stored
    ensures {x} + (later - (stored + {x})) == ({x} + later) - stored
  {
  }

  /** The reported NIMs are exactly the numeric input NIMs not stored before. */
  lemma {:induction false} ImportLoopImportedNims(m: map<string, Student>, students: seq<ParsedStudent>, prodi: Option<string>)
    ensures ImportedNims(ImportLoop(m, students, prodi).imported) == NumericNims(students) - m.Keys
    decreases |students|
  {
    if |students| == 0 {
      assert NumericNims(students) == {};
    } else {
      var x := students[0];
      var rest := students[1..];
      var got := ImportedNims(ImportLoop(m, students, prodi).imported);
      if NumericNim(x.nim) && x.nim !in m {
        var m1 := m[x.nim := InsertedAs(x, prodi)];
        var t := ImportLoop(m1, rest, prodi);
        assert got == {x.nim} + ImportedNims(t.imported) by {
          ImportLoopInsertStep(m, students, prodi);
          ImportedNimsCons(ImportedEntry(x, prodi), t.imported);
        }
        assert ImportedNims(t.imported) == NumericNims(rest) - (m.Keys + {x.nim}) by {
          ImportLoopImportedNims(m1, rest, prodi);
          assert m1.Keys == m.Keys + {x.nim};
        }
        assert NumericNims(students) == {x.nim} + NumericNims(rest) by {
          NumericNimsCons(students);
        }
        AddNewKey(x.nim, NumericNims(rest), m.Keys);
      } else {
        assert got == ImportedNims(ImportLoop(m, rest, prodi).imported) by {
          ImportLoopSkipStep(m, students, prodi);
        }
        ImportLoopImportedNims(m, rest, prodi);
        assert NumericNims(students) - m.Keys == NumericNims(rest) - m.Keys by {
          NumericNimsCons(students);
        }
      }
    }
  }

  /** When every numeric NIM is already stored, nothing is imported. */
  lemma {:induction false} ImportLoopNothingNew(m: map<string, Student>, students: seq<ParsedStudent>, prodi: Option<string>)
    requires NumericNims(students) <= m.Keys
    ensures ImportLoop(m, students, prodi).successful == 0
    decreases |students|
  {
    if |students| > 0 {
      NumericNimsCons(students);
      ImportLoopNothingNew(m, students[1..], prodi);
    }
  }

  /** What one import transaction over the rows `parsed` promises: refused
      when nothing was parsed; otherwise every row either fails or adds one
      student, exactly the new numeric NIMs are added and reported, and no
      stored student is ever overwritten. */
  ghost predicate ImportOutcome(s: Store, parsed: seq<ParsedStudent>, prodi: Option<string>,
                                r: Result<(Store, ImportReport), string>)
  {
    && (r.Err? <==> |parsed| == 0)
    && (r.Err? ==> r.error == NoValidStudents)
    && (r.Ok? ==>
      var rep := r.value.1;
      && rep.totalProcessed == |parsed|
      && rep.successful + rep.failed == rep.totalProcessed
      && rep.errors == NonNumericErrors(parsed)
      && |rep.imported| == rep.successful
      && ImportedNims(rep.imported) == NumericNims(parsed) - s.students.Keys
      && rep.successful == |NumericNims(parsed) - s.students.Keys|
      && r.value.0.students.Keys == s.students.Keys + NumericNims(parsed)
      && (forall k :: k in s.students ==> r.value.0.students[k] == s.students[k])
      && r.value.0.txns == s.txns && r.value.0.items == s.items && r.value.0.prodis == s.prodis
      && DistinctImports(rep.imported)
      && forall i :: 0 <= i < |rep.imported| ==>
        && rep.imported[i].nim !in s.students
        && StoredAsImported(LoopState(r.value.0.students, rep.successful, rep.failed, rep.errors, rep.imported), i, prodi))
  }

  /** The transaction of `importMahasiswa` over already parsed rows. */
  function ImportRows(s: Store, parsed: seq<ParsedStudent>, prodi: Option<string>): (r: Result<(Store, ImportReport), string>)
    ensures ImportOutcome(s, parsed, prodi, r)
  {
    if |parsed| == 0 then Err(NoValidStudents)
    else
      var t := ImportLoop(s.students, parsed, prodi);
      ImportLoopErrors(s.students, parsed, prodi);
      ImportLoopRows(s.students, parsed, prodi);
      ImportLoopImported(s.students, parsed, prodi);
      DistinctImportsCount(t.imported);
      Ok((s.(students := t.rows), ImportReport(|parsed|, t.successful, t.failed, t.errors, t.imported)))
  }

  /** `importMahasiswa(file, nama_prodi)` as written: the dead `"perColumn"`
      comparison sends every workbook, TL ones included, to the per-sheet
      parser, and the rows it yields are imported. */
  function ImportMahasiswa(s: Store, wb: Workbook, prodi: Option<string>): (r: Result<(Store, ImportReport), string>)
    ensures ImportOutcome(s, SheetRows.ParsePerSheet(wb), prodi, r)
  {
    ImportRows(s, ImportParseAsWritten(wb), prodi)
  }

  /** `importMahasiswa(file, nama_prodi)` exactly as written. An empty parse
      throws before a connection is used. Any other parse reaches
      `connection.beginTransaction()`, which a pg client lacks; the inner
      catch clause's `connection.rollback()` throws in turn, and the outer
      catch clause wraps that `TypeError`. No student is ever stored. */
  function ImportMahasiswaAsWritten(s: Store, wb: Workbook, prodi: Option<string>): (r: Result<(Store, ImportReport), string>)
    ensures r.Err?
    ensures |SheetRows.ParsePerSheet(wb)| == 0 ==> r == Err(NoValidStudents)
    ensures |SheetRows.ParsePerSheet(wb)| > 0 ==> r == Err(ImportFailure(PgClient.NotAFunction(PgClient.Rollback)))
  {
    var parsed := ImportParseAsWritten(wb);
    if |parsed| == 0 then Err(NoValidStudents)
    else
      match PgClient.MysqlStyleBlock(ImportRows(s, parsed, prodi), e => Err(e))
      case Ok(v) => Ok(v)
      case Err(e) => Err(ImportFailure(e))
  }

  /** Every workbook with a student row is refused as written with the same
      message, where the intended import succeeds. */
  lemma ImportNeverStores(s: Store, wb: Workbook, prodi: Option<string>)
    requires |SheetRows.ParsePerSheet(wb)| > 0
    ensures ImportMahasiswa(s, wb, prodi).Ok?
    ensures ImportMahasiswaAsWritten(s, wb, prodi) == Err(ImportFailure("connection.rollback is not a function"))
  {
    PgClient.RollbackMessage();
  }

  /** Corrected `importMahasiswa`: a workbook detected as TL is read by the
      column parser, any other by the per-sheet parser. */
  function ImportMahasiswaChecked(s: Store, wb: Workbook, prodi: Option<string>): (r: Result<(Store, ImportReport), string>)
    ensures TemplateParser.DetectFileType(wb, None) == Some(TemplateParser.Tl) ==>
      ImportOutcome(s, TemplateParser.ParseTL(wb), prodi, r)
    ensures TemplateParser.DetectFileType(wb, None) != Some(TemplateParser.Tl) ==>
      ImportOutcome(s, SheetRows.ParsePerSheet(wb), prodi, r)
  {
    ImportRows(s, ImportParse(wb), prodi)
  }

  /** Importing the same rows again adds nothing: every row then fails. */
  lemma ImportAgainAddsNothing(m: map<string, Student>, students: seq<ParsedStudent>, prodi: Option<string>)
    ensures var again := ImportLoop(ImportLoop(m, students, prodi).rows, students, prodi);
      again.successful == 0 && again.failed == |students|
  {
    ImportLoopRows(m, students, prodi);
    ImportLoopNothingNew(ImportLoop(m, students, prodi).rows, students, prodi);
  }
}

=== FILE: borrow_service.dfy ===
/** `services/borrowService.js`: the borrow-request state machine. A request is
    submitted `pending`, accepted by an admin, completed into a loan
    (`dipinjam`) once an available item is scanned, or rejected (`dikembalikan`)
    at any point before. An admin can also lend an item directly. */
module BorrowService {
  import opened Wrappers
  import opened BorrowStore
  import opened BorrowUtils

  /** The fields of a borrow request the services read. */
  datatype BorrowRequest = BorrowRequest(
    studentName: string,
    nim: string,
    lecturerName: string,
    className: string,
    prodi: string,
    jadwalId: int,
    promisedReturn: int,
    itemId: int)

  /** What reading `.nip` / `.id_kelas` of a missing first row throws. */
  const MissingLecturer := "TypeError: Cannot read properties of undefined (reading 'nip')"
  const MissingClass := "TypeError: Cannot read properties of undefined (reading 'id_kelas')"
  const OpenRequestExists := "Anda masih memiliki permintaan pending yang belum selesai"
  const NotPending := "Transaksi tidak ditemukan atau sudah diproses"
  const NotAccepted := "Transaksi tidak ditemukan atau belum dalam status yang tepat"
  const ItemUnavailable := "Item tidak tersedia"
  const BarcodeUnavailable := "Barcode tidak ditemukan atau item tidak tersedia"
  const RejectPrefix := "Ditolaj oleh admin: "
  /** What reading `.notes_checkout` of the missing re-read row throws. */
  const MissingRequestRow := "TypeError: Cannot read properties of undefined (reading 'notes_checkout')"

  /** Insert the student when the NIM is new; an existing student is left as is. */
  function UpsertStudent(s: Store, nim: string, name: string, prodi: string): (s': Store)
    ensures nim in s'.students
    ensures nim in s.students ==> s' == s
    ensures nim !in s.students ==> s'.students == s.students[nim := Student(name, prodi)]
    ensures s'.txns == s.txns && s'.items == s.items && s'.lecturers == s.lecturers && s'.classes == s.classes
    ensures s'.nextTxnId == s.nextTxnId && s'.log == s.log
  {
    if nim in s.students then s else s.(students := s.students[nim := Student(name, prodi)])
  }

  /** The pending check: an open request of this student whose promised return
      time is still ahead. */
  predicate HasOpenRequest(s: Store, nim: string, now: int) {
    exists id :: id in s.txns && s.txns[id].nim == nim && IsOpen(s.txns[id].status) && s.txns[id].promisedReturn > now
  }

  /** The metadata a submitted request starts with. */
  function RequestMetadata(s: Store, req: BorrowRequest, now: int): (m: Metadata)
    requires req.lecturerName in s.lecturers
    ensures CountdownExpiry in m && m[CountdownExpiry] == MTime(now + CountdownMs)
    ensures LecturerName in m && m[LecturerName] == MText(req.lecturerName)
    ensures ClassName in m && m[ClassName] == MText(req.className)
  {
    map[LecturerNip := MText(s.lecturers[req.lecturerName]),
        LecturerName := MText(req.lecturerName),
        ClassName := MText(req.className),
        CountdownExpiry := MTime(now + CountdownMs),
        ActualReturnDate := MTime(req.promisedReturn),
        RequestType := MText("borrow_request"),
        ValidationPassed := MFlag(true)]
  }

  /** The conditions under which a submission commits. */
  predicate SubmitSucceeds(s: Store, req: BorrowRequest, now: int) {
    && Eligible(s, req.nim, req.jadwalId, req.promisedReturn, now)
    && req.lecturerName in s.lecturers
    && req.className in s.classes
    && !HasOpenRequest(s, req.nim, now)
  }

  /** The re-read after `COMMIT` joins the student with their study
      programme; it finds the new request only when that programme is stored. */
  predicate RereadFinds(s: Store, nim: string) {
    nim in s.students && s.students[nim].prodi in s.prodis
  }

  /** `submitBorrowRequest`: checks eligibility, then inside one database
      transaction looks up the lecturer and the class, refuses a student with
      an open request, and inserts a `pending` transaction whose countdown ends
      15 minutes from now. `Ok` means the transaction committed. The admins are
      notified only when the re-read after `COMMIT` finds the request. */
  function SubmitBorrowRequest(s: Store, req: BorrowRequest, now: int): (r: Result<Store, string>)
    ensures r.Ok? <==> SubmitSucceeds(s, req, now)
    ensures HasOpenRequest(s, req.nim, now) ==> r.Err?
    ensures r.Ok? ==> r.value.txns.Keys == s.txns.Keys + {s.nextTxnId}
    ensures r.Ok? ==>
      var id := s.nextTxnId;
      var t := r.value.txns[id];
      && (forall j :: j in s.txns && j != id ==> r.value.txns[j] == s.txns[j])
      && t.nim == req.nim && t.status == Pending && t.itemId == req.itemId
      && t.promisedReturn == req.promisedReturn && t.jadwalId == req.jadwalId
      && t.checkout.None? && t.adminCheckout.None? && t.createdAt == now
      && CountdownExpiry in t.metadata && t.metadata[CountdownExpiry] == MTime(now + CountdownMs)
      && r.value.nextTxnId == id + 1
      && r.value.items == s.items && r.value.students == s.students
      && r.value == s.(txns := r.value.txns, nextTxnId := r.value.nextTxnId, log := r.value.log)
      && r.value.log == s.log + (if RereadFinds(s, req.nim) then [Event(ToAdmins, "new_borrow_request", id)] else [])
  {
    var _ :- ValidateBorrowEligibility(s, req.nim, req.jadwalId, req.promisedReturn, now);
    var s1 := UpsertStudent(s, req.nim, req.studentName, req.prodi);
    if req.lecturerName !in s1.lecturers then Err(MissingLecturer)
    else if req.className !in s1.classes then Err(MissingClass)
    else if HasOpenRequest(s1, req.nim, now) then Err(OpenRequestExists)
    else
      var id := s1.nextTxnId;
      var t := Txn(req.nim, req.jadwalId, req.itemId, req.promisedReturn, Pending, None, None, None, None,
                   RequestMetadata(s1, req, now), None, req.prodi, now);
      var events := if RereadFinds(s1, req.nim) then [Event(ToAdmins, "new_borrow_request", id)] else [];
      Ok(s1.(txns := s1.txns[id := t], nextTxnId := id + 1, log := s1.log + events))
  }

  /** What the caller of `submitBorrowRequest` receives: the new transaction
      id, or the error thrown. When the re-read after `COMMIT` finds nothing,
      the request stays committed, yet the caller sees a `TypeError`. */
  function SubmitAnswer(s: Store, req: BorrowRequest, now: int): (r: Result<int, string>)
    ensures r.Ok? <==> SubmitSucceeds(s, req, now) && RereadFinds(s, req.nim)
    ensures r.Ok? ==> r.value == s.nextTxnId && r.value in SubmitBorrowRequest(s, req, now).value.txns
    ensures SubmitSucceeds(s, req, now) && !RereadFinds(s, req.nim) ==>
      && r == Err(MissingRequestRow)
      && SubmitBorrowRequest(s, req, now).Ok?
      && SubmitBorrowRequest(s, req, now).value.log == s.log
    ensures !SubmitSucceeds(s, req, now) ==> r.Err? && r.error == SubmitBorrowRequest(s, req, now).error
  {
    match SubmitBorrowRequest(s, req, now)
    case Err(e) => Err(e)
    case Ok(_) => if RereadFinds(s, req.nim) then Ok(s.nextTxnId) else Err(MissingRequestRow)
  }

  /** A successful submission adds exactly one transaction: the key it uses is fresh. */
  lemma SubmitAddsOne(s: Store, req: BorrowRequest, now: int)
    requires Valid(s) && SubmitBorrowRequest(s, req, now).Ok?
    ensures s.nextTxnId !in s.txns
    ensures |SubmitBorrowRequest(s, req, now).value.txns| == |s.txns| + 1
  {
    var s' := SubmitBorrowRequest(s, req, now).value;
    assert s'.txns.Keys == s.txns.Keys + {s.nextTxnId};
  }

  lemma SubmitKeepsValid(s: Store, req: BorrowRequest, now: int)
    requires Valid(s) && SubmitBorrowRequest(s, req, now).Ok?
    ensures Valid(SubmitBorrowRequest(s, req, now).value)
  {
    TouchNonLoan(s, SubmitBorrowRequest(s, req, now).value, s.nextTxnId);
  }

  // ---------------------------------------------------------------- accept

  /** The row `acceptBorrowRequest` selects: a pending transaction whose student exists. */
  predicate Acceptable(s: Store, id: int) {
    id in s.txns && s.txns[id].status == Pending && s.txns[id].nim in s.students
  }

  /** Every key of `m` survives in `m'`, with its value unless it is one of `written`. */
  predicate KeepsMetadata(m: Metadata, m': Metadata, written: set<string>) {
    forall k :: k in m ==> k in m' && (k !in written ==> m'[k] == m[k])
  }

  /** `acceptBorrowRequest(id, adminId)`. */
  function AcceptBorrowRequest(s: Store, id: int, adminId: int, now: int): (r: Result<Store, string>)
    ensures r.Ok? <==> Acceptable(s, id)
    ensures r.Err? ==> r.error == NotPending
    ensures r.Ok? ==> r.value.txns.Keys == s.txns.Keys
    ensures r.Ok? ==>
      var t := s.txns[id];
      var t' := r.value.txns[id];
      && (forall j :: j in s.txns && j != id ==> r.value.txns[j] == s.txns[j])
      && t' == t.(status := Accepted, adminCheckout := Some(adminId), metadata := t'.metadata)
      && KeepsMetadata(t.metadata, t'.metadata, {AcceptedAt, AcceptedByAdmin, StudentArrivedAt, MetaStatus})
      && AcceptedByAdmin in t'.metadata && t'.metadata[AcceptedByAdmin] == MNum(adminId)
      && StudentArrivedAt in t'.metadata && t'.metadata[StudentArrivedAt] == MTime(now)
      && AcceptedAt in t'.metadata && t'.metadata[AcceptedAt] == MTime(now)
      && MetaStatus in t'.metadata && t'.metadata[MetaStatus] == MText("ready_for_barcode_scan")
      && r.value.items == s.items
      && r.value.log == s.log + [Event(ToStudent(t.nim), "borrow_accepted", id), Event(ToAdmins, "student_arrived", id)]
    ensures r.Ok? ==> r.value == s.(txns := r.value.txns, log := r.value.log)
  {
    if !Acceptable(s, id) then Err(NotPending)
    else
      var t := s.txns[id];
      var m := t.metadata + map[AcceptedAt := MTime(now), AcceptedByAdmin := MNum(adminId),
                                StudentArrivedAt := MTime(now), MetaStatus := MText("ready_for_barcode_scan")];
      Ok(s.(txns := s.txns[id := t.(status := Accepted, adminCheckout := Some(adminId), metadata := m)],
            log := s.log + [Event(ToStudent(t.nim), "borrow_accepted", id), Event(ToAdmins, "student_arrived", id)]))
  }

  lemma AcceptKeepsValid(s: Store, id: int, adminId: int, now: int)
    requires Valid(s) && AcceptBorrowRequest(s, id, adminId, now).Ok?
    ensures Valid(AcceptBorrowRequest(s, id, adminId, now).value)
  {
    TouchNonLoan(s, AcceptBorrowRequest(s, id, adminId, now).value, id);
  }

  // ---------------------------------------------------------- barcode scan

  /** `processBarcodeScan(barcode)`: an available item carrying the barcode.
      Which one the query returns when several match is unspecified. */
  method ProcessBarcodeScan(s: Store, barcode: string) returns (r: Result<int, string>)
    ensures r.Ok? ==> ItemAvailable(s, r.value) && s.items[r.value].barcode == barcode
    ensures r.Err? <==> !exists i :: ItemAvailable(s, i) && s.items[i].barcode == barcode
    ensures r.Err? ==> r.error == BarcodeUnavailable
  {
    if i :| i in s.items && s.items[i].status == Available && s.items[i].barcode == barcode {
      r := Ok(i);
    } else {
      r := Err(BarcodeUnavailable);
    }
  }

  // -------------------------------------------------------------- complete

  /** The row `completeTransaction` selects: an accepted transaction whose
      student exists and belongs to a known study programme. */
  predicate CompletionReady(s: Store, id: int) {
    && id in s.txns
    && s.txns[id].status == Accepted
    && s.txns[id].nim in s.students
    && s.students[s.txns[id].nim].prodi in s.prodis
  }

  /** `completeTransaction(id, adminId, itemId, returnTime)`: the transaction
      goes on loan for `itemId` and the item is marked lent, in one step. */
  function CompleteTransaction(s: Store, id: int, adminId: int, itemId: int, returnTime: int, now: int)
    : (r: Result<Store, string>)
    ensures r.Ok? <==> CompletionReady(s, id) && ItemAvailable(s, itemId)
    ensures !CompletionReady(s, id) ==> r == Err(NotAccepted)
    ensures CompletionReady(s, id) && !ItemAvailable(s, itemId) ==> r == Err(ItemUnavailable)
    ensures r.Ok? ==> r.value.txns.Keys == s.txns.Keys
    ensures r.Ok? ==>
      var t := s.txns[id];
      var t' := r.value.txns[id];
      && (forall j :: j in s.txns && j != id ==> r.value.txns[j] == s.txns[j])
      && t' == t.(itemId := itemId, adminCheckout := Some(adminId), checkout := Some(now),
                  promisedReturn := returnTime, status := OnLoan, metadata := t'.metadata)
      && KeepsMetadata(t.metadata, t'.metadata, {CompletedAt, ApprovedByAdmin, BarcodeScannedAt})
      && ApprovedByAdmin in t'.metadata && t'.metadata[ApprovedByAdmin] == MNum(adminId)
      && r.value.items == s.items[itemId := s.items[itemId].(status := Lent)]
      && r.value.log == s.log + [Event(ToStudent(t.nim), "borrow_completed", id), Event(ToAdmins, "request_processed", id)]
    ensures r.Ok? ==> r.value == s.(txns := r.value.txns, items := r.value.items, log := r.value.log)
  {
    if !CompletionReady(s, id) then Err(NotAccepted)
    else if !ItemAvailable(s, itemId) then Err(ItemUnavailable)
    else
      var t := s.txns[id];
      var m := t.metadata + map[CompletedAt := MTime(now), ApprovedByAdmin := MNum(adminId), BarcodeScannedAt := MTime(now)];
      var t' := t.(itemId := itemId, adminCheckout := Some(adminId), checkout := Some(now),
                   promisedReturn := returnTime, status := OnLoan, metadata := m);
      Ok(s.(txns := s.txns[id := t'],
            items := s.items[itemId := s.items[itemId].(status := Lent)],
            log := s.log + [Event(ToStudent(t.nim), "borrow_completed", id), Event(ToAdmins, "request_processed", id)]))
  }

  lemma CompleteKeepsValid(s: Store, id: int, adminId: int, itemId: int, returnTime: int, now: int)
    requires Valid(s) && CompleteTransaction(s, id, adminId, itemId, returnTime, now).Ok?
    ensures Valid(CompleteTransaction(s, id, adminId, itemId, returnTime, now).value)
  {
    StartLoan(s, CompleteTransaction(s, id, adminId, itemId, returnTime, now).value, id);
  }

  // ---------------------------------------------------------------- reject

  /** `rejectBorrowRequest(id, adminId, reason)`: a pending or accepted request
      is closed as returned, with the reason in its check-in notes. */
  function RejectBorrowRequest(s: Store, id: int, adminId: int, reason: string, now: int): (r: Result<Store, string>)
    ensures r.Ok? <==> id in s.txns && IsOpen(s.txns[id].status)
    ensures r.Err? ==> r.error == NotPending
    ensures r.Ok? ==>
      && r.value.txns.Keys == s.txns.Keys
      && (forall j :: j in s.txns && j != id ==> r.value.txns[j] == s.txns[j])
      && r.value.txns[id] == s.txns[id].(status := Returned, adminCheckin := Some(adminId),
                                         actualReturn := Some(now), notesCheckin := Some(RejectPrefix + reason))
      && r.value.items == s.items
      && r.value.log == s.log + [Event(ToStudent(s.txns[id].nim), "borrow_rejected", id)]
    ensures r.Ok? ==> r.value == s.(txns := r.value.txns, log := r.value.log)
  {
    if !(id in s.txns && IsOpen(s.txns[id].status)) then Err(NotPending)
    else
      var t := s.txns[id];
      Ok(s.(txns := s.txns[id := t.(status := Returned, adminCheckin := Some(adminId),
                                    actualReturn := Some(now), notesCheckin := Some(RejectPrefix + reason))],
            log := s.log + [Event(ToStudent(t.nim), "borrow_rejected", id)]))
  }

  lemma RejectKeepsValid(s: Store, id: int, adminId: int, reason: string, now: int)
    requires Valid(s) && RejectBorrowRequest(s, id, adminId, reason, now).Ok?
    ensures Valid(RejectBorrowRequest(s, id, adminId, reason, now).value)
  {
    TouchNonLoan(s, RejectBorrowRequest(s, id, adminId, reason, now).value, id);
  }

  // ------------------------------------------------------- direct lending

  function DirectMetadata(s: Store, req: BorrowRequest, adminId: int, now: int): (m: Metadata)
    requires req.lecturerName in s.lecturers && req.className in s.classes
    ensures DirectAdminLending in m && m[DirectAdminLending] == MFlag(true)
    ensures LendingAdmin in m && m[LendingAdmin] == MNum(adminId)
    ensures CountdownExpiry !in m
  {
    map[LecturerNip := MText(s.lecturers[req.lecturerName]),
        LecturerName := MText(req.lecturerName),
        ClassName := MText(req.className),
        ClassId := MNum(s.classes[req.className]),
        DirectAdminLending := MFlag(true),
        AdminLendingDate := MTime(now),
        LendingAdmin := MNum(adminId)]
  }

  /** `directAdminLending`: without a request or an eligibility check, an admin
      lends an available item; the new transaction starts on loan. */
  function DirectAdminLendingOp(s: Store, req: BorrowRequest, adminId: int, now: int): (r: Result<Store, string>)
    ensures r.Ok? <==> req.lecturerName in s.lecturers && req.className in s.classes && ItemAvailable(s, req.itemId)
    ensures req.lecturerName in s.lecturers && req.className in s.classes && !ItemAvailable(s, req.itemId)
            ==> r == Err(ItemUnavailable)
    ensures r.Ok? ==> r.value.txns.Keys == s.txns.Keys + {s.nextTxnId}
    ensures r.Ok? ==>
      var id := s.nextTxnId;
      var t := r.value.txns[id];
      && (forall j :: j in s.txns && j != id ==> r.value.txns[j] == s.txns[j])
      && t.nim == req.nim && t.status == OnLoan && t.itemId == req.itemId
      && t.checkout == Some(now) && t.adminCheckout == Some(adminId) && t.promisedReturn == req.promisedReturn
      && r.value.items == s.items[req.itemId := s.items[req.itemId].(status := Lent)]
      && req.nim in r.value.students
      && (forall n :: n in s.students ==> n in r.value.students && r.value.students[n] == s.students[n])
      && r.value.nextTxnId == id + 1
      && r.value.log == s.log + [Event(ToStudent(req.nim), "direct_lending_completed", id),
                                 Event(ToAdmins, "direct_lending_completed", id)]
    ensures r.Ok? ==>
      var t := r.value.txns[s.nextTxnId];
      && t.metadata == DirectMetadata(s, req, adminId, now)
      && t.jadwalId == req.jadwalId && t.prodi == req.prodi && t.createdAt == now
      && t.actualReturn.None? && t.adminCheckin.None? && t.notesCheckin.None?
    ensures r.Ok? ==>
      r.value == UpsertStudent(s, req.nim, req.studentName, req.prodi).(
        txns := r.value.txns, items := r.value.items, nextTxnId := r.value.nextTxnId, log := r.value.log)
  {
    var s1 := UpsertStudent(s, req.nim, req.studentName, req.prodi);
    if req.lecturerName !in s1.lecturers then Err(MissingLecturer)
    else if req.className !in s1.classes then Err(MissingClass)
    else if !ItemAvailable(s1, req.itemId) then Err(ItemUnavailable)
    else
      var id := s1.nextTxnId;
      var t := Txn(req.nim, req.jadwalId, req.itemId, req.promisedReturn, OnLoan, Some(now), None, Some(adminId), None,
                   DirectMetadata(s1, req, adminId, now), None, req.prodi, now);
      Ok(s1.(txns := s1.txns[id := t],
             items := s1.items[req.itemId := s1.items[req.itemId].(status := Lent)],
             nextTxnId := id + 1,
             log := s1.log + [Event(ToStudent(req.nim), "direct_lending_completed", id),
                              Event(ToAdmins, "direct_lending_completed", id)]))
  }

  lemma DirectLendingKeepsValid(s: Store, req: BorrowRequest, adminId: int, now: int)
    requires Valid(s) && DirectAdminLendingOp(s, req, adminId, now).Ok?
    ensures Valid(DirectAdminLendingOp(s, req, adminId, now).value)
  {
    StartLoan(s, DirectAdminLendingOp(s, req, adminId, now).value, s.nextTxnId);
  }

  // ----------------------------------------------- the countdown, as written

  /** A request submitted at `now` whose promised return lies more than 15
      minutes ahead is still not rejected automatically when its countdown
      runs out, while the countdown guard does reject it. */
  lemma AutoRejectMissesCountdown(s: Store, req: BorrowRequest, now: int)
    requires SubmitBorrowRequest(s, req, now).Ok?
    requires req.promisedReturn > now + CountdownMs
    ensures var s' := SubmitBorrowRequest(s, req, now).value;
      && !AutoRejectExpiredRequest(s', s.nextTxnId, now + CountdownMs).1
      && AutoRejectOnCountdown(s', s.nextTxnId, now + CountdownMs).1
  {
  }
}

=== FILE: borrow_store.dfy ===
/** The database rows the borrowing workflow reads and writes, as finite maps.
    Every `BEGIN ... COMMIT` block of the services becomes one function from a
    store to `Result<store, message>`: on `Err` the caller keeps its old store,
    which is what the `ROLLBACK` achieves. Time is an integer number of
    milliseconds supplied by the caller (`NOW()` / `new Date()`). */
module BorrowStore {
  import opened Wrappers

  /** `status_peminjaman`: 'pending', 'accepted', 'dipinjam', 'dikembalikan', 'terlambat'. */
  datatype TxnStatus = Pending | Accepted | OnLoan | Returned | Overdue

  /** `inventory.status`: 'tersedia', 'dipinjam', or any other text an admin
      stores. */
  datatype ItemStatus = Available | Lent | OtherStatus(text: string)

  /** The statuses a row can hold: `OtherStatus` never carries one of the two
      named texts, so the case split is unambiguous. Stored text is read
      through `ItemStatusOf`, which yields only these. */
  type StoredStatus = st: ItemStatus | CanonicalStatus(st) witness Available

  /** The status an `inventory.status` text stands for, as the queries compare
      it with 'tersedia' and 'dipinjam'. */
  function ItemStatusOf(text: string): (st: StoredStatus)
    ensures st == Available <==> text == "tersedia"
    ensures st == Lent <==> text == "dipinjam"
    ensures st.OtherStatus? ==> st.text == text
  {
    if text == "tersedia" then Available
    else if text == "dipinjam" then Lent
    else OtherStatus(text)
  }

  /** An `OtherStatus` whose text is neither of the two named values. */
  predicate CanonicalStatus(st: ItemStatus) {
    st.OtherStatus? ==> st.text != "tersedia" && st.text != "dipinjam"
  }

  /** The text stored for a status. */
  function StatusText(st: ItemStatus): (text: string)
    ensures CanonicalStatus(st) ==> ItemStatusOf(text) == st
  {
    match st
    case Available => "tersedia"
    case Lent => "dipinjam"
    case OtherStatus(t) => t
  }

  /** A value inside the JSON metadata kept in `notes_checkout`. */
  datatype MetaValue = MText(text: string) | MNum(num: int) | MFlag(flag: bool) | MTime(ms: int)

  type Metadata = map<string, MetaValue>

  /** One `transaksi` row. */
  datatype Txn = Txn(
    nim: string,
    jadwalId: int,
    itemId: int,
    promisedReturn: int,
    status: TxnStatus,
    checkout: Option<int>,
    actualReturn: Option<int>,
    adminCheckout: Option<int>,
    adminCheckin: Option<int>,
    metadata: Metadata,
    notesCheckin: Option<string>,
    prodi: string,
    createdAt: int)

  /** The nine columns of an `inventory` row that the services write. */
  datatype Item = Item(
    barcode: string,
    typeName: string,
    brand: string,
    model: string,
    serialNumber: string,
    description: string,
    status: StoredStatus,
    purchaseDate: string,
    location: string)

  datatype Student = Student(name: string, prodi: string)

  /** A `jadwal` row joined with its class, lecturer and room (a schedule whose
      join partner is missing is not found, like in the query). */
  datatype Schedule = Schedule(prodi: string, className: string, lecturerName: string, room: string)

  /** Who a notification goes to: one student's room or every admin. */
  datatype Audience = ToStudent(nim: string) | ToAdmins

  /** A notification, by event name and transaction id; payloads are not modelled. */
  datatype Event = Event(audience: Audience, name: string, txnId: int)

  datatype Store = Store(
    txns: map<int, Txn>,
    items: map<int, Item>,
    students: map<string, Student>,
    lecturers: map<string, string>,
    classes: map<string, int>,
    schedules: map<int, Schedule>,
    prodis: set<string>,
    nextTxnId: int,
    nextItemId: int,
    log: seq<Event>)

  /** `SERIAL` keys: every id handed out so far is below the next one. */
  ghost predicate FreshCounters(s: Store) {
    && (forall id :: id in s.txns ==> id < s.nextTxnId)
    && (forall id :: id in s.items ==> id < s.nextItemId)
  }

  /** The transactions that currently hold item `itemId` on loan. */
  function LoansOf(s: Store, itemId: int): set<int> {
    set id | id in s.txns && s.txns[id].status == OnLoan && s.txns[id].itemId == itemId
  }

  /** The loan invariant: a transaction on loan refers to an existing item, and
      an item is lent out exactly when one transaction on loan refers to it. */
  ghost predicate LoanConsistent(s: Store) {
    && (forall id :: id in s.txns && s.txns[id].status == OnLoan ==> s.txns[id].itemId in s.items)
    && (forall i :: i in s.items ==> |LoansOf(s, i)| == if s.items[i].status == Lent then 1 else 0)
  }

  ghost predicate Valid(s: Store) {
    FreshCounters(s) && LoanConsistent(s)
  }

  // Metadata keys written into `notes_checkout`.
  const LecturerNip := "lecturer_nip"
  const LecturerName := "lecturer_name"
  const ClassName := "class_name"
  const CountdownExpiry := "countdown_expiry"
  const ActualReturnDate := "actual_return_date"
  const RequestType := "request_type"
  const ValidationPassed := "validation_passed"
  const AcceptedAt := "accepted_at"
  const AcceptedByAdmin := "accepted_by_admin"
  const StudentArrivedAt := "student_arrived_at"
  const MetaStatus := "status"
  const CompletedAt := "completed_at"
  const ApprovedByAdmin := "approved_by_admin"
  const BarcodeScannedAt := "barcode_scanned_at"
  const ClassId := "class_id"
  const DirectAdminLending := "direct_admin_lending"
  const AdminLendingDate := "admin_lending_date"
  const LendingAdmin := "lending_admin"

  /** The 15-minute countdown, in milliseconds. */
  const CountdownMs := 15 * 60 * 1000

  /** A transaction that is waiting for, or has passed, the admin's acceptance. */
  predicate IsOpen(st: TxnStatus) {
    st == Pending || st == Accepted
  }

  predicate ItemAvailable(s: Store, itemId: int) {
    itemId in s.items && s.items[itemId].status == Available
  }

  /** Rewriting one transaction that is not on loan, before or after, keeps
      every item's set of loans, hence the invariant. */
  lemma TouchNonLoan(s: Store, s': Store, id: int)
    requires Valid(s)
    requires id in s'.txns && s'.txns == s.txns[id := s'.txns[id]]
    requires s'.items == s.items
    requires id in s.txns ==> s.txns[id].status != OnLoan
    requires s'.txns[id].status != OnLoan
    requires id < s'.nextTxnId && s.nextTxnId <= s'.nextTxnId && s.nextItemId <= s'.nextItemId
    ensures Valid(s')
  {
    forall i | i in s'.items ensures LoansOf(s', i) == LoansOf(s, i) {
      assert forall j :: j in LoansOf(s', i) <==> j in LoansOf(s, i);
    }
  }

  /** Putting transaction `id` on loan for an available item, and marking that
      item lent in the same step, keeps the invariant. */
  lemma StartLoan(s: Store, s': Store, id: int)
    requires Valid(s)
    requires id in s'.txns && s'.txns == s.txns[id := s'.txns[id]]
    requires id in s.txns ==> s.txns[id].status != OnLoan
    requires s'.txns[id].status == OnLoan
    requires ItemAvailable(s, s'.txns[id].itemId)
    requires s'.items == s.items[s'.txns[id].itemId := s.items[s'.txns[id].itemId].(status := Lent)]
    requires id < s'.nextTxnId && s.nextTxnId <= s'.nextTxnId && s.nextItemId <= s'.nextItemId
    ensures Valid(s')
  {
    var it := s'.txns[id].itemId;
    assert LoansOf(s, it) == {} by {
      assert |LoansOf(s, it)| == 0;
    }
    assert LoansOf(s', it) <= LoansOf(s, it) + {id};
    assert LoansOf(s', it) == {id};
    forall i | i in s'.items && i != it ensures LoansOf(s', i) == LoansOf(s, i) {
      assert forall j :: j in LoansOf(s', i) <==> j in LoansOf(s, i);
    }
  }

  /** The primary keys of a table in some order, each once: the rows a
      `SELECT` without `WHERE` scans. */
  method KeysOf<V>(m: map<int, V>) returns (ks: seq<int>)
    ensures forall k :: k in ks <==> k in m
    ensures forall i, j :: 0 <= i < j < |ks| ==> ks[i] != ks[j]
  {
    ks := [];
    var rest := m.Keys;
    while rest != {}
      invariant rest <= m.Keys
      invariant forall x :: x in ks <==> x in m && x !in rest
      invariant forall i, j :: 0 <= i < j < |ks| ==> ks[i] != ks[j]
      decreases |rest|
    {
      if forall x :: x !in rest {
        assert false;
      }
      var k :| k in rest;
      ks := ks + [k];
      rest := rest - {k};
    }
  }
}

=== FILE: borrow_utils.dfy ===
/** `utils/borrowUtils.js`: the eligibility check that precedes a borrow
    request and the automatic rejection of a request nobody accepted. */
module BorrowUtils {
  import opened Wrappers
  import opened BorrowStore
  import PgClient

  const StudentNotFound := "Mahasiswa tidak ditemukan"
  const ScheduleNotFound := "Jadwal yang dipilih tidak ditemukan"
  const ReturnNotInFuture := "Waktu pengembalian harus di waktu selanjutnya"
  const AutoRejectNote := "Otomatis ditolak: tidak datang dalam 15 menit"

  function ProdiMismatch(scheduleProdi: string, studentProdi: string): string {
    "Jadwal ini untuk program studi " + scheduleProdi + ", bukan untuk " + studentProdi
  }

  /** The four conditions a borrow request must meet, in the order they are checked. */
  predicate Eligible(s: Store, nim: string, jadwalId: int, returnTime: int, now: int) {
    && nim in s.students
    && jadwalId in s.schedules
    && s.schedules[jadwalId].prodi == s.students[nim].prodi
    && returnTime > now
  }

  /** `validateBorrowEligibility`: the schedule row when the student exists, the
      schedule exists, both belong to the same study programme and the return
      time lies in the future; otherwise the message of the first check that
      fails. It only reads the store. */
  function ValidateBorrowEligibility(s: Store, nim: string, jadwalId: int, returnTime: int, now: int)
    : (r: Result<Schedule, string>)
    ensures r.Ok? <==> Eligible(s, nim, jadwalId, returnTime, now)
    ensures r.Ok? ==> r.value == s.schedules[jadwalId]
    ensures nim !in s.students ==> r == Err(StudentNotFound)
    ensures nim in s.students && jadwalId !in s.schedules ==> r == Err(ScheduleNotFound)
    ensures nim in s.students && jadwalId in s.schedules && s.schedules[jadwalId].prodi != s.students[nim].prodi
            ==> r == Err(ProdiMismatch(s.schedules[jadwalId].prodi, s.students[nim].prodi))
    ensures nim in s.students && jadwalId in s.schedules && s.schedules[jadwalId].prodi == s.students[nim].prodi && returnTime <= now
            ==> r == Err(ReturnNotInFuture)
    ensures r.Err? && r.error == ReturnNotInFuture ==> returnTime <= now
  {
    if nim !in s.students then Err(StudentNotFound)
    else if jadwalId !in s.schedules then Err(ScheduleNotFound)
    else
      var schedule := s.schedules[jadwalId];
      var prodi := s.students[nim].prodi;
      if schedule.prodi != prodi then Err(ProdiMismatch(schedule.prodi, prodi))
      else if returnTime <= now then Err(ReturnNotInFuture)
      else Ok(schedule)
  }

  /** The row `autoRejectExpiredRequest` selects: a pending transaction whose
      promised return time has passed and whose student exists. */
  predicate AutoRejectable(s: Store, id: int, now: int) {
    && id in s.txns
    && s.txns[id].status == Pending
    && s.txns[id].promisedReturn <= now
    && s.txns[id].nim in s.students
  }

  /** The rejection itself, once a guard has selected transaction `id`. */
  function MarkAutoRejected(s: Store, id: int, now: int): (s': Store)
    requires id in s.txns
    ensures s'.txns.Keys == s.txns.Keys
    ensures s'.items == s.items && s'.students == s.students
  {
    var t := s.txns[id];
    s.(txns := s.txns[id := t.(status := Returned, notesCheckin := Some(AutoRejectNote), actualReturn := Some(now))],
       log := s.log + [Event(ToStudent(t.nim), "borrow_auto_rejected", id), Event(ToAdmins, "request_auto_rejected", id)])
  }

  /** `autoRejectExpiredRequest(id)` at time `now`: the new store and whether a
      request was rejected. Without a matching row it answers `false` and the
      store stays as it was. */
  function AutoRejectExpiredRequest(s: Store, id: int, now: int): (r: (Store, bool))
    ensures r.1 <==> AutoRejectable(s, id, now)
    ensures !r.1 ==> r.0 == s
    ensures r.1 ==>
      && r.0.txns.Keys == s.txns.Keys
      && (forall j :: j in s.txns && j != id ==> r.0.txns[j] == s.txns[j])
      && r.0.txns[id] == s.txns[id].(status := Returned, notesCheckin := Some(AutoRejectNote), actualReturn := Some(now))
      && r.0.log == s.log + [Event(ToStudent(s.txns[id].nim), "borrow_auto_rejected", id), Event(ToAdmins, "request_auto_rejected", id)]
    ensures r.0.items == s.items
  {
    if AutoRejectable(s, id, now) then (MarkAutoRejected(s, id, now), true) else (s, false)
  }

  /** `autoRejectExpiredRequest(id)` as written: the transaction is opened with
      `connection.beginTransaction()`, which a pg client lacks, and the catch
      clause's `connection.rollback()` throws as well. The store is left as it
      was and the returned promise rejects with the second `TypeError`; the
      `return false` of the catch clause is never reached. */
  function AutoRejectAsWritten(s: Store, id: int, now: int): (r: (Store, Result<bool, string>))
    ensures r.0 == s
    ensures r.1 == Err(PgClient.NotAFunction(PgClient.Rollback))
  {
    var intended := AutoRejectExpiredRequest(s, id, now);
    match PgClient.MysqlStyleBlock(Ok(intended), _ => Ok((s, false)))
    case Ok(v) => (v.0, Ok(v.1))
    case Err(e) => (s, Err(e))
  }

  /** A request the rejection is meant to catch stays pending: the intended
      operation rejects it, the code as written throws before reading it. */
  lemma AutoRejectNeverRuns(s: Store, id: int, now: int)
    requires AutoRejectable(s, id, now)
    ensures AutoRejectExpiredRequest(s, id, now).1
    ensures AutoRejectExpiredRequest(s, id, now).0.txns[id].status == Returned
    ensures AutoRejectAsWritten(s, id, now) == (s, Err("connection.rollback is not a function"))
    ensures AutoRejectAsWritten(s, id, now).0.txns[id].status == Pending
  {
    PgClient.RollbackMessage();
  }

  /** After a successful automatic rejection, a second one for the same request
      finds nothing to do, at any time. */
  lemma AutoRejectIdempotent(s: Store, id: int, now: int, later: int)
    requires AutoRejectExpiredRequest(s, id, now).1
    ensures var s1 := AutoRejectExpiredRequest(s, id, now).0;
      AutoRejectExpiredRequest(s1, id, later) == (s1, false)
  {
  }

  /** The automatic rejection keeps the loan invariant. */
  lemma AutoRejectKeepsValid(s: Store, id: int, now: int)
    requires Valid(s)
    ensures Valid(AutoRejectExpiredRequest(s, id, now).0)
  {
    if AutoRejectable(s, id, now) {
      TouchNonLoan(s, MarkAutoRejected(s, id, now), id);
    }
  }

  // ----------------------------------------------------------------------
  // The countdown the automatic rejection was meant to enforce.

  /** The countdown expiry recorded in a transaction's metadata, read the way
      `new Date(metadata.countdown_expiry)` reads it; `None` is an invalid date.
      A date written as text is not parsed by this model. */
  function CountdownOf(t: Txn): (e: Option<int>)
    ensures CountdownExpiry in t.metadata && t.metadata[CountdownExpiry].MTime? ==> e == Some(t.metadata[CountdownExpiry].ms)
    ensures CountdownExpiry !in t.metadata ==> e.None?
  {
    if CountdownExpiry !in t.metadata then None
    else match t.metadata[CountdownExpiry]
      case MTime(ms) => Some(ms)
      case MNum(n) => Some(n)
      case MFlag(b) => Some(if b then 1 else 0)
      case MText(_) => None
  }

  /** A pending request whose 15-minute countdown has run out. */
  predicate CountdownExpired(s: Store, id: int, now: int) {
    && id in s.txns
    && s.txns[id].status == Pending
    && CountdownOf(s.txns[id]).Some? && CountdownOf(s.txns[id]).value <= now
    && s.txns[id].nim in s.students
  }

  /** The automatic rejection guarded by the countdown the request carries
      rather than by its promised return time. */
  function AutoRejectOnCountdown(s: Store, id: int, now: int): (r: (Store, bool))
    ensures r.1 <==> CountdownExpired(s, id, now)
    ensures !r.1 ==> r.0 == s
    ensures r.1 ==> r.0 == MarkAutoRejected(s, id, now) && r.0.txns[id].status == Returned
    ensures r.0.items == s.items
  {
    if CountdownExpired(s, id, now) then (MarkAutoRejected(s, id, now), true) else (s, false)
  }

  lemma AutoRejectOnCountdownKeepsValid(s: Store, id: int, now: int)
    requires Valid(s)
    ensures Valid(AutoRejectOnCountdown(s, id, now).0)
  {
    if CountdownExpired(s, id, now) {
      TouchNonLoan(s, MarkAutoRejected(s, id, now), id);
    }
  }
}

=== FILE: cells.dfy ===
/** A workbook as the `xlsx` library hands it to the parsers: sheet names in
    workbook order, and per sheet the rows produced by `sheet_to_json(ws, {header: 1})`,
    each an array of cell values. Everything downstream of that call is pure. */
module Cells {
  import opened Wrappers
  import opened Text
  import opened JsNumber

  /** A cell value: a string, an (integral) number, or a hole (`undefined`). */
  datatype Cell = Str(s: string) | Num(n: int) | Empty

  type Row = seq<Cell>
  type Sheet = seq<Row>

  datatype Workbook = Workbook(sheetNames: seq<string>, sheets: map<string, Sheet>)

  /** One extracted student, as the parsers push it: `{nim, name, class_group}`. */
  datatype ParsedStudent = ParsedStudent(nim: string, name: string, classGroup: string)

  /** `getSafeString`: strings are upper-cased, every other value reads as "". */
  function SafeString(c: Cell): (r: string)
    ensures c.Str? ==> |r| == |c.s|
    ensures !c.Str? ==> r == ""
    ensures forall i :: 0 <= i < |r| ==> !('a' <= r[i] <= 'z')
  {
    if c.Str? then Upper(c.s) else ""
  }

  /** `row[i]`: an index outside the row (including -1) reads `undefined`. */
  function CellAt(row: Row, i: int): (c: Cell)
    ensures (i < 0 || i >= |row|) ==> c == Empty
  {
    if 0 <= i < |row| then row[i] else Empty
  }

  /** `getRawData(workbook.Sheets[name])`: a missing sheet reads as no rows. */
  function RawData(wb: Workbook, name: string): Sheet {
    if name in wb.sheets then wb.sheets[name] else []
  }

  /** `workbook.Sheets[workbook.SheetNames[0]]` is defined. */
  predicate HasFirstSheet(wb: Workbook) {
    |wb.sheetNames| > 0 && wb.sheetNames[0] in wb.sheets
  }

  /** The rows of `workbook.Sheets[workbook.SheetNames[0]]`, none when it is missing. */
  function FirstSheetRows(wb: Workbook): (rows: Sheet)
    ensures !HasFirstSheet(wb) ==> rows == []
  {
    if |wb.sheetNames| == 0 then [] else RawData(wb, wb.sheetNames[0])
  }

  /** JavaScript truthiness of a cell value. */
  predicate Truthy(c: Cell) {
    match c
    case Str(s) => s != ""
    case Num(n) => n != 0
    case Empty => false
  }

  /** `!isNaN(c)`. */
  predicate NotNaN(c: Cell) {
    match c
    case Str(s) => IsNumericString(s)
    case Num(_) => true
    case Empty => false
  }

  /** `typeof name === "string" && name.trim() !== ""`. */
  predicate IsFilledName(c: Cell) {
    c.Str? && Trim(c.s) != ""
  }

  /** The row filter shared by every parser:
      `nim && !isNaN(nim) && typeof name === "string" && name.trim() !== ""`. */
  predicate RowAccepted(nim: Cell, name: Cell) {
    Truthy(nim) && NotNaN(nim) && IsFilledName(name)
  }

  /** `String(c)` for the cells a NIM can be. */
  function CellText(c: Cell): string {
    match c
    case Str(s) => s
    case Num(n) => IntToString(n)
    case Empty => "undefined"
  }

  /** `Array.prototype.findIndex`: the first index whose element satisfies `p`, else -1. */
  function FindIndex<T>(s: seq<T>, p: T -> bool): (i: int)
    ensures -1 <= i < |s|
    ensures i >= 0 ==> p(s[i])
    ensures forall j :: 0 <= j < |s| && (i == -1 || j < i) ==> !p(s[j])
  {
    if |s| == 0 then -1
    else if p(s[0]) then 0
    else
      var k := FindIndex(s[1..], p);
      if k == -1 then -1 else k + 1
  }

  /** `findIndex` answers the first index whose element satisfies `p`, whichever way it was found. */
  lemma FindIndexIsFirst<T>(s: seq<T>, p: T -> bool, k: int)
    requires 0 <= k < |s| && p(s[k])
    requires forall j :: 0 <= j < k ==> !p(s[j])
    ensures FindIndex(s, p) == k
  {
  }

  /** The set of NIMs of a list of students. */
  function NimsOf(a: seq<ParsedStudent>): set<string> {
    set x | x in a :: x.nim
  }

  /** NIMs are pairwise distinct. */
  predicate DistinctNims(a: seq<ParsedStudent>) {
    forall i, j :: 0 <= i < j < |a| ==> a[i].nim != a[j].nim
  }
}

=== FILE: header_fold.dfy ===
/** The shape both column parsers' row loops share: a pass over rows in which
    a header row replaces the state in force (`currentClassBlocks = [...]`,
    `continue`) and every other row emits what is read from it under that
    state. Stated over abstract functions so that the facts below hold for any
    header test and any reader. */
module HeaderFold {

  /** The loop as written: left to right, threading the state. */
  function Fold<R, B, S>(rows: seq<R>, state: B, isHeader: R -> bool, open: R -> B, read: (R, B) -> seq<S>)
    : seq<S>
    decreases |rows|
  {
    if |rows| == 0 then []
    else if isHeader(rows[0]) then Fold(rows[1..], open(rows[0]), isHeader, open, read)
    else read(rows[0], state) + Fold(rows[1..], state, isHeader, open, read)
  }

  /** The index of the last header row above row `i`, or -1 when there is none. */
  function LastHeaderBefore<R>(rows: seq<R>, i: nat, isHeader: R -> bool): (j: int)
    requires i <= |rows|
    ensures -1 <= j < i
    ensures j >= 0 ==> isHeader(rows[j])
    ensures forall m :: j < m < i ==> !isHeader(rows[m])
    decreases i
  {
    if i == 0 then -1
    else if isHeader(rows[i - 1]) then i - 1
    else LastHeaderBefore(rows, i - 1, isHeader)
  }

  /** The state in force at row `i`: the one the last header above it opens,
      or `initial` when no header came yet. */
  function StateAt<R, B>(rows: seq<R>, initial: B, isHeader: R -> bool, open: R -> B, i: nat): B
    requires i <= |rows|
  {
    var j := LastHeaderBefore(rows, i, isHeader);
    if j == -1 then initial else open(rows[j])
  }

  /** What row `i` emits: nothing for a header, otherwise its reading under
      the state in force. */
  function YieldAt<R, B, S>(rows: seq<R>, initial: B, isHeader: R -> bool, open: R -> B, read: (R, B) -> seq<S>, i: nat)
    : seq<S>
    requires i < |rows|
  {
    if isHeader(rows[i]) then [] else read(rows[i], StateAt(rows, initial, isHeader, open, i))
  }

  /** Reference reading: the emissions of rows `0 .. n-1`, concatenated in row order. */
  function Yields<R, B, S>(rows: seq<R>, initial: B, isHeader: R -> bool, open: R -> B, read: (R, B) -> seq<S>, n: nat)
    : seq<S>
    requires n <= |rows|
    decreases n
  {
    if n == 0 then []
    else Yields(rows, initial, isHeader, open, read, n - 1) + YieldAt(rows, initial, isHeader, open, read, n - 1)
  }

  /** The loop's state after `k` rows: the emissions so far, then the loop over
      the remaining rows with the state in force at row `k`. */
  lemma {:induction false} FoldFrom<R, B, S>(rows: seq<R>, initial: B, isHeader: R -> bool, open: R -> B,
                                             read: (R, B) -> seq<S>, k: nat)
    requires k <= |rows|
    ensures Fold(rows, initial, isHeader, open, read)
         == Yields(rows, initial, isHeader, open, read, k)
            + Fold(rows[k..], StateAt(rows, initial, isHeader, open, k), isHeader, open, read)
    decreases k
  {
    if k == 0 {
      assert rows[0..] == rows;
    } else {
      FoldFrom(rows, initial, isHeader, open, read, k - 1);
      var tail := rows[k - 1..];
      assert tail[0] == rows[k - 1] && tail[1..] == rows[k..];
      var y := Yields(rows, initial, isHeader, open, read, k - 1);
      var here := YieldAt(rows, initial, isHeader, open, read, k - 1);
      var rest := Fold(rows[k..], StateAt(rows, initial, isHeader, open, k), isHeader, open, read);
      assert Fold(tail, StateAt(rows, initial, isHeader, open, k - 1), isHeader, open, read) == here + rest;
      assert y + (here + rest) == (y + here) + rest;
    }
  }

  /** The loop computes the reference reading. */
  lemma FoldIsYields<R, B, S>(rows: seq<R>, initial: B, isHeader: R -> bool, open: R -> B, read: (R, B) -> seq<S>)
    ensures Fold(rows, initial, isHeader, open, read) == Yields(rows, initial, isHeader, open, read, |rows|)
  {
    FoldFrom(rows, initial, isHeader, open, read, |rows|);
    assert rows[|rows|..] == [];
    assert Yields(rows, initial, isHeader, open, read, |rows|) + []
        == Yields(rows, initial, isHeader, open, read, |rows|);
  }

  /** Nothing emitted is lost: an element of row `i`'s emission is in every
      longer prefix's emissions. */
  lemma {:induction false} YieldAtIn<R, B, S>(rows: seq<R>, initial: B, isHeader: R -> bool, open: R -> B,
                                              read: (R, B) -> seq<S>, i: nat, n: nat, x: S)
    requires i < n <= |rows| && x in YieldAt(rows, initial, isHeader, open, read, i)
    ensures x in Yields(rows, initial, isHeader, open, read, n)
    decreases n
  {
    if i < n - 1 {
      YieldAtIn(rows, initial, isHeader, open, read, i, n - 1, x);
    }
  }

  /** Nothing is invented: every element of the emissions comes from some row. */
  lemma {:induction false} YieldsFrom<R, B, S>(rows: seq<R>, initial: B, isHeader: R -> bool, open: R -> B,
                                               read: (R, B) -> seq<S>, n: nat, x: S)
    requires n <= |rows| && x in Yields(rows, initial, isHeader, open, read, n)
    ensures exists i :: 0 <= i < n && x in YieldAt(rows, initial, isHeader, open, read, i)
    decreases n
  {
    if x !in YieldAt(rows, initial, isHeader, open, read, n - 1) {
      YieldsFrom(rows, initial, isHeader, open, read, n - 1, x);
    }
  }
}

=== FILE: header_patterns.dfy ===
/** The regular expressions of the two spreadsheet parsers, each rewritten as
    a predicate over positions.
    Each `...At(s, p)` says the pattern matches starting at index `p`; the
    matching function takes the leftmost such `p`, as `String.prototype.match`
    does without the `g` flag. Every quantifier in these patterns is greedy and is
    followed by a character it cannot consume, so each has at most one way to
    match at a given index and no backtracking needs modelling. Case-insensitive
    (`/i`) comparisons fold ASCII letters only, which is what a non-Unicode
    ECMAScript pattern does for these letters. */
module HeaderPatterns {
  import opened Wrappers
  import opened Text
  import JsNumber

  predicate NoLineTerminator(s: string) {
    forall i :: 0 <= i < |s| ==> !IsLineTerminator(s[i])
  }

  // /NAMA MAHASISWA\s+(.*)$/i

  /** `NAMA MAHASISWA`, at least one whitespace character, then a rest without line
      terminators up to the end of the string (`.` stops at them and `$` needs the end). */
  predicate NamaMahasiswaAt(h: string, p: nat) {
    && p + 15 <= |h|
    && Upper(h[p..p + 14]) == "NAMA MAHASISWA"
    && IsSpace(h[p + 14])
    && NoLineTerminator(DropLeadingSpaces(h[p + 14..]))
  }

  /** Capture group 1 of `/NAMA MAHASISWA\s+(.*)$/i`, or `None` when there is no match. */
  function NamaMahasiswaGroup(h: string): (g: Option<string>)
    ensures g.Some? <==> exists p :: 0 <= p <= |h| && NamaMahasiswaAt(h, p)
    ensures g.Some? ==> NoLineTerminator(g.value) && (|g.value| > 0 ==> !IsSpace(g.value[0]))
  {
    var at := (p: nat) => NamaMahasiswaAt(h, p);
    match Leftmost(|h|, 0, at)
    case None =>
      assert forall q: nat :: at(q) == NamaMahasiswaAt(h, q);
      None
    case Some(p) =>
      assert at(p);
      assert NamaMahasiswaAt(h, p);
      Some(DropLeadingSpaces(h[p + 14..]))
  }

  // /(\d{2})\s*([A-D])/i

  predicate YearClassAt(s: string, p: nat) {
    && p + 2 <= |s|
    && IsDigit(s[p]) && IsDigit(s[p + 1])
    && var rest := DropLeadingSpaces(s[p + 2..]);
       |rest| > 0 && 'A' <= UpperChar(rest[0]) <= 'D'
  }

  /** Groups 1 and 2 of `/(\d{2})\s*([A-D])/i`: two digits and the class letter,
      the letter already upper-cased (the source upper-cases it). */
  function YearClass(s: string): (r: Option<(string, char)>)
    ensures r.Some? ==> |r.value.0| == 2 && AllDigits(r.value.0) && 'A' <= r.value.1 <= 'D'
    ensures r.None? <==> forall p :: 0 <= p <= |s| ==> !YearClassAt(s, p)
  {
    var at := (p: nat) => YearClassAt(s, p);
    match Leftmost(|s|, 0, at)
    case None =>
      assert forall q: nat :: at(q) == YearClassAt(s, q);
      None
    case Some(p) =>
      Some(YearClassGroups(s, p))
  }

  /** The two groups of a match at `p`. */
  function YearClassGroups(s: string, p: nat): (r: (string, char))
    requires YearClassAt(s, p)
    ensures |r.0| == 2 && AllDigits(r.0) && 'A' <= r.1 <= 'D'
  {
    var rest := DropLeadingSpaces(s[p + 2..]);
    (s[p..p + 2], UpperChar(rest[0]))
  }

  // /KOMPEN\s+(TOLI\s+\d+[AB])/i

  /** `TOLI`, at least one whitespace character, digits, then `A` or `B`. */
  predicate ToliClassAt(r: string) {
    && |r| >= 5
    && Upper(r[..4]) == "TOLI"
    && IsSpace(r[4])
    && var r2 := DropLeadingSpaces(r[4..]);
       var k := JsNumber.DigitRun(r2, 10);
       k > 0 && k < |r2| && (UpperChar(r2[k]) == 'A' || UpperChar(r2[k]) == 'B')
  }

  /** Length of the text `ToliClassAt` matches. */
  function ToliClassLength(r: string): (e: nat)
    requires ToliClassAt(r)
    ensures 7 <= e <= |r|
  {
    var r2 := DropLeadingSpaces(r[4..]);
    |r| - |r2| + JsNumber.DigitRun(r2, 10) + 1
  }

  predicate KompenToliAt(n: string, p: nat) {
    && p + 7 <= |n|
    && Upper(n[p..p + 6]) == "KOMPEN"
    && IsSpace(n[p + 6])
    && ToliClassAt(DropLeadingSpaces(n[p + 6..]))
  }

  /** The text group 1 captures for a match at `p`. */
  function KompenToliCapture(n: string, p: nat): (g: string)
    requires KompenToliAt(n, p)
    ensures |g| >= 7 && Upper(g[..4]) == "TOLI"
  {
    var r1 := DropLeadingSpaces(n[p + 6..]);
    ToliClassPrefix(r1);
    r1[..ToliClassLength(r1)]
  }

  /** The matched class text keeps the `TOLI` it starts with. */
  lemma ToliClassPrefix(r: string)
    requires ToliClassAt(r)
    ensures Upper(r[..ToliClassLength(r)][..4]) == "TOLI"
  {
    assert r[..ToliClassLength(r)][..4] == r[..4];
  }

  /** Capture group 1 of `/KOMPEN\s+(TOLI\s+\d+[AB])/i`, in the sheet name's own case. */
  function KompenToliGroup(n: string): (g: Option<string>)
    ensures g.Some? <==> exists p :: 0 <= p <= |n| && KompenToliAt(n, p)
    ensures g.Some? ==> |g.value| >= 7 && Upper(g.value[..4]) == "TOLI"
  {
    var at := (p: nat) => KompenToliAt(n, p);
    match Leftmost(|n|, 0, at)
    case None =>
      assert forall q: nat :: at(q) == KompenToliAt(n, q);
      None
    case Some(p) =>
      Some(KompenToliCapture(n, p))
  }

  // /\{2}\s*[A-D]/  (a literal "{2}", as written in the source)

  predicate BraceTwoAt(s: string, p: nat) {
    && p + 3 <= |s|
    && s[p..p + 3] == "{2}"
    && var rest := DropLeadingSpaces(s[p + 3..]);
       |rest| > 0 && 'A' <= rest[0] <= 'D'
  }

  predicate HasBraceTwo(s: string) {
    Leftmost(|s|, 0, (p: nat) => BraceTwoAt(s, p)).Some?
  }
}

=== FILE: import_utils.dfy ===
/** `utils/importUtils.js`: the spelling fixes for class groups that double as
    study-programme names, and the academic year a NIM's two-digit prefix
    encodes. The current year is a parameter (`new Date().getFullYear()`). */
module ImportUtils {
  import opened Wrappers
  import opened Text
  import JsNumber

  /** The eight spellings both `standardizeProdiName` functions correct. */
  const ProdiMapping: map<string, string> := map[
    "BM 2A" := "BM2A", "BM 2B" := "BM2B",
    "BM-4A" := "BM4A", "BM-4B" := "BM4B",
    "BM-6A" := "BM6A", "BM-6B" := "BM6B",
    "BM-8A" := "BM8A", "BM-8B" := "BM8B"]

  /** Every corrected spelling is a non-empty (hence truthy) name without whitespace. */
  lemma MappingValuesAreCompact()
    ensures forall k :: k in ProdiMapping ==> ProdiMapping[k] != "" && NoSpaces(ProdiMapping[k])
  {
    forall k | k in ProdiMapping ensures ProdiMapping[k] != "" && NoSpaces(ProdiMapping[k]) {
      var v := ProdiMapping[k];
      assert v in {"BM2A", "BM2B", "BM4A", "BM4B", "BM6A", "BM6B", "BM8A", "BM8B"};
    }
  }

  /** `standardizeProdiName` of the import helpers: a listed spelling is
      corrected, anything else loses all its whitespace. */
  function StandardizeProdiName(className: string): (r: string)
    ensures className in ProdiMapping ==> r == ProdiMapping[className]
    ensures className !in ProdiMapping ==> r == StripSpaces(className)
    ensures NoSpaces(r)
  {
    MappingValuesAreCompact();
    if className in ProdiMapping then ProdiMapping[className] else StripSpaces(className)
  }

  /** Standardizing again changes nothing, unless the whitespace removal
      itself produced one of the listed spellings (`"BM -4A"` becomes
      `"BM-4A"`, which a second pass turns into `"BM4A"`). */
  lemma StandardizeStable(className: string)
    requires StandardizeProdiName(className) !in ProdiMapping
    ensures StandardizeProdiName(StandardizeProdiName(className)) == StandardizeProdiName(className)
  {
  }

  /** The exception: one pass is not always enough. */
  lemma StandardizeNotIdempotent()
    ensures StandardizeProdiName("BM -4A") == "BM-4A"
    ensures StandardizeProdiName(StandardizeProdiName("BM -4A")) == "BM4A"
  {
    StripSpacedDash();
    assert "BM -4A" !in ProdiMapping;
    assert "BM-4A" in ProdiMapping;
  }

  /** Removing the whitespace of `"BM -4A"` gives the listed `"BM-4A"`. */
  lemma StripSpacedDash()
    ensures StripSpaces("BM -4A") == "BM-4A"
  {
    var tail := "-4A";
    assert NoSpaces(tail);
    StripKeeps('M', " " + tail);
    StripDrops(' ', tail);
    StripKeeps('B', "M" + " " + tail);
    assert "BM -4A" == ['B'] + ("M" + " " + tail);
  }

  lemma StripKeeps(c: char, rest: string)
    requires !IsSpace(c)
    ensures StripSpaces([c] + rest) == [c] + StripSpaces(rest)
  {
    assert ([c] + rest)[1..] == rest;
  }

  lemma StripDrops(c: char, rest: string)
    requires IsSpace(c)
    ensures StripSpaces([c] + rest) == StripSpaces(rest)
  {
    assert ([c] + rest)[1..] == rest;
  }

  /** The start year a two-digit prefix value `p` denotes in `currentYear`:
      the prefix within the current century, pushed back a century when that
      would lie in the future. */
  function StartYear(p: int, currentYear: int): (y: int)
    ensures 0 <= p < 100 ==> y % 100 == p && currentYear - 99 <= y <= currentYear
  {
    var century := (currentYear / 100) * 100;
    var y := century + p;
    if y > currentYear then y - 100 else y
  }

  /** `${y}/${y + 1}`; `NaN/NaN` when the prefix does not parse. */
  function YearRange(y: Option<int>): string {
    match y
    case Some(v) => IntToString(v) + "/" + IntToString(v + 1)
    case None => "NaN/NaN"
  }

  /** `extractAcademicYear(nim)`: `None` (null) for a missing NIM or one shorter
      than two characters; otherwise the academic year its first two
      characters denote. */
  function ExtractAcademicYear(nim: Option<string>, currentYear: int): (r: Option<string>)
    ensures r.None? <==> nim.None? || |nim.value| < 2
    ensures r.Some? ==> r.value == YearRange(
              match JsNumber.ParseInt(nim.value[..2])
              case Some(p) => Some(StartYear(p, currentYear))
              case None => None)
  {
    if nim.None? || |nim.value| < 2 then None
    else
      var prefix := nim.value[..2];
      Some(YearRange(match JsNumber.ParseInt(prefix)
                     case Some(p) => Some(StartYear(p, currentYear))
                     case None => None))
  }

  /** For a NIM starting with two digits, the academic year starts in the
      unique year of the last hundred whose last two digits are those digits. */
  lemma AcademicYearOfDigits(nim: string, currentYear: int)
    requires |nim| >= 2 && IsDigit(nim[0]) && IsDigit(nim[1])
    ensures var p := DigitValue(nim[0]) * 10 + DigitValue(nim[1]);
      var y := StartYear(p, currentYear);
      && ExtractAcademicYear(Some(nim), currentYear) == Some(IntToString(y) + "/" + IntToString(y + 1))
      && y % 100 == p && currentYear - 99 <= y <= currentYear
  {
    var p := DigitValue(nim[0]) * 10 + DigitValue(nim[1]);
    assert 0 <= p < 100;
    var y := StartYear(p, currentYear);
    assert y % 100 == p && currentYear - 99 <= y <= currentYear;
    ExtractOfDigits(nim, currentYear);
    YearRangeOf(y);
  }

  /** A NIM starting with two digits denotes the academic year of their value. */
  lemma ExtractOfDigits(nim: string, currentYear: int)
    requires |nim| >= 2 && IsDigit(nim[0]) && IsDigit(nim[1])
    ensures ExtractAcademicYear(Some(nim), currentYear)
         == Some(YearRange(Some(StartYear(DigitValue(nim[0]) * 10 + DigitValue(nim[1]), currentYear))))
  {
    var prefix := nim[..2];
    assert prefix[0] == nim[0] && prefix[1] == nim[1];
    JsNumber.ParseIntTwoDigits(prefix);
  }

  /** The text of a known start year. */
  lemma YearRangeOf(y: int)
    ensures YearRange(Some(y)) == IntToString(y) + "/" + IntToString(y + 1)
  {
  }

  /** The start year is the only one in the window with those last two digits. */
  lemma StartYearUnique(p: int, currentYear: int, y: int)
    requires 0 <= p < 100
    requires y % 100 == p && currentYear - 99 <= y <= currentYear
    ensures y == StartYear(p, currentYear)
  {
    var z := StartYear(p, currentYear);
    assert z % 100 == p;
    assert (y - z) % 100 == 0;
    assert -99 <= y - z <= 99;
  }
}

=== FILE: inventory_controller.dfy ===
/** `controllers/inventoryController.js`: the paging of the inventory list and
    the answer to an item update. Query parameters arrive as text (`None` when
    absent) and go through `parseInt`; a `None` number is `NaN`. The listed
    rows are the inventory in the service's order (newest first). */
module InventoryController {
  import opened Wrappers
  import opened Text
  import JsNumber
  import opened BorrowStore
  import InventoryService

  const FetchFailed := "Gagal mengambil data inventory"
  const ItemUpdated := "Item berhasil diupdate"
  const UpdateFailed := "Gagal update item"

  const DefaultPage := 1
  const DefaultLimit := 10

  /** `parseInt` of a query parameter, or its default when it is absent. */
  function QueryInt(v: Option<string>, default: int): Option<int> {
    if v.None? then Some(default) else JsNumber.ParseInt(v.value)
  }

  /** `Math.ceil(total / limit)` for a positive limit: the fewest pages of
      `limit` rows that hold `total` rows. */
  function PageCount(total: nat, limit: int): (pages: nat)
    requires limit > 0
    ensures total == 0 ==> pages == 0
    ensures total > 0 ==> (pages - 1) * limit < total <= pages * limit
  {
    var q := (total + limit - 1) / limit;
    var rem := (total + limit - 1) % limit;
    assert q * limit == total + limit - 1 - rem;
    assert (q - 1) * limit == q * limit - limit;
    q
  }

  /** The rows `LIMIT limit OFFSET offset` returns. */
  function Window<T>(rows: seq<T>, limit: nat, offset: nat): (w: seq<T>)
    ensures |w| == if offset >= |rows| then 0 else if offset + limit <= |rows| then limit else |rows| - offset
    ensures offset + |w| <= |rows| || |w| == 0
    ensures forall i :: 0 <= i < |w| ==> w[i] == rows[offset + i]
  {
    if offset >= |rows| then []
    else if offset + limit <= |rows| then rows[offset..offset + limit]
    else rows[offset..]
  }

  /** `total_pages` is `None` (serialized as `null`) when the limit is zero:
      `total / 0` is `Infinity` or `NaN`. */
  datatype Pagination = Pagination(currentPage: int, perPage: int, total: nat, totalPages: Option<nat>)

  datatype Listing<T> = Listing(data: seq<T>, pagination: Pagination)

  /** The database refuses a `NaN` or negative `LIMIT` and a `NaN` or negative
      `OFFSET`. */
  predicate Refused(page: Option<int>, limit: Option<int>) {
    page.None? || limit.None? || limit.value < 0 || (page.value - 1) * limit.value < 0
  }

  /** `getAllItems(req, res)`: page `p` of `l` rows starts at row `(p - 1) * l`;
      the page and limit are echoed back with the row count and the number of
      pages. Any refusal by the database becomes the 500 answer. */
  function GetAllItems<T>(rows: seq<T>, page: Option<string>, limit: Option<string>): (r: Result<Listing<T>, string>)
    ensures r.Err? <==> Refused(QueryInt(page, DefaultPage), QueryInt(limit, DefaultLimit))
    ensures r.Err? ==> r.error == FetchFailed
    ensures r.Ok? ==>
      var p := QueryInt(page, DefaultPage).value;
      var l := QueryInt(limit, DefaultLimit).value;
      && r.value.pagination.currentPage == p
      && r.value.pagination.perPage == l
      && r.value.pagination.total == |rows|
      && (r.value.pagination.totalPages.Some? <==> l > 0)
      && |r.value.data| <= l
      && 0 <= (p - 1) * l
      && (|r.value.data| == 0 || (p - 1) * l + |r.value.data| <= |rows|)
      && (forall i :: 0 <= i < |r.value.data| ==> r.value.data[i] == rows[(p - 1) * l + i])
  {
    var p := QueryInt(page, DefaultPage);
    var l := QueryInt(limit, DefaultLimit);
    if Refused(p, l) then Err(FetchFailed)
    else
      var offset := (p.value - 1) * l.value;
      Ok(Listing(Window(rows, l.value, offset),
                 Pagination(p.value, l.value, |rows|, if l.value > 0 then Some(PageCount(|rows|, l.value)) else None)))
  }

  /** Without parameters the first ten rows are listed. */
  lemma DefaultsListFirstTen<T>(rows: seq<T>)
    ensures GetAllItems(rows, None, None).Ok?
    ensures var r := GetAllItems(rows, None, None).value;
      && r.pagination.currentPage == 1 && r.pagination.perPage == 10
      && r.data == rows[..if |rows| < 10 then |rows| else 10]
  {
  }

  lemma MulMonotone(a: int, b: int, c: nat)
    requires a <= b
    ensures a * c <= b * c
  {
  }

  lemma DivModSplit(k: nat, limit: nat)
    requires 0 < limit
    ensures (k / limit) * limit + k % limit == k
    ensures 0 <= k % limit < limit
  {
  }

  /** The listing of page `page` and limit `limit`, both given as decimal text. */
  function PageOf<T>(rows: seq<T>, page: nat, limit: nat): Result<Listing<T>, string> {
    GetAllItems(rows, Some(NatToString(page)), Some(NatToString(limit)))
  }

  /** The first row of page `page`. */
  function Offset(page: nat, limit: nat): nat
    requires 0 < page
  {
    MulMonotone(0, page - 1, limit);
    (page - 1) * limit
  }

  /** Page `page` of `limit` rows begins at row `(page - 1) * limit`. */
  lemma PageOfStarts<T>(rows: seq<T>, page: nat, limit: nat)
    requires 0 < page && 0 < limit
    ensures PageOf(rows, page, limit).Ok?
    ensures PageOf(rows, page, limit).value.data == Window(rows, limit, Offset(page, limit))
    ensures PageOf(rows, page, limit).value.pagination.totalPages == Some(PageCount(|rows|, limit))
  {
    JsNumber.ParseIntOfNatToString(page);
    JsNumber.ParseIntOfNatToString(limit);
    assert QueryInt(Some(NatToString(page)), DefaultPage) == Some(page);
    assert QueryInt(Some(NatToString(limit)), DefaultLimit) == Some(limit);
    MulMonotone(0, page - 1, limit);
    assert !Refused(Some(page), Some(limit));
  }

  /** Every row appears on page `k / limit + 1`, at position `k % limit`, and
      that page is counted in `total_pages`. */
  lemma EveryRowHasItsPage<T>(rows: seq<T>, k: nat, limit: nat)
    requires 0 < limit && k < |rows|
    ensures var r := PageOf(rows, k / limit + 1, limit);
      && r.Ok?
      && k % limit < |r.value.data|
      && r.value.data[k % limit] == rows[k]
      && k / limit + 1 <= r.value.pagination.totalPages.value
  {
    var page := k / limit + 1;
    PageOfStarts(rows, page, limit);
    DivModSplit(k, limit);
    var offset := Offset(page, limit);
    assert offset + k % limit == k;
    var w := Window(rows, limit, offset);
    assert k % limit < |w|;
    var pages := PageCount(|rows|, limit);
    if pages < page {
      MulMonotone(pages, page - 1, limit);
      assert false;
    }
  }

  lemma PastTheEndOffset(total: nat, page: nat, limit: nat)
    requires 0 < limit && page > PageCount(total, limit)
    ensures total <= Offset(page, limit)
  {
    var pages := PageCount(total, limit);
    MulMonotone(pages, page - 1, limit);
    if total > 0 {
      assert total <= pages * limit;
    }
  }

  /** A page past `total_pages` is empty. */
  lemma PagesPastTheEndAreEmpty<T>(rows: seq<T>, page: nat, limit: nat)
    requires 0 < limit
    requires page > PageCount(|rows|, limit)
    ensures PageOf(rows, page, limit).Ok? && PageOf(rows, page, limit).value.data == []
  {
    PageOfStarts(rows, page, limit);
    PastTheEndOffset(|rows|, page, limit);
    assert Window(rows, limit, Offset(page, limit)) == [];
  }

  /** The JSON answer: HTTP status, `success` and `message`. */
  datatype Reply = Reply(status: nat, success: bool, message: string)

  /** `updateItem(req, res)`: the service always hands back an object, so
      the 404 branch is never taken; only a failing query gives the 400
      answer, and then nothing is written. */
  function UpdateItem(s: Store, idText: string, item: Item): (r: (Store, Reply))
    ensures r.1.status != 404
    ensures r.1.success <==> JsNumber.ParseInt(idText).Some?
    ensures r.1.success ==> r.1 == Reply(200, true, ItemUpdated)
    ensures !r.1.success ==> r == (s, Reply(400, false, UpdateFailed))
  {
    match InventoryService.UpdateItem(s, idText, item)
    case Ok(s') => (s', Reply(200, true, ItemUpdated))
    case Err(_) => (s, Reply(400, false, UpdateFailed))
  }

  /** Updating an item that does not exist is reported as a success and
      changes nothing. */
  lemma UpdateOfMissingItemSucceeds(s: Store, n: nat, item: Item)
    requires n !in s.items
    ensures UpdateItem(s, NatToString(n), item) == (s, Reply(200, true, ItemUpdated))
  {
    JsNumber.ParseIntOfNatToString(n);
  }
}

=== FILE: inventory_service.dfy ===
/** `services/inventoryService.js`: listing, creating, updating and deleting
    inventory items. Only deletion consults the transactions. */
module InventoryService {
  import opened Wrappers
  import opened Text
  import opened BorrowStore
  import opened Sorting
  import JsNumber

  /** What the database answers when `parseInt(id)` is `NaN`. */
  const NanId := "invalid input syntax for type integer: \"NaN\""
  const ItemOnLoan := "Item sedang dipinjam, tidak dapat dihapus"

  // ------------------------------------------------------ available items

  datatype ItemRow = ItemRow(id: int, item: Item)

  function SortKey(it: Item): (string, string, string) {
    (it.typeName, it.brand, it.model)
  }

  /** `ORDER BY tipe_nama_barang, brand, model`. */
  predicate ItemLe(a: ItemRow, b: ItemRow) {
    Lex3Le(SortKey(a.item), SortKey(b.item))
  }

  lemma ItemLeTotalPreorder()
    ensures TotalPreorder(ItemLe)
  {
    forall a: ItemRow, b: ItemRow ensures ItemLe(a, b) || ItemLe(b, a) {
      Lex3LeTotal(SortKey(a.item), SortKey(b.item));
    }
    forall a: ItemRow, b: ItemRow, c: ItemRow | ItemLe(a, b) && ItemLe(b, c) ensures ItemLe(a, c) {
      Lex3LeTransitive(SortKey(a.item), SortKey(b.item), SortKey(c.item));
    }
  }

  /** The available items among `ids`, in the order of `ids`. */
  function AvailableRows(s: Store, ids: seq<int>): (rows: seq<ItemRow>)
    ensures forall r :: r in rows ==> r.id in ids && ItemAvailable(s, r.id) && r.item == s.items[r.id]
    ensures forall id :: id in ids && ItemAvailable(s, id) ==> ItemRow(id, s.items[id]) in rows
    ensures Distinct(ids) ==> Distinct(rows)
  {
    if |ids| == 0 then []
    else
      var rest := AvailableRows(s, ids[1..]);
      assert forall id :: id in ids[1..] ==> id in ids;
      if ItemAvailable(s, ids[0]) then
        var rows := [ItemRow(ids[0], s.items[ids[0]])] + rest;
        assert Distinct(ids) ==> Distinct(rows) by {
          if Distinct(ids) {
            assert ids[0] !in ids[1..];
            assert forall j :: 0 < j < |rows| ==> rows[j] == rest[j - 1];
          }
        }
        rows
      else
        rest
  }

  /** `getAvailableItems()`: every item with status `tersedia`, once each,
      ordered by type, brand and model. */
  method GetAvailableItems(s: Store) returns (rows: seq<ItemRow>)
    ensures forall r :: r in rows ==> ItemAvailable(s, r.id) && r.item == s.items[r.id]
    ensures forall id :: ItemAvailable(s, id) ==> ItemRow(id, s.items[id]) in rows
    ensures Distinct(rows)
    ensures SortedBy(rows, ItemLe)
  {
    var ids := KeysOf(s.items);
    var avail := AvailableRows(s, ids);
    ItemLeTotalPreorder();
    rows := SortBy(avail, ItemLe);
    assert forall r :: r in rows <==> r in avail by {
      forall r ensures r in rows <==> r in avail {
        assert r in multiset(rows) <==> r in multiset(avail);
      }
    }
    PermutationKeepsDistinct(rows, avail);
  }

  // --------------------------------------------------------------- create

  /** `createItem(itemData)`: one new row under a fresh key, carrying exactly
      the nine given fields. */
  function CreateItem(s: Store, item: Item): (s': Store)
    ensures s'.items.Keys == s.items.Keys + {s.nextItemId}
    ensures s'.items[s.nextItemId] == item
    ensures forall i :: i in s.items && i != s.nextItemId ==> s'.items[i] == s.items[i]
    ensures s'.txns == s.txns && s'.nextItemId == s.nextItemId + 1
  {
    s.(items := s.items[s.nextItemId := item], nextItemId := s.nextItemId + 1)
  }

  /** Loans depend on the transactions alone. */
  lemma LoansOfSameTxns(s: Store, s': Store, i: int)
    requires s'.txns == s.txns
    ensures LoansOf(s', i) == LoansOf(s, i)
  {
  }

  /** A new item that is not marked lent keeps the loan invariant. */
  lemma CreateItemKeepsValid(s: Store, item: Item)
    requires Valid(s) && item.status != Lent
    ensures Valid(CreateItem(s, item))
    ensures |CreateItem(s, item).items| == |s.items| + 1
  {
    var s' := CreateItem(s, item);
    var n := s.nextItemId;
    assert n !in s.items;
    assert FreshCounters(s');
    assert forall id :: id in s'.txns && s'.txns[id].status == OnLoan ==> s'.txns[id].itemId in s'.items;
    forall i | i in s'.items ensures |LoansOf(s', i)| == if s'.items[i].status == Lent then 1 else 0 {
      LoansOfSameTxns(s, s', i);
      if i == n {
        assert LoansOf(s, n) == {} by {
          assert forall j :: j in s.txns && s.txns[j].status == OnLoan ==> s.txns[j].itemId != n;
        }
      }
    }
  }

  /** Creating an item already marked lent breaks the loan invariant: no
      transaction holds it. */
  lemma CreateLentItemBreaksInvariant(s: Store, item: Item)
    requires Valid(s) && item.status == Lent
    ensures !LoanConsistent(CreateItem(s, item))
  {
    var s' := CreateItem(s, item);
    var n := s.nextItemId;
    assert LoansOf(s', n) == {} by {
      assert n !in s.items;
      assert forall j :: j in s.txns && s.txns[j].status == OnLoan ==> s.txns[j].itemId != n;
    }
  }

  // --------------------------------------------------------------- update

  /** `updateItem(id, itemData)`: all nine fields of the item `parseInt(id)`
      are overwritten, whatever the transactions say; an id without a row
      changes nothing and still succeeds. */
  function UpdateItem(s: Store, idText: string, item: Item): (r: Result<Store, string>)
    ensures r.Err? <==> JsNumber.ParseInt(idText).None?
    ensures r.Err? ==> r.error == NanId
    ensures r.Ok? ==>
      var n := JsNumber.ParseInt(idText).value;
      && r.value.items == (if n in s.items then s.items[n := item] else s.items)
      && r.value.txns == s.txns
  {
    match JsNumber.ParseInt(idText)
    case None => Err(NanId)
    case Some(n) => Ok(if n in s.items then s.(items := s.items[n := item]) else s)
  }

  /** Updating an item on loan to `tersedia` breaks the loan invariant: the
      transaction still holds it. */
  lemma UpdateItemCanBreakInvariant(s: Store, n: nat, item: Item)
    requires Valid(s) && n in s.items && s.items[n].status == Lent
    requires item.status == Available
    ensures UpdateItem(s, NatToString(n), item).Ok?
    ensures !LoanConsistent(UpdateItem(s, NatToString(n), item).value)
  {
    JsNumber.ParseIntOfNatToString(n);
    var s' := UpdateItem(s, NatToString(n), item).value;
    assert LoansOf(s', n) == LoansOf(s, n);
  }

  // --------------------------------------------------------------- delete

  /** Some transaction on loan refers to item `n`. */
  predicate OnLoanItem(s: Store, n: int) {
    exists id :: id in s.txns && s.txns[id].status == OnLoan && s.txns[id].itemId == n
  }

  /** `deleteItem(id)`: refused while a transaction on loan refers to the item;
      otherwise exactly that row disappears. */
  function DeleteItem(s: Store, idText: string): (r: Result<Store, string>)
    ensures JsNumber.ParseInt(idText).None? ==> r == Err(NanId)
    ensures JsNumber.ParseInt(idText).Some? ==>
      var n := JsNumber.ParseInt(idText).value;
      && (OnLoanItem(s, n) ==> r == Err(ItemOnLoan))
      && (!OnLoanItem(s, n) ==> r.Ok? && r.value.items.Keys == s.items.Keys - {n})
    ensures r.Ok? ==> r.value.txns == s.txns && forall i :: i in r.value.items ==> i in s.items && r.value.items[i] == s.items[i]
  {
    match JsNumber.ParseInt(idText)
    case None => Err(NanId)
    case Some(n) =>
      if OnLoanItem(s, n) then Err(ItemOnLoan) else Ok(s.(items := s.items - {n}))
  }

  lemma DeleteItemKeepsValid(s: Store, idText: string)
    requires Valid(s) && DeleteItem(s, idText).Ok?
    ensures Valid(DeleteItem(s, idText).value)
  {
    var s' := DeleteItem(s, idText).value;
    forall i | i in s'.items ensures LoansOf(s', i) == LoansOf(s, i) {
      assert forall j :: j in LoansOf(s', i) <==> j in LoansOf(s, i);
    }
  }
}

=== FILE: js_number.dfy ===
/** JavaScript's two string-to-number conversions as the source uses them:
    `parseInt(s)` (route ids, pagination, the two-digit NIM year prefix) and the
    NaN test `isNaN(s)` behind the spreadsheet row filters. A NaN result is `None`.
    Values beyond 2^53, where JavaScript loses integer precision, are not modelled. */
module JsNumber {
  import opened Wrappers
  import opened Text

  predicate IsHexDigit(c: char) {
    IsDigit(c) || ('a' <= c <= 'f') || ('A' <= c <= 'F')
  }

  predicate IsDigitIn(c: char, radix: nat) {
    if radix == 16 then IsHexDigit(c)
    else if radix == 8 then '0' <= c <= '7'
    else if radix == 2 then c == '0' || c == '1'
    else IsDigit(c)
  }

  function HexValue(c: char): (d: nat)
    requires IsHexDigit(c)
    ensures d < 16
  {
    if IsDigit(c) then DigitValue(c)
    else if 'a' <= c <= 'f' then c as int - 'a' as int + 10
    else c as int - 'A' as int + 10
  }

  /** Number of leading characters of `s` that are digits in `radix`. */
  function DigitRun(s: string, radix: nat): (k: nat)
    ensures k <= |s|
    ensures forall i :: 0 <= i < k ==> IsDigitIn(s[i], radix)
    ensures k < |s| ==> !IsDigitIn(s[k], radix)
  {
    if |s| > 0 && IsDigitIn(s[0], radix) then 1 + DigitRun(s[1..], radix) else 0
  }

  /** The value of a digit string in radix 10 or 16. */
  function RadixValue(s: string, radix: nat): nat
    requires radix == 10 || radix == 16
    requires forall i :: 0 <= i < |s| ==> IsDigitIn(s[i], radix)
  {
    if |s| == 0 then 0
    else
      assert IsDigitIn(s[|s| - 1], radix);
      RadixValue(s[..|s| - 1], radix) * radix + HexValue(s[|s| - 1])
  }

  /** `parseInt(s)` with no radix argument: leading whitespace skipped, an
      optional sign, a `0x`/`0X` prefix switching to radix 16, then the longest
      run of digits; no digit at all gives NaN. */
  function ParseInt(s: string): (r: Option<int>)
    ensures r.None? <==> DigitRun(AfterSignAndPrefix(s), RadixOf(s)) == 0
  {
    var body := AfterSignAndPrefix(s);
    var radix := RadixOf(s);
    var k := DigitRun(body, radix);
    if k == 0 then None
    else Some(SignOf(s) * RadixValue(body[..k], radix))
  }

  function AfterSign(s: string): string {
    var t := DropLeadingSpaces(s);
    if |t| > 0 && (t[0] == '-' || t[0] == '+') then t[1..] else t
  }

  function SignOf(s: string): int {
    var t := DropLeadingSpaces(s);
    if |t| > 0 && t[0] == '-' then -1 else 1
  }

  predicate HasHexPrefix(s: string) {
    var u := AfterSign(s);
    |u| >= 2 && u[0] == '0' && (u[1] == 'x' || u[1] == 'X')
  }

  function RadixOf(s: string): nat {
    if HasHexPrefix(s) then 16 else 10
  }

  function AfterSignAndPrefix(s: string): string {
    var u := AfterSign(s);
    if HasHexPrefix(s) then u[2..] else u
  }

  /** `parseInt` reads back every decimal string `String(n)` writes. */
  lemma ParseIntOfNatToString(n: nat)
    ensures ParseInt(NatToString(n)) == Some(n)
  {
    ParseIntOfDigits(NatToString(n));
    NatToStringRoundTrip(n);
  }

  /** A non-empty decimal digit string parses to its decimal value. */
  lemma ParseIntOfDigits(s: string)
    requires |s| > 0 && AllDigits(s)
    ensures ParseInt(s) == Some(DecimalValue(s))
  {
    assert !IsSpace(s[0]);
    assert DropLeadingSpaces(s) == s;
    assert AfterSign(s) == s;
    assert SignOf(s) == 1;
    assert !HasHexPrefix(s) by {
      if |s| >= 2 { assert IsDigit(s[1]); }
    }
    assert AfterSignAndPrefix(s) == s;
    DigitRunOfDigits(s);
    assert s[..|s|] == s;
    DecimalRadixValue(s);
  }

  lemma {:induction false} DigitRunOfDigits(s: string)
    requires AllDigits(s)
    ensures DigitRun(s, 10) == |s|
  {
    if |s| > 0 {
      DigitRunOfDigits(s[1..]);
    }
  }

  lemma {:induction false} DecimalRadixValue(s: string)
    requires AllDigits(s)
    ensures RadixValue(s, 10) == DecimalValue(s)
  {
    if |s| > 0 {
      DecimalRadixValue(s[..|s| - 1]);
    }
  }

  /** A two-character string of decimal digits parses to its two-digit value. */
  lemma ParseIntTwoDigits(s: string)
    requires |s| == 2 && IsDigit(s[0]) && IsDigit(s[1])
    ensures ParseInt(s) == Some(DigitValue(s[0]) * 10 + DigitValue(s[1]))
  {
    assert AllDigits(s) by {
      forall i | 0 <= i < |s| ensures IsDigit(s[i]) {
        if i != 0 { assert i == 1; }
      }
    }
    ParseIntOfDigits(s);
    DecimalTwoDigits(s);
  }

  lemma DecimalTwoDigits(s: string)
    requires |s| == 2 && IsDigit(s[0]) && IsDigit(s[1])
    ensures DecimalValue(s) == DigitValue(s[0]) * 10 + DigitValue(s[1])
  {
    var h := s[..1];
    assert h[..0] == [] && h[0] == s[0];
    assert DecimalValue(h) == DigitValue(s[0]);
  }

  // --- Number(s) for strings (StringToNumber of ECMAScript section 7.1.4.1.1) ---

  /** The optional exponent part `(e|E)(+|-)?digits`. */
  predicate IsExponentPart(s: string) {
    |s| == 0 ||
    (var t := if |s| >= 2 && (s[1] == '+' || s[1] == '-') then s[2..] else s[1..];
     (s[0] == 'e' || s[0] == 'E') && |t| > 0 && DigitRun(t, 10) == |t|)
  }

  /** StrUnsignedDecimalLiteral: `Infinity`, or digits with an optional
      fraction and exponent, with at least one digit before the exponent. */
  predicate IsUnsignedDecimal(s: string) {
    s == "Infinity" ||
    (var k := DigitRun(s, 10);
     var rest := s[k..];
     if |rest| > 0 && rest[0] == '.' then
       var m := DigitRun(rest[1..], 10);
       (k > 0 || m > 0) && IsExponentPart(rest[1..][m..])
     else
       k > 0 && IsExponentPart(rest))
  }

  /** NonDecimalIntegerLiteral: `0b`, `0o` or `0x` and at least one digit. */
  predicate IsNonDecimalInteger(s: string) {
    |s| >= 3 && s[0] == '0' &&
    var radix := if s[1] == 'b' || s[1] == 'B' then 2
                 else if s[1] == 'o' || s[1] == 'O' then 8
                 else if s[1] == 'x' || s[1] == 'X' then 16
                 else 0;
    radix != 0 && DigitRun(s[2..], radix) == |s| - 2
  }

  /** `!isNaN(s)` for a string `s`: the trimmed text is empty or a numeric literal. */
  predicate IsNumericString(s: string) {
    var t := Trim(s);
    || t == ""
    || IsNonDecimalInteger(t)
    || IsUnsignedDecimal(if |t| > 0 && (t[0] == '+' || t[0] == '-') then t[1..] else t)
  }

  /** Every non-empty run of decimal digits is a number to JavaScript. */
  lemma DigitsAreNumeric(s: string)
    requires |s| > 0 && AllDigits(s)
    ensures IsNumericString(s)
  {
    assert !IsSpace(s[0]) && !IsSpace(s[|s| - 1]);
    assert DropLeadingSpaces(s) == s;
    assert DropTrailingSpaces(s) == s;
    assert Trim(s) == s;
    assert !(s[0] == '+' || s[0] == '-');
    DigitRunOfDigits(s);
    assert s[DigitRun(s, 10)..] == "";
    assert IsExponentPart("");
    assert IsUnsignedDecimal(s);
  }
}

=== FILE: layout_parser.dfy ===
/** `ultils/excelParser.mjs`: the upload parser with two layouts, one class per
    sheet or one class per column block of the first sheet, the latter named
    after the study programme's acronym. */
module LayoutParser {
  import opened Wrappers
  import opened Text
  import opened Cells
  import opened SheetRows
  import opened HeaderPatterns

  datatype Layout = PerSheet | PerColumn

  /** `detectFileType(workbook)`: per-column exactly when the first NIM row of
      the first sheet has more than one NAMA-prefixed cell. */
  function DetectLayout(wb: Workbook): (l: Layout)
    ensures !HasFirstSheet(wb) ==> l == PerSheet
    ensures l == PerColumn ==> exists j :: IsFirstNimRow(FirstSheetRows(wb), j) && CountNama(FirstSheetRows(wb)[j]) > 1
  {
    if !HasFirstSheet(wb) then PerSheet
    else
      match FirstNimRow(FirstSheetRows(wb))
      case None => PerSheet
      case Some(h) => if CountNama(h) > 1 then PerColumn else PerSheet
  }

  /** Later rows are never consulted: the first NIM row alone decides, and the
      layout it picks agrees with the number of blocks the per-column parser
      would open on it. */
  lemma DetectLayoutFirstHeader(wb: Workbook, pre: seq<Row>, h: Row, post: seq<Row>)
    requires HasFirstSheet(wb) && wb.sheets[wb.sheetNames[0]] == pre + [h] + post
    requires forall j :: 0 <= j < |pre| ==> !IsNimRow(pre[j])
    requires IsNimRow(h)
    ensures DetectLayout(wb) == PerColumn <==> CountNama(h) > 1
    ensures DetectLayout(wb) == PerColumn <==> |ColumnBlocks(h)| > 1
  {
    FirstNimRowSplit(pre, h, post);
    BlocksFromCount(h, 0);
    assert h[0..] == h;
  }

  // -------------------------------------------------------------- acronym

  /** `s.split(" ")`. */
  function SplitOnSpace(s: string): (ws: seq<string>)
    ensures |ws| > 0
    ensures forall k :: 0 <= k < |ws| ==> ' ' !in ws[k]
  {
    if |s| == 0 then [""]
    else
      var rest := SplitOnSpace(s[1..]);
      if s[0] == ' ' then [""] + rest
      else [[s[0]] + rest[0]] + rest[1..]
  }

  /** `ws.join(" ")`. */
  function JoinWithSpace(ws: seq<string>): string
    requires |ws| > 0
  {
    if |ws| == 1 then ws[0] else ws[0] + " " + JoinWithSpace(ws[1..])
  }

  /** Splitting on single spaces loses nothing: joining the pieces gives the string back. */
  lemma {:induction false} SplitJoin(s: string)
    ensures JoinWithSpace(SplitOnSpace(s)) == s
  {
    if |s| > 0 {
      var rest := SplitOnSpace(s[1..]);
      SplitJoin(s[1..]);
      if s[0] == ' ' {
        assert ([""] + rest)[1..] == rest;
      } else {
        var ws := [[s[0]] + rest[0]] + rest[1..];
        assert ws[1..] == rest[1..];
        if |rest| > 1 {
          assert JoinWithSpace(rest) == rest[0] + " " + JoinWithSpace(rest[1..]);
        }
      }
    }
  }

  /** `ws.map(word => word[0]).join("")`: an empty word contributes nothing. */
  function Initials(ws: seq<string>): (r: string)
    ensures |r| <= |ws|
  {
    if |ws| == 0 then ""
    else (if |ws[0]| > 0 then [ws[0][0]] else "") + Initials(ws[1..])
  }

  /** Reference reading: the characters of `s` that start a word, i.e. are not
      a space and come first or right after a space. */
  function WordStarts(s: string, afterSpace: bool): string {
    if |s| == 0 then ""
    else (if s[0] != ' ' && afterSpace then [s[0]] else "") + WordStarts(s[1..], s[0] == ' ')
  }

  /** The split-based computation picks exactly the word-start characters. */
  lemma {:induction false} InitialsAreWordStarts(s: string)
    ensures Initials(SplitOnSpace(s)) == WordStarts(s, true)
    ensures Initials(SplitOnSpace(s)[1..]) == WordStarts(s, false)
  {
    if |s| > 0 {
      var rest := SplitOnSpace(s[1..]);
      InitialsAreWordStarts(s[1..]);
      if s[0] == ' ' {
        assert ([""] + rest)[1..] == rest;
      } else {
        var ws := [[s[0]] + rest[0]] + rest[1..];
        assert ws[1..] == rest[1..];
        assert Initials(rest) == (if |rest[0]| > 0 then [rest[0][0]] else "") + Initials(rest[1..]);
      }
    }
  }

  /** The acronym of the study programme; "" when none was given. */
  function Akronim(prodi: Option<string>): (a: string)
    ensures prodi.None? || prodi.value == "" ==> a == ""
    ensures prodi.Some? ==> a == Upper(WordStarts(prodi.value, true))
  {
    if prodi.None? || prodi.value == "" then ""
    else
      InitialsAreWordStarts(prodi.value);
      Upper(Initials(SplitOnSpace(prodi.value)))
  }

  /** The class group of a per-column block: the acronym followed by the
      header's tail after `NAMA MAHASISWA`, upper-cased without whitespace. */
  function ColumnGroup(akronim: string, header: string): (g: string)
    ensures NamaMahasiswaGroup(header).None? ==> g == "Unknown"
    ensures NamaMahasiswaGroup(header).Some? && NamaMahasiswaGroup(header).value != "" ==>
      && StartsWith(g, akronim) && |g| > |akronim|
      && g[|akronim|..] == Upper(StripSpaces(NamaMahasiswaGroup(header).value))
      && NoSpaces(g[|akronim|..])
  {
    match NamaMahasiswaGroup(header)
    case None => "Unknown"
    case Some(tail) =>
      if tail == "" then "Unknown"
      else
        var part := Upper(StripSpaces(tail));
        assert StripSpaces(tail) == [tail[0]] + StripSpaces(tail[1..]);
        assert forall i :: 0 <= i < |part| ==> part[i] == UpperChar(StripSpaces(tail)[i]);
        var g := akronim + part;
        assert g[..|akronim|] == akronim && g[|akronim|..] == part;
        g
  }

  /** The class-group function of one upload: the programme's acronym is fixed
      for all blocks. */
  function ColumnGroupOf(prodi: Option<string>): string -> string {
    var a := Akronim(prodi);
    h => ColumnGroup(a, h)
  }

  /** `parsePerColumn(workbook, prodi)`: the first sheet only, read by the
      column loop, no de-duplication. The result is the reference reading of
      that sheet, so every accepted (row, block) pair yields its student in
      row-then-block order. */
  function ParsePerColumn(wb: Workbook, prodi: Option<string>): (r: seq<ParsedStudent>)
    ensures var rows := FirstSheetRows(wb);
      r == ColumnYields(rows, [], ColumnGroupOf(prodi), |rows|)
    ensures var rows := FirstSheetRows(wb);
      forall i, k, st ::
        (0 <= i < |rows| && !IsNimRow(rows[i]) && 0 <= k < |BlocksAt(rows, [], i)|
         && ReadBy(rows[i], BlocksAt(rows, [], i)[k], ColumnGroupOf(prodi), st)) ==> st in r
    ensures forall st :: st in r ==>
      (Trim(st.name) != "" && (st.classGroup == "Unknown" || StartsWith(st.classGroup, Akronim(prodi))))
  {
    var rows := FirstSheetRows(wb);
    var groupOf := ColumnGroupOf(prodi);
    ColumnLoopIsReference(rows, [], groupOf);
    ColumnLoopSound(rows, [], groupOf);
    forall i, k, st | 0 <= i < |rows| && !IsNimRow(rows[i]) && 0 <= k < |BlocksAt(rows, [], i)|
      && ReadBy(rows[i], BlocksAt(rows, [], i)[k], groupOf, st)
      ensures st in ColumnLoop(rows, [], groupOf)
    {
      ColumnLoopComplete(rows, [], groupOf, i, k, st);
    }
    ColumnLoop(rows, [], groupOf)
  }
}

=== FILE: pending_requests.dfy ===
/** `getPendingRequests`: the admin's queue of open borrow requests, oldest
    first, each with the whole seconds left on its 15-minute countdown;
    requests whose countdown has run out are not shown. */
module PendingRequests {
  import opened Wrappers
  import opened BorrowStore
  import opened BorrowUtils
  import opened Sorting

  datatype PendingRow = PendingRow(
    id: int,
    nim: string,
    studentName: string,
    prodi: string,
    createdAt: int,
    status: TxnStatus,
    lecturerName: Option<MetaValue>,
    className: Option<MetaValue>,
    secondsRemaining: nat,
    studentArrived: bool)

  /** `Math.max(0, Math.floor((expiry - now) / 1000))`; `None` stands for the
      `NaN` an invalid expiry date produces. */
  function SecondsRemaining(expiry: Option<int>, now: int): (r: Option<nat>)
    ensures r.None? <==> expiry.None?
    ensures r.Some? ==> (r.value > 0 <==> expiry.value - now >= 1000)
    ensures r.Some? && r.value > 0 ==> r.value * 1000 <= expiry.value - now < r.value * 1000 + 1000
  {
    match expiry
    case None => None
    case Some(e) =>
      // `/` on `int` rounds towards minus infinity for a positive divisor, as `Math.floor` does.
      var q := (e - now) / 1000;
      Some(if q < 0 then 0 else q)
  }

  function Lookup(m: Metadata, k: string): (v: Option<MetaValue>)
    ensures v.Some? <==> k in m
    ensures v.Some? ==> v.value == m[k]
  {
    if k in m then Some(m[k]) else None
  }

  /** JavaScript truthiness of a metadata value (`!!value`); a time is a
      non-empty date string, hence truthy. */
  predicate Truthy(v: Option<MetaValue>) {
    match v
    case None => false
    case Some(MText(t)) => t != ""
    case Some(MNum(n)) => n != 0
    case Some(MFlag(b)) => b
    case Some(MTime(_)) => true
  }

  /** The rows of the query: open transactions joined with their student and
      the student's study programme. */
  predicate Listed(s: Store, id: int) {
    && id in s.txns
    && IsOpen(s.txns[id].status)
    && s.txns[id].nim in s.students
    && s.students[s.txns[id].nim].prodi in s.prodis
  }

  /** A listed row that survives the final filter: whole seconds remain on its countdown. */
  predicate Shown(s: Store, id: int, now: int) {
    && Listed(s, id)
    && var secs := SecondsRemaining(CountdownOf(s.txns[id]), now);
       secs.Some? && secs.value > 0
  }

  /** The row built for transaction `id`. */
  function RowOf(s: Store, id: int, now: int): (row: PendingRow)
    requires Shown(s, id, now)
    ensures row.id == id && row.status == s.txns[id].status && row.nim == s.txns[id].nim
    ensures row.secondsRemaining > 0
    ensures row.secondsRemaining * 1000 <= CountdownOf(s.txns[id]).value - now < row.secondsRemaining * 1000 + 1000
    ensures row.studentArrived <==> Truthy(Lookup(s.txns[id].metadata, StudentArrivedAt))
  {
    var t := s.txns[id];
    var st := s.students[t.nim];
    PendingRow(id, t.nim, st.name, st.prodi, t.createdAt, t.status,
               Lookup(t.metadata, LecturerName), Lookup(t.metadata, ClassName),
               SecondsRemaining(CountdownOf(t), now).value,
               Truthy(Lookup(t.metadata, StudentArrivedAt)))
  }

  /** The shown rows among `ids`, in the order of `ids`. */
  function RowsOf(s: Store, ids: seq<int>, now: int): (rows: seq<PendingRow>)
    ensures forall r :: r in rows ==> r.id in ids && Shown(s, r.id, now) && r == RowOf(s, r.id, now)
    ensures forall id :: id in ids && Shown(s, id, now) ==> exists r :: r in rows && r.id == id
    ensures Distinct(ids) ==> Distinct(rows)
  {
    if |ids| == 0 then []
    else
      var rest := RowsOf(s, ids[1..], now);
      assert forall id :: id in ids[1..] ==> id in ids;
      if Shown(s, ids[0], now) then
        var rows := [RowOf(s, ids[0], now)] + rest;
        assert Distinct(ids) ==> Distinct(rows) by {
          if Distinct(ids) {
            assert ids[0] !in ids[1..];
            assert forall j :: 0 < j < |rows| ==> rows[j] == rest[j - 1];
          }
        }
        rows
      else
        rest
  }

  predicate CreatedLe(a: PendingRow, b: PendingRow) {
    a.createdAt <= b.createdAt
  }

  /** `getPendingRequests()` at time `now`. Rows with the same creation time
      come out in an order this model fixes and the query leaves open. */
  method GetPendingRequests(s: Store, now: int) returns (rows: seq<PendingRow>)
    ensures forall r :: r in rows ==> Shown(s, r.id, now) && r == RowOf(s, r.id, now)
    ensures forall id :: Shown(s, id, now) ==> exists r :: r in rows && r.id == id
    ensures forall i, j :: 0 <= i < j < |rows| ==> rows[i].id != rows[j].id
    ensures SortedBy(rows, CreatedLe)
  {
    var ids := KeysOf(s.txns);
    var shown := RowsOf(s, ids, now);
    rows := SortBy(shown, CreatedLe);
    assert forall r :: r in rows <==> r in shown by {
      forall r ensures r in rows <==> r in shown {
        assert r in multiset(rows) <==> r in multiset(shown);
      }
    }
    PermutationKeepsDistinct(rows, shown);
    forall i, j | 0 <= i < j < |rows| ensures rows[i].id != rows[j].id {
      assert rows[i] in rows && rows[j] in rows;
    }
  }
}

=== FILE: pg_client.dfy ===
/** The database client `pool.connect()` hands out. `data/db_postgres.js`
    builds a node-postgres `Pool`, whose clients answer `query` and `release`
    only. Three functions nevertheless open their transaction with the
    mysql2 connection API, `beginTransaction`, `commit` and `rollback`,
    which such a client does not have: calling one of them throws
    JavaScript's `TypeError`. */
module PgClient {
  import opened Wrappers

  datatype ClientCall = Query | Release | BeginTransaction | Commit | Rollback

  /** The calls a node-postgres pool client has. */
  predicate Defined(c: ClientCall) {
    c.Query? || c.Release?
  }

  function CallName(c: ClientCall): string {
    match c
    case Query => "query"
    case Release => "release"
    case BeginTransaction => "beginTransaction"
    case Commit => "commit"
    case Rollback => "rollback"
  }

  /** The message of the `TypeError` thrown by calling a method the client
      lacks through the variable `connection`. */
  function NotAFunction(c: ClientCall): string {
    "connection." + CallName(c) + " is not a function"
  }

  /** `await connection.<c>()`. */
  function Invoke(c: ClientCall): (r: Result<(), string>)
    ensures r.Ok? <==> Defined(c)
    ensures r.Err? ==> r.error == NotAFunction(c)
  {
    if Defined(c) then Ok(()) else Err(NotAFunction(c))
  }

  /** The block the three functions share:
      `try { await connection.beginTransaction(); <body>; await connection.commit(); }`
      `catch (e) { await connection.rollback(); <handler(e)> }`.
      `body` is what the statements inside the block would produce and
      `handler` what the catch clause does once the rollback returns. On a
      pg client the first call throws, the catch clause's rollback throws in
      turn, and that second `TypeError` is what leaves the block: neither the
      body's outcome nor the handler's is ever seen. */
  function MysqlStyleBlock<T>(body: Result<T, string>, handler: string -> Result<T, string>): (r: Result<T, string>)
    ensures r == Err(NotAFunction(Rollback))
  {
    var outcome :=
      match Invoke(BeginTransaction)
      case Err(e) => Err(e)
      case Ok(_) =>
        match body
        case Err(e) => Err(e)
        case Ok(v) =>
          match Invoke(Commit)
          case Err(e) => Err(e)
          case Ok(_) => Ok(v);
    match outcome
    case Ok(v) => Ok(v)
    case Err(e) =>
      match Invoke(Rollback)
      case Err(thrown) => Err(thrown)
      case Ok(_) => handler(e)
  }

  /** The text the caller of such a block receives. */
  lemma RollbackMessage()
    ensures NotAFunction(Rollback) == "connection.rollback is not a function"
  {
  }
}

=== FILE: save_student.dfy ===
/** `utils/saveStudent.mjs`: storing the students an upload produced. Missing
    study programmes are created first, then every student is inserted or,
    when the NIM is already stored, overwritten; the whole run is one
    transaction. */
module SaveStudent {
  import opened Wrappers
  import opened Cells
  import opened BorrowStore
  import ImportUtils
  import PgClient

  /** `standardizeProdiName` of this file: the same eight corrections, but any
      other spelling is kept as it is (`mapping[className] || className`). */
  function StandardizeProdiName(className: string): (r: string)
    ensures className in ImportUtils.ProdiMapping ==> r == ImportUtils.ProdiMapping[className]
    ensures className !in ImportUtils.ProdiMapping ==> r == className
  {
    if className in ImportUtils.ProdiMapping then ImportUtils.ProdiMapping[className] else className
  }

  /** The two standardizations agree on every spelling without whitespace,
      and on the listed ones. */
  lemma StandardizersAgreeWithoutSpaces(className: string)
    requires Text.NoSpaces(className) || className in ImportUtils.ProdiMapping
    ensures StandardizeProdiName(className) == ImportUtils.StandardizeProdiName(className)
  {
  }

  /** They differ on a class group with inner whitespace. */
  lemma StandardizersDiffer()
    ensures StandardizeProdiName("TL 1A") == "TL 1A"
    ensures ImportUtils.StandardizeProdiName("TL 1A") != "TL 1A"
  {
    assert "TL 1A" !in ImportUtils.ProdiMapping;
    assert !Text.NoSpaces("TL 1A") by { assert Text.IsSpace("TL 1A"[2]); }
  }

  /** The row a student is stored as. */
  function StoredAs(x: ParsedStudent): Student {
    Student(x.name, StandardizeProdiName(x.classGroup))
  }

  /** The standardized study programmes of the input (`uniqueProdi`). */
  function ProdisOf(students: seq<ParsedStudent>): set<string> {
    set x | x in students :: StandardizeProdiName(x.classGroup)
  }

  /** `students[i]` is the last entry with its NIM. */
  predicate LastWithNim(students: seq<ParsedStudent>, i: int)
    requires 0 <= i < |students|
  {
    forall j :: i < j < |students| ==> students[j].nim != students[i].nim
  }

  lemma NimsOfCons(students: seq<ParsedStudent>)
    requires |students| > 0
    ensures NimsOf(students) == {students[0].nim} + NimsOf(students[1..])
  {
    assert students == [students[0]] + students[1..];
    assert forall y :: y in students <==> y == students[0] || y in students[1..];
  }

  /** The insert-or-update loop, student by student, from stored rows `m`:
      the rows afterwards and the two counters. */
  function SaveAll(m: map<string, Student>, students: seq<ParsedStudent>): (r: (map<string, Student>, nat, nat))
    ensures r.1 + r.2 == |students|
    decreases |students|
  {
    if |students| == 0 then (m, 0, 0)
    else
      var x := students[0];
      var tail := SaveAll(m[x.nim := StoredAs(x)], students[1..]);
      if x.nim in m then (tail.0, tail.1, tail.2 + 1) else (tail.0, tail.1 + 1, tail.2)
  }

  /** The loop stores every input NIM and leaves every other row alone. */
  lemma {:induction false} SaveAllKeys(m: map<string, Student>, students: seq<ParsedStudent>)
    ensures SaveAll(m, students).0.Keys == m.Keys + NimsOf(students)
    ensures forall k :: k in m && k !in NimsOf(students) ==> SaveAll(m, students).0[k] == m[k]
    decreases |students|
  {
    if |students| == 0 {
      assert NimsOf(students) == {};
    } else {
      var x := students[0];
      NimsOfCons(students);
      SaveAllKeys(m[x.nim := StoredAs(x)], students[1..]);
    }
  }

  /** One step of the loop's insert counter. */
  lemma SaveAllStep(m: map<string, Student>, students: seq<ParsedStudent>)
    requires |students| > 0
    ensures var x := students[0];
      var tail := SaveAll(m[x.nim := StoredAs(x)], students[1..]);
      SaveAll(m, students).1 == if x.nim in m then tail.1 else tail.1 + 1
  {
  }

  /** The set count behind one step: a stored NIM adds nothing, a new one adds one. */
  lemma NewNimsStep(n: set<string>, keys: set<string>, k: string, c: nat)
    requires c == |n - (keys + {k})|
    ensures (if k in keys then c else c + 1) == |({k} + n) - keys|
  {
    if k in keys {
      assert ({k} + n) - keys == n - (keys + {k});
    } else {
      assert ({k} + n) - keys == (n - (keys + {k})) + {k};
    }
  }

  /** One step of the insert count: the first student counts exactly when
      its NIM is new, given the count for the rest. */
  lemma SaveAllInsertedStep(m: map<string, Student>, students: seq<ParsedStudent>)
    requires |students| > 0
    requires var x := students[0];
      SaveAll(m[x.nim := StoredAs(x)], students[1..]).1 == |NimsOf(students[1..]) - m[x.nim := StoredAs(x)].Keys|
    ensures SaveAll(m, students).1 == |NimsOf(students) - m.Keys|
  {
    var x := students[0];
    var rest := students[1..];
    var m1 := m[x.nim := StoredAs(x)];
    var n := NimsOf(rest);
    var c := SaveAll(m1, rest).1;
    assert m1.Keys == m.Keys + {x.nim};
    assert SaveAll(m, students).1 == (if x.nim in m then c else c + 1) by { SaveAllStep(m, students); }
    assert NimsOf(students) == {x.nim} + n by { NimsOfCons(students); }
    NewNimsStep(n, m.Keys, x.nim, c);
  }

  /** A student is counted as inserted exactly when its NIM was neither
      stored before nor seen earlier in the list. */
  lemma {:induction false} SaveAllInserted(m: map<string, Student>, students: seq<ParsedStudent>)
    ensures SaveAll(m, students).1 == |NimsOf(students) - m.Keys|
    decreases |students|
  {
    if |students| == 0 {
      assert NimsOf(students) == {};
    } else {
      var x := students[0];
      SaveAllInserted(m[x.nim := StoredAs(x)], students[1..]);
      SaveAllInsertedStep(m, students);
    }
  }

  /** Each NIM ends up with the name and programme of its last entry. */
  lemma {:induction false} SaveAllLastSeen(m: map<string, Student>, students: seq<ParsedStudent>, i: int)
    requires 0 <= i < |students| && LastWithNim(students, i)
    ensures students[i].nim in SaveAll(m, students).0
    ensures SaveAll(m, students).0[students[i].nim] == StoredAs(students[i])
    decreases |students|
  {
    var x := students[0];
    var rest := students[1..];
    var m1 := m[x.nim := StoredAs(x)];
    SaveAllKeys(m1, rest);
    if i == 0 {
      assert x.nim !in NimsOf(rest) by {
        forall y | y in rest ensures y.nim != x.nim {
          var j :| 0 <= j < |rest| && rest[j] == y;
          assert students[j + 1] == y;
        }
      }
    } else {
      assert rest[i - 1] == students[i];
      assert LastWithNim(rest, i - 1) by {
        forall j | i - 1 < j < |rest| ensures rest[j].nim != rest[i - 1].nim {
          assert rest[j] == students[j + 1];
        }
      }
      SaveAllLastSeen(m1, rest, i - 1);
    }
  }

  datatype SaveResult = SaveResult(inserted: nat, updated: nat, newProdiCreated: Option<nat>)

  /** `saveStudentsToDB(students)`. An empty list reports nothing done and
      leaves the store alone. Otherwise the missing standardized programmes
      are created and counted, and every student is stored under its NIM
      with its last-seen name and standardized programme. */
  function SaveStudentsToDB(s: Store, students: seq<ParsedStudent>): (r: (Store, SaveResult))
    ensures |students| == 0 ==> r == (s, SaveResult(0, 0, None))
    ensures |students| > 0 ==>
      && r.0.prodis == s.prodis + ProdisOf(students)
      && r.1.newProdiCreated == Some(|ProdisOf(students) - s.prodis|)
      && r.1.inserted + r.1.updated == |students|
      && r.1.inserted == |NimsOf(students) - s.students.Keys|
      && r.0.students.Keys == s.students.Keys + NimsOf(students)
    ensures |students| > 0 ==> forall i :: 0 <= i < |students| && LastWithNim(students, i) ==>
      r.0.students[students[i].nim] == Student(students[i].name, StandardizeProdiName(students[i].classGroup))
    ensures forall k :: k in s.students && k !in NimsOf(students) ==> k in r.0.students && r.0.students[k] == s.students[k]
    ensures r.0.txns == s.txns && r.0.items == s.items
  {
    if |students| == 0 then
      (s, SaveResult(0, 0, None))
    else
      var missing := ProdisOf(students) - s.prodis;
      var saved := SaveAll(s.students, students);
      SaveAllKeys(s.students, students);
      SaveAllInserted(s.students, students);
      assert forall i :: 0 <= i < |students| && LastWithNim(students, i) ==> saved.0[students[i].nim] == StoredAs(students[i]) by {
        forall i | 0 <= i < |students| && LastWithNim(students, i) ensures saved.0[students[i].nim] == StoredAs(students[i]) {
          SaveAllLastSeen(s.students, students, i);
        }
      }
      (s.(prodis := s.prodis + missing, students := saved.0),
       SaveResult(saved.1, saved.2, Some(|missing|)))
  }

  /** `saveStudentsToDB(students)` as written. The empty list is answered
      before any connection is used. Any other list reaches
      `connection.beginTransaction()`, which a pg client lacks; the catch
      clause's `connection.rollback()` throws in turn, and that `TypeError`
      is what the caller receives, with nothing stored. */
  function SaveStudentsAsWritten(s: Store, students: seq<ParsedStudent>): (r: (Store, Result<SaveResult, string>))
    ensures r.0 == s
    ensures r.1.Ok? <==> |students| == 0
    ensures |students| == 0 ==> r.1 == Ok(SaveStudentsToDB(s, students).1)
    ensures |students| > 0 ==> r.1 == Err(PgClient.NotAFunction(PgClient.Rollback))
  {
    if |students| == 0 then
      (s, Ok(SaveResult(0, 0, None)))
    else
      match PgClient.MysqlStyleBlock(Ok(SaveStudentsToDB(s, students)), e => Err(e))
      case Ok(v) => (v.0, Ok(v.1))
      case Err(e) => (s, Err(e))
  }

  /** A list with a new student: the intended operation stores it, the code
      as written stores nothing and fails. */
  lemma SaveNeverStores(s: Store, students: seq<ParsedStudent>)
    requires |students| > 0 && students[0].nim !in s.students
    ensures students[0].nim in SaveStudentsToDB(s, students).0.students
    ensures SaveStudentsToDB(s, students).1.inserted > 0
    ensures SaveStudentsAsWritten(s, students) == (s, Err("connection.rollback is not a function"))
  {
    assert students[0].nim in NimsOf(students) - s.students.Keys;
    PgClient.RollbackMessage();
  }

  /** Saving the same list twice inserts nothing the second time: every
      student is then an update, and no study programme is created. */
  lemma SaveTwiceOnlyUpdates(s: Store, students: seq<ParsedStudent>)
    requires |students| > 0
    ensures var once := SaveStudentsToDB(s, students).0;
      var again := SaveStudentsToDB(once, students).1;
      again.inserted == 0 && again.updated == |students| && again.newProdiCreated == Some(0)
  {
    var once := SaveStudentsToDB(s, students).0;
    assert NimsOf(students) - once.students.Keys == {};
    assert ProdisOf(students) - once.prodis == {};
  }
}

=== FILE: sheet_rows.dfy ===
/** The row-extraction loops both `excelParser.mjs` files share.

    Per-sheet layout (`parsePerSheet`, `parseBMM`, `parseTOLI`): a header row is
    one with a cell reading "NIM" once whitespace is removed; it fixes the NIM
    column and the first column mentioning NAMA until the next header. Data rows
    are filtered by `RowAccepted`, and a NIM already extracted (on any sheet) is
    skipped.

    Per-column layout (`parseTL`, `parsePerColumn`): a header row is one with a
    cell mentioning NIM; each NAMA-prefixed column of it opens a block whose NIM
    sits one column to the left. There is no de-duplication. */
module SheetRows {
  import opened Wrappers
  import opened Text
  import opened Cells
  import opened HeaderFold

  // ---------------------------------------------------------------- per sheet

  datatype HeaderLayout = HeaderLayout(nimIndex: int, nameIndex: int)

  predicate IsNimHeaderCell(c: Cell) {
    StripSpaces(SafeString(c)) == "NIM"
  }

  predicate MentionsNama(c: Cell) {
    Contains(SafeString(c), "NAMA")
  }

  /** The layout a row announces, or `None` when it is not a header row. */
  function HeaderLayoutOf(row: Row): (r: Option<HeaderLayout>)
    ensures r.Some? <==> exists i :: 0 <= i < |row| && IsNimHeaderCell(row[i])
    ensures r.Some? ==> 0 <= r.value.nimIndex < |row| && IsNimHeaderCell(row[r.value.nimIndex])
    ensures r.Some? ==> forall j :: 0 <= j < r.value.nimIndex ==> !IsNimHeaderCell(row[j])
  {
    var nimIndex := FindIndex(row, IsNimHeaderCell);
    if nimIndex == -1 then None
    else Some(HeaderLayout(nimIndex, FindIndex(row, MentionsNama)))
  }

  /** The student a data row yields under `layout`, if the row passes the filter. */
  function RowStudent(row: Row, layout: HeaderLayout, group: string): (r: Option<ParsedStudent>)
    ensures r.Some? <==> RowAccepted(CellAt(row, layout.nimIndex), CellAt(row, layout.nameIndex))
    ensures r.Some? ==> r.value.classGroup == group && Trim(r.value.name) != ""
  {
    var nim := CellAt(row, layout.nimIndex);
    var name := CellAt(row, layout.nameIndex);
    if RowAccepted(nim, name) then Some(ParsedStudent(CellText(nim), name.s, group))
    else None
  }

  /** Reference reading of one sheet: every accepted data row, in order, duplicates kept. */
  function SheetCandidates(rows: seq<Row>, layout: Option<HeaderLayout>, group: string): seq<ParsedStudent>
    decreases |rows|
  {
    if |rows| == 0 then []
    else
      var h := HeaderLayoutOf(rows[0]);
      if h.Some? then SheetCandidates(rows[1..], h, group)
      else if layout.None? then SheetCandidates(rows[1..], layout, group)
      else
        match RowStudent(rows[0], layout.value, group)
        case Some(st) => [st] + SheetCandidates(rows[1..], layout, group)
        case None => SheetCandidates(rows[1..], layout, group)
  }

  /** The `for (const row of rawData)` loop of one sheet, with the shared
      `processedNims` set threaded through: returns the students pushed and the set after. */
  function SheetLoop(rows: seq<Row>, layout: Option<HeaderLayout>, group: string, seen: set<string>)
    : (seq<ParsedStudent>, set<string>)
    decreases |rows|
  {
    if |rows| == 0 then ([], seen)
    else
      var h := HeaderLayoutOf(rows[0]);
      if h.Some? then SheetLoop(rows[1..], h, group, seen)
      else if layout.None? then SheetLoop(rows[1..], layout, group, seen)
      else
        match RowStudent(rows[0], layout.value, group)
        case None => SheetLoop(rows[1..], layout, group, seen)
        case Some(st) =>
          if st.nim in seen then SheetLoop(rows[1..], layout, group, seen)
          else
            var (rest, seen') := SheetLoop(rows[1..], layout, group, seen + {st.nim});
            ([st] + rest, seen')
  }

  /** The outer `for (const sheetName of ...)` loop; `groupOf` gives a sheet's class group. */
  function SheetsLoop(wb: Workbook, names: seq<string>, groupOf: string -> string, seen: set<string>)
    : (seq<ParsedStudent>, set<string>)
    decreases |names|
  {
    if |names| == 0 then ([], seen)
    else
      var (first, seen1) := SheetLoop(RawData(wb, names[0]), None, groupOf(names[0]), seen);
      var (rest, seen2) := SheetsLoop(wb, names[1..], groupOf, seen1);
      (first + rest, seen2)
  }

  /** Reference reading of several sheets: their candidates one after the other. */
  function SheetsCandidates(wb: Workbook, names: seq<string>, groupOf: string -> string): seq<ParsedStudent>
    decreases |names|
  {
    if |names| == 0 then []
    else SheetCandidates(RawData(wb, names[0]), None, groupOf(names[0]))
         + SheetsCandidates(wb, names[1..], groupOf)
  }

  /** Keep the first student of each NIM not in `seen`, in order. */
  function Dedup(c: seq<ParsedStudent>, seen: set<string>): seq<ParsedStudent>
    decreases |c|
  {
    if |c| == 0 then []
    else if c[0].nim in seen then Dedup(c[1..], seen)
    else [c[0]] + Dedup(c[1..], seen + {c[0].nim})
  }

  /** The first student in `c` carrying `nim`. */
  function FirstWithNim(c: seq<ParsedStudent>, nim: string): Option<ParsedStudent> {
    if |c| == 0 then None
    else if c[0].nim == nim then Some(c[0])
    else FirstWithNim(c[1..], nim)
  }

  /** What keeping first occurrences means: the result has pairwise-distinct NIMs
      outside `seen`, each element is the first candidate with its NIM, and every
      candidate NIM outside `seen` is represented. */
  lemma {:induction false} DedupProperties(c: seq<ParsedStudent>, seen: set<string>)
    ensures var r := Dedup(c, seen);
      && DistinctNims(r)
      && (forall i :: 0 <= i < |r| ==> r[i].nim !in seen && FirstWithNim(c, r[i].nim) == Some(r[i]))
      && NimsOf(r) == NimsOf(c) - seen
    decreases |c|
  {
    if |c| > 0 {
      var r := Dedup(c, seen);
      if c[0].nim in seen {
        DedupProperties(c[1..], seen);
        assert NimsOf(c) == {c[0].nim} + NimsOf(c[1..]) by { NimsOfCons(c); }
      } else {
        var seen' := seen + {c[0].nim};
        var t := Dedup(c[1..], seen');
        DedupProperties(c[1..], seen');
        assert r == [c[0]] + t;
        assert NimsOf(c) == {c[0].nim} + NimsOf(c[1..]) by { NimsOfCons(c); }
        assert NimsOf(r) == {c[0].nim} + NimsOf(t) by { NimsOfCons(r); assert r[1..] == t; }
        forall i | 0 <= i < |r|
          ensures r[i].nim !in seen && FirstWithNim(c, r[i].nim) == Some(r[i])
        {
          if i > 0 {
            assert r[i] == t[i - 1];
          }
        }
      }
    }
  }

  lemma NimsOfCons(c: seq<ParsedStudent>)
    requires |c| > 0
    ensures NimsOf(c) == {c[0].nim} + NimsOf(c[1..])
  {
    forall n | n in NimsOf(c) ensures n in {c[0].nim} + NimsOf(c[1..]) {
      var x :| x in c && x.nim == n;
      if x != c[0] {
        var k :| 0 <= k < |c| && c[k] == x;
        assert c[1..][k - 1] == x;
      }
    }
  }

  lemma NimsOfAppend(a: seq<ParsedStudent>, b: seq<ParsedStudent>)
    ensures NimsOf(a + b) == NimsOf(a) + NimsOf(b)
  {
    forall n | n in NimsOf(a + b) ensures n in NimsOf(a) + NimsOf(b) {
      var x :| x in a + b && x.nim == n;
    }
    forall n | n in NimsOf(a) + NimsOf(b) ensures n in NimsOf(a + b) {
      if n in NimsOf(a) {
        var x :| x in a && x.nim == n;
        assert x in a + b;
      } else {
        var x :| x in b && x.nim == n;
        assert x in a + b;
      }
    }
  }

  /** De-duplicating a concatenation is de-duplicating each part, the second
      against everything the first part contributed. */
  lemma {:induction false} DedupAppend(a: seq<ParsedStudent>, b: seq<ParsedStudent>, seen: set<string>)
    ensures Dedup(a + b, seen) == Dedup(a, seen) + Dedup(b, seen + NimsOf(a))
    decreases |a|
  {
    if |a| == 0 {
      assert a + b == b;
      assert NimsOf(a) == {};
      assert seen + NimsOf(a) == seen;
    } else {
      assert (a + b)[1..] == a[1..] + b;
      NimsOfCons(a);
      if a[0].nim in seen {
        DedupAppend(a[1..], b, seen);
        assert seen + NimsOf(a[1..]) == seen + NimsOf(a);
      } else {
        DedupAppend(a[1..], b, seen + {a[0].nim});
        assert seen + {a[0].nim} + NimsOf(a[1..]) == seen + NimsOf(a);
      }
    }
  }

  /** The loop as written is the reference reading de-duplicated, and the
      `processedNims` set afterwards is the one before plus the NIMs pushed. */
  lemma {:induction false} SheetLoopIsDedup(rows: seq<Row>, layout: Option<HeaderLayout>, group: string, seen: set<string>)
    ensures SheetLoop(rows, layout, group, seen).0 == Dedup(SheetCandidates(rows, layout, group), seen)
    ensures SheetLoop(rows, layout, group, seen).1 == seen + NimsOf(SheetCandidates(rows, layout, group))
    decreases |rows|
  {
    if |rows| > 0 {
      var h := HeaderLayoutOf(rows[0]);
      if h.Some? {
        SheetLoopIsDedup(rows[1..], h, group, seen);
      } else if layout.None? {
        SheetLoopIsDedup(rows[1..], layout, group, seen);
      } else {
        var c := SheetCandidates(rows, layout, group);
        var c' := SheetCandidates(rows[1..], layout, group);
        match RowStudent(rows[0], layout.value, group)
        case None =>
          SheetLoopIsDedup(rows[1..], layout, group, seen);
        case Some(st) =>
          assert c == [st] + c';
          assert c[1..] == c';
          NimsOfCons(c);
          if st.nim in seen {
            SheetLoopIsDedup(rows[1..], layout, group, seen);
          } else {
            SheetLoopIsDedup(rows[1..], layout, group, seen + {st.nim});
          }
      }
    }
  }

  /** Same for the sheet loop: the parsers' output is the de-duplicated
      concatenation of every sheet's candidates, first occurrence winning. */
  lemma {:induction false} SheetsLoopIsDedup(wb: Workbook, names: seq<string>, groupOf: string -> string, seen: set<string>)
    ensures SheetsLoop(wb, names, groupOf, seen).0 == Dedup(SheetsCandidates(wb, names, groupOf), seen)
    ensures SheetsLoop(wb, names, groupOf, seen).1 == seen + NimsOf(SheetsCandidates(wb, names, groupOf))
    decreases |names|
  {
    if |names| > 0 {
      var a := SheetCandidates(RawData(wb, names[0]), None, groupOf(names[0]));
      var b := SheetsCandidates(wb, names[1..], groupOf);
      SheetLoopIsDedup(RawData(wb, names[0]), None, groupOf(names[0]), seen);
      SheetsLoopIsDedup(wb, names[1..], groupOf, seen + NimsOf(a));
      DedupAppend(a, b, seen);
      NimsOfAppend(a, b);
    }
  }

  /** Every candidate of a sheet carries the sheet's group and a non-blank name. */
  lemma {:induction false} SheetCandidatesShape(rows: seq<Row>, layout: Option<HeaderLayout>, group: string)
    ensures forall st :: st in SheetCandidates(rows, layout, group) ==>
      st.classGroup == group && Trim(st.name) != ""
    decreases |rows|
  {
    if |rows| > 0 {
      var h := HeaderLayoutOf(rows[0]);
      SheetCandidatesShape(rows[1..], if h.Some? then h else layout, group);
    }
  }

  /** Rows before the first header row contribute nothing. */
  lemma {:induction false} SheetCandidatesSkipPreamble(rows: seq<Row>, k: nat, group: string)
    requires k <= |rows|
    requires forall j :: 0 <= j < k ==> HeaderLayoutOf(rows[j]).None?
    ensures SheetCandidates(rows, None, group) == SheetCandidates(rows[k..], None, group)
    decreases k
  {
    if k > 0 {
      SheetCandidatesSkipPreamble(rows[1..], k - 1, group);
      assert rows[1..][k - 1..] == rows[k..];
    }
  }

  lemma {:induction false} SheetsCandidatesShape(wb: Workbook, names: seq<string>, groupOf: string -> string)
    ensures forall st :: st in SheetsCandidates(wb, names, groupOf) ==>
      Trim(st.name) != "" && exists k :: 0 <= k < |names| && st.classGroup == groupOf(names[k])
    decreases |names|
  {
    if |names| > 0 {
      var a := SheetCandidates(RawData(wb, names[0]), None, groupOf(names[0]));
      var tail := names[1..];
      var b := SheetsCandidates(wb, tail, groupOf);
      assert SheetsCandidates(wb, names, groupOf) == a + b;
      assert forall st :: st in a ==> st.classGroup == groupOf(names[0]) && Trim(st.name) != "" by {
        SheetCandidatesShape(RawData(wb, names[0]), None, groupOf(names[0]));
      }
      assert forall st :: st in b ==>
        Trim(st.name) != "" && exists k :: 0 <= k < |tail| && st.classGroup == groupOf(tail[k])
      by {
        SheetsCandidatesShape(wb, tail, groupOf);
      }
      forall st | st in a + b
        ensures Trim(st.name) != "" && exists k :: 0 <= k < |names| && st.classGroup == groupOf(names[k])
      {
        if st in a {
          assert st.classGroup == groupOf(names[0]);
        } else {
          var k :| 0 <= k < |tail| && st.classGroup == groupOf(tail[k]);
          assert tail[k] == names[k + 1];
        }
      }
    }
  }

  lemma {:induction false} FirstWithNimIn(c: seq<ParsedStudent>, nim: string)
    ensures FirstWithNim(c, nim).Some? ==> FirstWithNim(c, nim).value in c && FirstWithNim(c, nim).value.nim == nim
    decreases |c|
  {
    if |c| > 0 && c[0].nim != nim {
      FirstWithNimIn(c[1..], nim);
    }
  }

  /** The per-sheet parsers: sheets `names` in order, one `processedNims` set for
      all of them. The output is the reference reading with only the first
      student of each NIM kept. */
  function ParseSheets(wb: Workbook, names: seq<string>, groupOf: string -> string): (r: seq<ParsedStudent>)
    ensures DistinctNims(r)
    ensures NimsOf(r) == NimsOf(SheetsCandidates(wb, names, groupOf))
    ensures forall i :: 0 <= i < |r| ==> FirstWithNim(SheetsCandidates(wb, names, groupOf), r[i].nim) == Some(r[i])
    ensures forall st :: st in r ==>
      Trim(st.name) != "" && exists k :: 0 <= k < |names| && st.classGroup == groupOf(names[k])
  {
    var c := SheetsCandidates(wb, names, groupOf);
    var r := SheetsLoop(wb, names, groupOf, {}).0;
    assert r == Dedup(c, {}) by { SheetsLoopIsDedup(wb, names, groupOf, {}); }
    assert DistinctNims(r) && NimsOf(r) == NimsOf(c)
      && forall i :: 0 <= i < |r| ==> FirstWithNim(c, r[i].nim) == Some(r[i])
    by {
      DedupProperties(c, {});
      assert NimsOf(c) - {} == NimsOf(c);
    }
    assert forall st :: st in r ==> st in c by {
      forall st | st in r ensures st in c {
        var i :| 0 <= i < |r| && r[i] == st;
        FirstWithNimIn(c, st.nim);
      }
    }
    assert forall st :: st in c ==>
      Trim(st.name) != "" && exists k :: 0 <= k < |names| && st.classGroup == groupOf(names[k])
    by { SheetsCandidatesShape(wb, names, groupOf); }
    r
  }

  /** `parsePerSheet` of both parsers (`parseBMM` in the template-aware one):
      every sheet, class group = sheet name. */
  function ParsePerSheet(wb: Workbook): (r: seq<ParsedStudent>)
    ensures DistinctNims(r)
    ensures NimsOf(r) == NimsOf(SheetsCandidates(wb, wb.sheetNames, n => n))
    ensures forall i :: 0 <= i < |r| ==>
      FirstWithNim(SheetsCandidates(wb, wb.sheetNames, n => n), r[i].nim) == Some(r[i])
    ensures forall st :: st in r ==> st.classGroup in wb.sheetNames && Trim(st.name) != ""
  {
    var r := ParseSheets(wb, wb.sheetNames, n => n);
    assert forall st :: st in r ==> st.classGroup in wb.sheetNames by {
      forall st | st in r ensures st.classGroup in wb.sheetNames {
        var k :| 0 <= k < |wb.sheetNames| && st.classGroup == (n => n)(wb.sheetNames[k]);
      }
    }
    r
  }

  // --------------------------------------------------------------- per column

  /** One name column of a per-column header and the NIM column to its left. */
  datatype Block = Block(nimIndex: int, nameIndex: int, header: string)

  predicate StartsWithNama(c: Cell) {
    StartsWith(SafeString(c), "NAMA")
  }

  predicate MentionsNim(c: Cell) {
    Contains(SafeString(c), "NIM")
  }

  /** `row.some(cell => getSafeString(cell).includes("NIM"))`. */
  predicate IsNimRow(row: Row) {
    exists i :: 0 <= i < |row| && MentionsNim(row[i])
  }

  /** The blocks a header row opens, one per NAMA-prefixed column from `from` on, in column order. */
  function BlocksFrom(row: Row, from: nat): (bs: seq<Block>)
    requires from <= |row|
    ensures forall k :: 0 <= k < |bs| ==>
      && from <= bs[k].nameIndex < |row|
      && StartsWithNama(row[bs[k].nameIndex])
      && bs[k].nimIndex == bs[k].nameIndex - 1
      && bs[k].header == row[bs[k].nameIndex].s
    ensures forall k :: 0 < k < |bs| ==> bs[k - 1].nameIndex < bs[k].nameIndex
    decreases |row| - from
  {
    if from == |row| then []
    else
      var rest := BlocksFrom(row, from + 1);
      if StartsWithNama(row[from]) then [Block(from - 1, from, row[from].s)] + rest
      else rest
  }

  /** One step of `BlocksFrom`. */
  lemma BlocksFromStep(row: Row, from: nat)
    requires from < |row|
    ensures BlocksFrom(row, from) ==
      if StartsWithNama(row[from]) then [Block(from - 1, from, row[from].s)] + BlocksFrom(row, from + 1)
      else BlocksFrom(row, from + 1)
  {
  }

  /** A block of `BlocksFrom(row, from + 1)` is also one of `BlocksFrom(row, from)`. */
  lemma BlockShift(row: Row, from: nat, i: int, k1: nat) returns (k: nat)
    requires from < |row|
    requires k1 < |BlocksFrom(row, from + 1)| && BlocksFrom(row, from + 1)[k1].nameIndex == i
    ensures k < |BlocksFrom(row, from)| && BlocksFrom(row, from)[k].nameIndex == i
  {
    BlocksFromStep(row, from);
    k := if StartsWithNama(row[from]) then k1 + 1 else k1;
  }

  /** The position of the block a NAMA-prefixed column opens. */
  lemma {:induction false} BlockPosition(row: Row, from: nat, i: int) returns (k: nat)
    requires from <= i < |row| && StartsWithNama(row[i])
    ensures k < |BlocksFrom(row, from)| && BlocksFrom(row, from)[k].nameIndex == i
    decreases |row| - from
  {
    if i == from {
      BlocksFromStep(row, from);
      k := 0;
    } else {
      var k1 := BlockPosition(row, from + 1, i);
      k := BlockShift(row, from, i, k1);
    }
  }

  /** No NAMA-prefixed column is missed: each one opens a block. */
  lemma BlocksFromComplete(row: Row, from: nat, i: int)
    requires from <= i < |row| && StartsWithNama(row[i])
    ensures exists k :: 0 <= k < |BlocksFrom(row, from)| && BlocksFrom(row, from)[k].nameIndex == i
  {
    var k := BlockPosition(row, from, i);
  }

  /** `row.filter(cell => getSafeString(cell).startsWith("NAMA")).length`. */
  function CountNama(row: Row): nat {
    if |row| == 0 then 0
    else (if StartsWithNama(row[0]) then 1 else 0) + CountNama(row[1..])
  }

  /** A header row opens exactly as many blocks as it has NAMA-prefixed cells. */
  lemma {:induction false} BlocksFromCount(row: Row, from: nat)
    requires from <= |row|
    ensures |BlocksFrom(row, from)| == CountNama(row[from..])
    decreases |row| - from
  {
    if from < |row| {
      BlocksFromCount(row, from + 1);
      assert row[from..][1..] == row[from + 1..];
    }
  }

  /** `currentClassBlocks` after a header row. */
  function ColumnBlocks(row: Row): seq<Block> {
    BlocksFrom(row, 0)
  }

  /** The students one data row yields, one per block in block order. */
  function BlockStudents(row: Row, blocks: seq<Block>, groupOf: string -> string): seq<ParsedStudent>
    decreases |blocks|
  {
    if |blocks| == 0 then []
    else
      var b := blocks[0];
      var nim := CellAt(row, b.nimIndex);
      var name := CellAt(row, b.nameIndex);
      var rest := BlockStudents(row, blocks[1..], groupOf);
      if RowAccepted(nim, name) then [ParsedStudent(CellText(nim), name.s, groupOf(b.header))] + rest
      else rest
  }

  /** The per-column row loop: each NIM-mentioning row resets the blocks; rows
      before the first header (and after a header without name columns) yield nothing. */
  function ColumnLoop(rows: seq<Row>, blocks: seq<Block>, groupOf: string -> string): seq<ParsedStudent>
    decreases |rows|
  {
    if |rows| == 0 then []
    else if IsNimRow(rows[0]) then ColumnLoop(rows[1..], ColumnBlocks(rows[0]), groupOf)
    else BlockStudents(rows[0], blocks, groupOf) + ColumnLoop(rows[1..], blocks, groupOf)
  }

  /** Rows before the first NIM-mentioning row contribute nothing. */
  lemma {:induction false} ColumnLoopSkipsPreamble(rows: seq<Row>, k: nat, groupOf: string -> string)
    requires k <= |rows|
    requires forall j :: 0 <= j < k ==> !IsNimRow(rows[j])
    ensures ColumnLoop(rows, [], groupOf) == ColumnLoop(rows[k..], [], groupOf)
    decreases k
  {
    if k > 0 {
      assert !IsNimRow(rows[0]);
      assert ColumnLoop(rows, [], groupOf) == ColumnLoop(rows[1..], [], groupOf) by {
        assert BlockStudents(rows[0], [], groupOf) == [];
      }
      assert ColumnLoop(rows[1..], [], groupOf) == ColumnLoop(rows[1..][k - 1..], [], groupOf) by {
        assert forall j :: 0 <= j < k - 1 ==> rows[1..][j] == rows[j + 1];
        ColumnLoopSkipsPreamble(rows[1..], k - 1, groupOf);
      }
      assert rows[1..][k - 1..] == rows[k..];
    }
  }

  /** Row `j` is the first row with a cell mentioning NIM. */
  predicate IsFirstNimRow(rows: seq<Row>, j: int) {
    0 <= j < |rows| && IsNimRow(rows[j]) && forall i :: 0 <= i < j ==> !IsNimRow(rows[i])
  }

  /** The first row of `rows` with a cell mentioning NIM. */
  function FirstNimRow(rows: seq<Row>): (h: Option<Row>)
    ensures h.Some? <==> exists j :: 0 <= j < |rows| && IsNimRow(rows[j])
    ensures h.Some? ==> exists j :: IsFirstNimRow(rows, j) && rows[j] == h.value
  {
    var j := FindIndex(rows, IsNimRow);
    if j == -1 then None else Some(rows[j])
  }

  /** The first NIM row is the first one after a preamble without NIM rows. */
  lemma FirstNimRowSplit(pre: seq<Row>, h: Row, post: seq<Row>)
    requires forall j :: 0 <= j < |pre| ==> !IsNimRow(pre[j])
    requires IsNimRow(h)
    ensures FirstNimRow(pre + [h] + post) == Some(h)
  {
    var rows := pre + [h] + post;
    assert rows[|pre|] == h;
    assert IsFirstNimRow(rows, |pre|);
    var j :| IsFirstNimRow(rows, j) && rows[j] == FirstNimRow(rows).value;
  }

  /** `st` is what block `b` reads from `row` when the row passes the filter there. */
  predicate ReadBy(row: Row, b: Block, groupOf: string -> string, st: ParsedStudent) {
    var nim := CellAt(row, b.nimIndex);
    var name := CellAt(row, b.nameIndex);
    RowAccepted(nim, name) && st == ParsedStudent(CellText(nim), name.s, groupOf(b.header))
  }

  /** Every student a data row yields is read by one of the blocks, with that
      block's class group; a row yields at most one student per block. */
  lemma {:induction false} BlockStudentsSound(row: Row, blocks: seq<Block>, groupOf: string -> string)
    ensures forall st :: st in BlockStudents(row, blocks, groupOf) ==>
      exists b :: b in blocks && ReadBy(row, b, groupOf, st)
    ensures |BlockStudents(row, blocks, groupOf)| <= |blocks|
    decreases |blocks|
  {
    if |blocks| > 0 {
      BlockStudentsSound(row, blocks[1..], groupOf);
      forall st | st in BlockStudents(row, blocks, groupOf)
        ensures exists b :: b in blocks && ReadBy(row, b, groupOf, st)
      {
        if st !in BlockStudents(row, blocks[1..], groupOf) {
          assert ReadBy(row, blocks[0], groupOf, st);
        } else {
          var b' :| b' in blocks[1..] && ReadBy(row, b', groupOf, st);
          assert b' in blocks;
        }
      }
    }
  }

  /** What one block reads from a data row: its student, or nothing. */
  function BlockYield(row: Row, b: Block, groupOf: string -> string): (r: seq<ParsedStudent>)
    ensures forall st :: ReadBy(row, b, groupOf, st) ==> r == [st]
  {
    var nim := CellAt(row, b.nimIndex);
    var name := CellAt(row, b.nameIndex);
    if RowAccepted(nim, name) then [ParsedStudent(CellText(nim), name.s, groupOf(b.header))] else []
  }

  /** One block of `BlockStudents`. */
  lemma BlockStudentsStep(row: Row, blocks: seq<Block>, groupOf: string -> string)
    requires |blocks| > 0
    ensures BlockStudents(row, blocks, groupOf)
         == BlockYield(row, blocks[0], groupOf) + BlockStudents(row, blocks[1..], groupOf)
  {
  }

  /** The converse: each block that accepts the row contributes its student. */
  lemma {:induction false} BlockStudentsComplete(row: Row, blocks: seq<Block>, groupOf: string -> string,
                                                 k: nat, st: ParsedStudent)
    requires k < |blocks| && ReadBy(row, blocks[k], groupOf, st)
    ensures st in BlockStudents(row, blocks, groupOf)
    decreases k
  {
    var head := BlockYield(row, blocks[0], groupOf);
    var rest := BlockStudents(row, blocks[1..], groupOf);
    BlockStudentsStep(row, blocks, groupOf);
    if k == 0 {
      assert head == [st];
    } else {
      assert blocks[1..][k - 1] == blocks[k];
      BlockStudentsComplete(row, blocks[1..], groupOf, k - 1, st);
      assert st in head + rest;
    }
  }

  /** Reading the blocks in two runs gives the two runs' students one after
      the other: the blocks are read left to right, independently. */
  lemma {:induction false} BlockStudentsAppend(row: Row, a: seq<Block>, b: seq<Block>, groupOf: string -> string)
    ensures BlockStudents(row, a + b, groupOf) == BlockStudents(row, a, groupOf) + BlockStudents(row, b, groupOf)
    decreases |a|
  {
    if |a| == 0 {
      assert a + b == b;
    } else {
      assert (a + b)[0] == a[0];
      assert (a + b)[1..] == a[1..] + b;
      BlockStudentsAppend(row, a[1..], b, groupOf);
    }
  }

  // ------------------------------------------- per column: reference reading

  /** The inner `for (const block of currentClassBlocks)` as the reader of a data row. */
  function BlockReader(groupOf: string -> string): (Row, seq<Block>) -> seq<ParsedStudent> {
    (row, blocks) => BlockStudents(row, blocks, groupOf)
  }

  /** The blocks in force at row `i`: those the last NIM row above it opens,
      or `initial` when no header came yet. */
  function BlocksAt(rows: seq<Row>, initial: seq<Block>, i: nat): seq<Block>
    requires i <= |rows|
  {
    StateAt(rows, initial, IsNimRow, ColumnBlocks, i)
  }

  /** Reference reading of the per-column layout: rows `0 .. n-1` in order,
      each non-header row contributing what the blocks in force read from it,
      nothing dropped. */
  function ColumnYields(rows: seq<Row>, initial: seq<Block>, groupOf: string -> string, n: nat): seq<ParsedStudent>
    requires n <= |rows|
  {
    Yields(rows, initial, IsNimRow, ColumnBlocks, BlockReader(groupOf), n)
  }

  /** The column loop is a header fold: NIM rows open blocks, other rows are
      read block by block. */
  lemma {:induction false} ColumnLoopIsFold(rows: seq<Row>, blocks: seq<Block>, groupOf: string -> string)
    ensures ColumnLoop(rows, blocks, groupOf) == Fold(rows, blocks, IsNimRow, ColumnBlocks, BlockReader(groupOf))
    decreases |rows|
  {
    if |rows| > 0 {
      if IsNimRow(rows[0]) {
        ColumnLoopIsFold(rows[1..], ColumnBlocks(rows[0]), groupOf);
      } else {
        ColumnLoopIsFold(rows[1..], blocks, groupOf);
        assert BlockReader(groupOf)(rows[0], blocks) == BlockStudents(rows[0], blocks, groupOf);
      }
    }
  }

  /** `parseTL` / `parsePerColumn`'s loop is the reference reading: each row,
      in order, contributes what the blocks of the last NIM row above it read,
      and repeated NIMs are all kept. */
  lemma ColumnLoopIsReference(rows: seq<Row>, initial: seq<Block>, groupOf: string -> string)
    ensures ColumnLoop(rows, initial, groupOf) == ColumnYields(rows, initial, groupOf, |rows|)
  {
    ColumnLoopIsFold(rows, initial, groupOf);
    FoldIsYields(rows, initial, IsNimRow, ColumnBlocks, BlockReader(groupOf));
  }

  /** Completeness of the per-column loop: a data row read by any block in
      force there yields that block's student. */
  lemma ColumnLoopComplete(rows: seq<Row>, initial: seq<Block>, groupOf: string -> string,
                           i: nat, k: nat, st: ParsedStudent)
    requires i < |rows| && !IsNimRow(rows[i])
    requires k < |BlocksAt(rows, initial, i)| && ReadBy(rows[i], BlocksAt(rows, initial, i)[k], groupOf, st)
    ensures st in ColumnLoop(rows, initial, groupOf)
  {
    var blocks := BlocksAt(rows, initial, i);
    BlockStudentsComplete(rows[i], blocks, groupOf, k, st);
    assert YieldAt(rows, initial, IsNimRow, ColumnBlocks, BlockReader(groupOf), i)
        == BlockStudents(rows[i], blocks, groupOf);
    YieldAtIn(rows, initial, IsNimRow, ColumnBlocks, BlockReader(groupOf), i, |rows|, st);
    ColumnLoopIsReference(rows, initial, groupOf);
  }

  /** Soundness of the per-column loop: every student is read from some data
      row by a block in force there, so its name is non-blank and its class
      group is computed from that block's header. */
  lemma ColumnLoopSound(rows: seq<Row>, initial: seq<Block>, groupOf: string -> string)
    ensures forall st :: st in ColumnLoop(rows, initial, groupOf) ==>
      exists i, b :: 0 <= i < |rows| && !IsNimRow(rows[i]) && b in BlocksAt(rows, initial, i)
                     && ReadBy(rows[i], b, groupOf, st)
    ensures forall st :: st in ColumnLoop(rows, initial, groupOf) ==>
      Trim(st.name) != "" && exists h :: st.classGroup == groupOf(h)
  {
    ColumnLoopIsReference(rows, initial, groupOf);
    forall st | st in ColumnLoop(rows, initial, groupOf)
      ensures exists i, b :: 0 <= i < |rows| && !IsNimRow(rows[i]) && b in BlocksAt(rows, initial, i)
                             && ReadBy(rows[i], b, groupOf, st)
    {
      YieldsFrom(rows, initial, IsNimRow, ColumnBlocks, BlockReader(groupOf), |rows|, st);
      var i :| 0 <= i < |rows| && st in YieldAt(rows, initial, IsNimRow, ColumnBlocks, BlockReader(groupOf), i);
      var blocks := BlocksAt(rows, initial, i);
      assert !IsNimRow(rows[i]);
      assert st in BlockStudents(rows[i], blocks, groupOf);
      BlockStudentsSound(rows[i], blocks, groupOf);
      var b :| b in blocks && ReadBy(rows[i], b, groupOf, st);
    }
    forall st | st in ColumnLoop(rows, initial, groupOf)
      ensures Trim(st.name) != "" && exists h :: st.classGroup == groupOf(h)
    {
      var i, b :| 0 <= i < |rows| && !IsNimRow(rows[i]) && b in BlocksAt(rows, initial, i)
                  && ReadBy(rows[i], b, groupOf, st);
      assert st.classGroup == groupOf(b.header);
    }
  }

  /** No de-duplication: a data row repeated right below itself yields its
      students twice. */
  lemma ColumnLoopKeepsRepeats(h: Row, d: Row, groupOf: string -> string)
    requires IsNimRow(h) && !IsNimRow(d)
    ensures ColumnLoop([h, d, d], [], groupOf)
         == BlockStudents(d, ColumnBlocks(h), groupOf) + BlockStudents(d, ColumnBlocks(h), groupOf)
  {
    var rows := [h, d, d];
    assert rows[1..] == [d, d] && [d, d][1..] == [d] && [d][1..] == [];
    var y := BlockStudents(d, ColumnBlocks(h), groupOf);
    assert ColumnLoop([d], ColumnBlocks(h), groupOf) == y + [];
  }
}

=== FILE: sorting.dfy ===
/** Ordering for the two `ORDER BY` clauses of the core: an insertion sort
    by a total preorder, and the lexicographic string order used as the
    collation (code-point order, as PostgreSQL's "C" collation). */
module Sorting {

  predicate SortedBy<T>(s: seq<T>, le: (T, T) -> bool) {
    forall i, j :: 0 <= i < j < |s| ==> le(s[i], s[j])
  }

  ghost predicate TotalPreorder<T(!new)>(le: (T, T) -> bool) {
    && (forall a, b :: le(a, b) || le(b, a))
    && (forall a, b, c :: le(a, b) && le(b, c) ==> le(a, c))
  }

  /** Insert `x` into the sorted `s`, before the first element it is at most. */
  function Insert<T(!new)>(x: T, s: seq<T>, le: (T, T) -> bool): (r: seq<T>)
    requires TotalPreorder(le) && SortedBy(s, le)
    ensures multiset(r) == multiset(s) + multiset{x}
    ensures SortedBy(r, le)
  {
    if |s| == 0 then [x]
    else if le(x, s[0]) then
      var r := [x] + s;
      assert forall j :: 0 < j < |r| ==> r[j] == s[j - 1];
      r
    else
      var rest := Insert(x, s[1..], le);
      assert s == [s[0]] + s[1..];
      var r := [s[0]] + rest;
      assert forall y :: y in rest ==> y == x || y in s[1..] by {
        forall y | y in rest ensures y == x || y in s[1..] {
          assert y in multiset(rest);
        }
      }
      assert forall j :: 0 < j < |r| ==> r[j] == rest[j - 1];
      assert forall j :: 0 < j < |r| ==> le(s[0], r[j]) by {
        forall j | 0 < j < |r| ensures le(s[0], r[j]) {
          assert r[j] in rest;
          if r[j] != x {
            var k :| 0 <= k < |s[1..]| && s[1..][k] == r[j];
            assert s[k + 1] == r[j];
          }
        }
      }
      r
  }

  /** Insertion sort: a sorted permutation of `s`. */
  function SortBy<T(!new)>(s: seq<T>, le: (T, T) -> bool): (r: seq<T>)
    requires TotalPreorder(le)
    ensures multiset(r) == multiset(s)
    ensures SortedBy(r, le)
  {
    if |s| == 0 then []
    else
      assert s == [s[0]] + s[1..];
      Insert(s[0], SortBy(s[1..], le), le)
  }

  // ------------------------------------------------- lexicographic strings

  /** `a` sorts at or before `b`: character by character, a proper prefix first. */
  predicate LexLe(a: string, b: string) {
    if |a| == 0 then true
    else if |b| == 0 then false
    else if a[0] != b[0] then a[0] < b[0]
    else LexLe(a[1..], b[1..])
  }

  lemma {:induction false} LexLeTotal(a: string, b: string)
    ensures LexLe(a, b) || LexLe(b, a)
  {
    if |a| > 0 && |b| > 0 && a[0] == b[0] {
      LexLeTotal(a[1..], b[1..]);
    }
  }

  lemma {:induction false} LexLeTransitive(a: string, b: string, c: string)
    requires LexLe(a, b) && LexLe(b, c)
    ensures LexLe(a, c)
  {
    if |a| > 0 && |b| > 0 && |c| > 0 && a[0] == b[0] && b[0] == c[0] {
      LexLeTransitive(a[1..], b[1..], c[1..]);
    }
  }

  lemma {:induction false} LexLeAntisymmetric(a: string, b: string)
    requires LexLe(a, b) && LexLe(b, a)
    ensures a == b
  {
    if |a| > 0 && |b| > 0 {
      LexLeAntisymmetric(a[1..], b[1..]);
      assert a == [a[0]] + a[1..] && b == [b[0]] + b[1..];
    }
  }

  /** Lexicographic order on three sort keys, as `ORDER BY k1, k2, k3`. */
  predicate Lex3Le(a: (string, string, string), b: (string, string, string)) {
    if a.0 != b.0 then LexLe(a.0, b.0)
    else if a.1 != b.1 then LexLe(a.1, b.1)
    else LexLe(a.2, b.2)
  }

  lemma Lex3LeTotal(a: (string, string, string), b: (string, string, string))
    ensures Lex3Le(a, b) || Lex3Le(b, a)
  {
    LexLeTotal(a.0, b.0);
    LexLeTotal(a.1, b.1);
    LexLeTotal(a.2, b.2);
  }

  lemma Lex3LeTransitive(a: (string, string, string), b: (string, string, string), c: (string, string, string))
    requires Lex3Le(a, b) && Lex3Le(b, c)
    ensures Lex3Le(a, c)
  {
    if a.0 != b.0 && b.0 != c.0 {
      LexLeTransitive(a.0, b.0, c.0);
      if a.0 == c.0 { LexLeAntisymmetric(a.0, b.0); }
    } else if a.0 == b.0 && b.0 == c.0 {
      if a.1 != b.1 && b.1 != c.1 {
        LexLeTransitive(a.1, b.1, c.1);
        if a.1 == c.1 { LexLeAntisymmetric(a.1, b.1); }
      } else if a.1 == b.1 && b.1 == c.1 {
        LexLeTransitive(a.2, b.2, c.2);
      }
    }
  }

  // ------------------------------------------------------------ distinctness

  predicate Distinct<T(==)>(s: seq<T>) {
    forall i, j :: 0 <= i < j < |s| ==> s[i] != s[j]
  }

  /** A value occurs at most once in a sequence without repetitions. */
  lemma {:induction false} DistinctCount<T>(s: seq<T>, x: T)
    requires Distinct(s)
    ensures multiset(s)[x] <= 1
  {
    if |s| > 0 {
      assert s == [s[0]] + s[1..];
      DistinctCount(s[1..], x);
    }
  }

  /** A value at two positions occurs at least twice. */
  lemma RepeatCount<T>(s: seq<T>, i: int, j: int)
    requires 0 <= i < j < |s| && s[i] == s[j]
    ensures multiset(s)[s[i]] >= 2
  {
    assert s == s[..j] + s[j..];
    assert s[i] in s[..j];
    assert s[j] in s[j..];
  }

  /** A permutation of a sequence without repetitions has none either. */
  lemma PermutationKeepsDistinct<T>(a: seq<T>, b: seq<T>)
    requires multiset(a) == multiset(b) && Distinct(b)
    ensures Distinct(a)
  {
    forall i, j | 0 <= i < j < |a| ensures a[i] != a[j] {
      DistinctCount(b, a[i]);
      if a[i] == a[j] {
        RepeatCount(a, i, j);
      }
    }
  }
}

=== FILE: student_upload.dfy ===
/** The upload route of `routes/students.mjs`: pick a parser by the detected
    layout, then group the students by class group for the response. */
module StudentUpload {
  import opened Wrappers
  import opened Text
  import opened Cells
  import opened SheetRows
  import opened LayoutParser

  /** The parser dispatch on `detectFileType(workbook)`: a per-sheet workbook
      gives the first student of each NIM over all sheets, a per-column one
      every student of every block of the first sheet, repeats included. */
  function ParseUpload(wb: Workbook, programStudi: Option<string>): (r: seq<ParsedStudent>)
    ensures forall st :: st in r ==> Trim(st.name) != ""
    ensures DetectLayout(wb) == PerSheet ==> r == ParsePerSheet(wb)
    ensures DetectLayout(wb) == PerColumn ==> r == ParsePerColumn(wb, programStudi)
    ensures DetectLayout(wb) == PerSheet ==>
      DistinctNims(r) && forall st :: st in r ==> st.classGroup in wb.sheetNames
    ensures DetectLayout(wb) == PerSheet ==>
      && NimsOf(r) == NimsOf(SheetsCandidates(wb, wb.sheetNames, n => n))
      && forall i :: 0 <= i < |r| ==> FirstWithNim(SheetsCandidates(wb, wb.sheetNames, n => n), r[i].nim) == Some(r[i])
    ensures DetectLayout(wb) == PerColumn ==>
      var rows := FirstSheetRows(wb);
      r == ColumnYields(rows, [], ColumnGroupOf(programStudi), |rows|)
    ensures DetectLayout(wb) == PerColumn ==> forall st :: st in r ==>
      (st.classGroup == "Unknown" || StartsWith(st.classGroup, Akronim(programStudi)))
  {
    match DetectLayout(wb)
    case PerSheet => ParsePerSheet(wb)
    case PerColumn => ParsePerColumn(wb, programStudi)
  }

  /** What the response keeps of a student: `{nim, name}`. */
  datatype Entry = Entry(nim: string, name: string)

  /** One key of `groupedStudents` with its array. */
  datatype Bucket = Bucket(classGroup: string, entries: seq<Entry>)

  function EntryOf(st: ParsedStudent): Entry {
    Entry(st.nim, st.name)
  }

  /** The array stored under `g`, if the key exists. */
  function BucketOf(groups: seq<Bucket>, g: string): (r: Option<seq<Entry>>)
    ensures r.Some? <==> exists k :: 0 <= k < |groups| && groups[k].classGroup == g
  {
    if |groups| == 0 then None
    else if groups[0].classGroup == g then Some(groups[0].entries)
    else BucketOf(groups[1..], g)
  }

  predicate DistinctKeys(groups: seq<Bucket>) {
    forall i, j :: 0 <= i < j < |groups| ==> groups[i].classGroup != groups[j].classGroup
  }

  /** Total number of entries over all buckets. */
  function TotalSize(groups: seq<Bucket>): nat {
    if |groups| == 0 then 0 else |groups[0].entries| + TotalSize(groups[1..])
  }

  /** One iteration of the grouping loop: create the key if it is new, then push. */
  function AddStudent(groups: seq<Bucket>, st: ParsedStudent): (r: seq<Bucket>)
    ensures TotalSize(r) == TotalSize(groups) + 1
    ensures forall g :: BucketOf(r, g) ==
                        if g == st.classGroup then Some(BucketOf(groups, g).GetOr([]) + [EntryOf(st)])
                        else BucketOf(groups, g)
    ensures DistinctKeys(groups) ==> DistinctKeys(r)
  {
    if |groups| == 0 then
      var r := [Bucket(st.classGroup, [EntryOf(st)])];
      assert r[1..] == [];
      assert [] + [EntryOf(st)] == [EntryOf(st)];
      r
    else if groups[0].classGroup == st.classGroup then
      var r := [Bucket(st.classGroup, groups[0].entries + [EntryOf(st)])] + groups[1..];
      assert r[1..] == groups[1..];
      assert DistinctKeys(groups) ==> DistinctKeys(r) by {
        if DistinctKeys(groups) {
          forall i, j | 0 <= i < j < |r| ensures r[i].classGroup != r[j].classGroup {
            assert r[i].classGroup == groups[i].classGroup && r[j].classGroup == groups[j].classGroup;
          }
        }
      }
      r
    else
      var rest := AddStudent(groups[1..], st);
      var r := [groups[0]] + rest;
      assert r[1..] == rest;
      assert DistinctKeys(groups) ==> DistinctKeys(r) by {
        if DistinctKeys(groups) {
          forall i, j | 0 <= i < j < |r| ensures r[i].classGroup != r[j].classGroup {
            if i == 0 {
              assert BucketOf(rest, r[j].classGroup).Some?;
              if r[j].classGroup != st.classGroup {
                var k :| 0 <= k < |groups[1..]| && groups[1..][k].classGroup == r[j].classGroup;
                assert groups[k + 1].classGroup == r[j].classGroup;
              }
            } else {
              assert r[i] == rest[i - 1] && r[j] == rest[j - 1];
            }
          }
        }
      }
      r
  }

  /** The students of class group `g`, as entries, in input order. */
  function EntriesOf(students: seq<ParsedStudent>, g: string): seq<Entry>
    decreases |students|
  {
    if |students| == 0 then []
    else
      var last := students[|students| - 1];
      EntriesOf(students[..|students| - 1], g) + (if last.classGroup == g then [EntryOf(last)] else [])
  }

  /** The class groups that occur in `students`. */
  function ClassesOf(students: seq<ParsedStudent>): set<string> {
    set st | st in students :: st.classGroup
  }

  /** `groups` is the grouping of `students`: one key per class group occurring
      in them, and under each key exactly that group's students in input order. */
  ghost predicate GroupsOf(groups: seq<Bucket>, students: seq<ParsedStudent>) {
    && DistinctKeys(groups)
    && forall g :: BucketOf(groups, g) == if g in ClassesOf(students) then Some(EntriesOf(students, g)) else None
  }

  /** The grouping loop. The bucket sizes add up to `totalStudentsFound`. */
  method GroupByClass(students: seq<ParsedStudent>) returns (groups: seq<Bucket>)
    ensures GroupsOf(groups, students)
    ensures TotalSize(groups) == |students|
  {
    groups := [];
    var i := 0;
    while i < |students|
      invariant 0 <= i <= |students|
      invariant GroupsOf(groups, students[..i])
      invariant TotalSize(groups) == i
    {
      AddStudentGroups(groups, students[..i], students[i]);
      assert students[..i] + [students[i]] == students[..i + 1];
      groups := AddStudent(groups, students[i]);
      i := i + 1;
    }
    assert students[..|students|] == students;
  }

  /** One loop iteration keeps `groups` the grouping of the students seen so far. */
  lemma AddStudentGroups(groups: seq<Bucket>, pre: seq<ParsedStudent>, st: ParsedStudent)
    requires GroupsOf(groups, pre)
    ensures GroupsOf(AddStudent(groups, st), pre + [st])
  {
    var all := pre + [st];
    assert all[..|pre|] == pre && all[|pre|] == st;
    assert ClassesOf(all) == ClassesOf(pre) + {st.classGroup} by {
      forall g | g in ClassesOf(all) ensures g in ClassesOf(pre) + {st.classGroup} {
        var x :| x in all && x.classGroup == g;
        var k :| 0 <= k < |all| && all[k] == x;
        if k < |pre| { assert x == pre[k]; }
      }
      assert forall x :: x in pre ==> x in all;
    }
    var r := AddStudent(groups, st);
    assert all[..|all| - 1] == pre;
    forall g
      ensures BucketOf(r, g) == if g in ClassesOf(all) then Some(EntriesOf(all, g)) else None
    {
      assert EntriesOf(all, g) == EntriesOf(pre, g) + (if st.classGroup == g then [EntryOf(st)] else []);
      if g == st.classGroup {
        if g !in ClassesOf(pre) {
          EntriesOfAbsent(pre, g);
          assert BucketOf(groups, g) == None;
          assert EntriesOf(all, g) == [] + [EntryOf(st)];
          assert BucketOf(r, g) == Some([] + [EntryOf(st)]);
        } else {
          assert BucketOf(groups, g) == Some(EntriesOf(pre, g));
          assert BucketOf(r, g) == Some(EntriesOf(pre, g) + [EntryOf(st)]);
        }
        assert g in ClassesOf(all);
      } else {
        assert BucketOf(r, g) == BucketOf(groups, g);
        assert g in ClassesOf(all) <==> g in ClassesOf(pre);
        assert EntriesOf(all, g) == EntriesOf(pre, g);
      }
    }
  }

  lemma {:induction false} EntriesOfAbsent(students: seq<ParsedStudent>, g: string)
    requires g !in ClassesOf(students)
    ensures EntriesOf(students, g) == []
    decreases |students|
  {
    if |students| > 0 {
      var init := students[..|students| - 1];
      assert forall x :: x in init ==> x in students;
      assert ClassesOf(init) <= ClassesOf(students);
      EntriesOfAbsent(init, g);
    }
  }
}

=== FILE: template_parser.dfy ===
/** `utils/excelParser.mjs`: the template-aware parser with three layouts,
    BMM (one class per sheet), TL (one class per column block of the first
    sheet) and TOLI (selected `KOMPEN TOLI ...` sheets). */
module TemplateParser {
  import opened Wrappers
  import opened Text
  import opened Cells
  import opened SheetRows
  import opened HeaderPatterns

  datatype FileKind = Bmm | Tl | Toli

  /** The `switch (templateType.toUpperCase())`; other values fall through to detection. */
  function TemplateKind(t: string): (k: Option<FileKind>)
    ensures k == Some(Bmm) <==> Upper(t) == "BMM"
    ensures k == Some(Tl) <==> Upper(t) == "TL"
    ensures k == Some(Toli) <==> Upper(t) == "TOLI"
  {
    var u := Upper(t);
    if u == "BMM" then Some(Bmm)
    else if u == "TL" then Some(Tl)
    else if u == "TOLI" then Some(Toli)
    else None
  }

  predicate IsKompenToliName(n: string) {
    Contains(Upper(n), "KOMPEN") && Contains(Upper(n), "TOLI")
  }

  /** The `MAHASISWA` cell test of the header row, with its literal `{2}` pattern. */
  predicate HasYearPattern(row: Row) {
    exists i :: 0 <= i < |row| && Contains(SafeString(row[i]), "MAHASISWA") && HasBraceTwo(SafeString(row[i]))
  }

  /** The last rule: TL when the first NIM-mentioning row has several NAMA
      columns or the year pattern; otherwise no answer. */
  function HeaderKind(h: Row): (k: Option<FileKind>)
    ensures k == Some(Tl) <==> CountNama(h) > 1 || HasYearPattern(h)
    ensures k.None? <==> !(CountNama(h) > 1 || HasYearPattern(h))
  {
    if CountNama(h) > 1 || HasYearPattern(h) then Some(Tl) else None
  }

  /** No explicit template, or one the `switch` does not know. */
  predicate NoTemplate(templateType: Option<string>) {
    templateType.None? || TemplateKind(templateType.value).None?
  }

  /** `detectFileType(workbook, templateType)`; `None` is the `undefined` the
      function returns when no rule fires. */
  function DetectFileType(wb: Workbook, templateType: Option<string>): (k: Option<FileKind>)
    ensures templateType.Some? && TemplateKind(templateType.value).Some? ==> k == TemplateKind(templateType.value)
    ensures NoTemplate(templateType) && !HasFirstSheet(wb) ==> k == Some(Bmm)
    ensures NoTemplate(templateType) && HasFirstSheet(wb) && (exists n :: n in wb.sheetNames && IsKompenToliName(n))
      ==> k == Some(Toli)
    ensures NoTemplate(templateType) && HasFirstSheet(wb) && (forall n :: n in wb.sheetNames ==> !IsKompenToliName(n))
      ==> k == (if FirstNimRow(FirstSheetRows(wb)).None? then None else HeaderKind(FirstNimRow(FirstSheetRows(wb)).value))
    ensures k.None? ==> HasFirstSheet(wb) && forall n :: n in wb.sheetNames ==> !IsKompenToliName(n)
  {
    if templateType.Some? && TemplateKind(templateType.value).Some? then TemplateKind(templateType.value)
    else if !HasFirstSheet(wb) then Some(Bmm)
    else if exists n :: n in wb.sheetNames && IsKompenToliName(n) then Some(Toli)
    else
      match FirstNimRow(FirstSheetRows(wb))
      case None => None
      case Some(h) => HeaderKind(h)
  }

  /** Only the first NIM-mentioning row of the first sheet is consulted: once
      the explicit template and the sheet-name rules have not fired, the answer
      is fixed by that row, whatever follows it. */
  lemma DetectFileTypeFirstHeader(wb: Workbook, pre: seq<Row>, h: Row, post: seq<Row>)
    requires HasFirstSheet(wb) && wb.sheets[wb.sheetNames[0]] == pre + [h] + post
    requires forall n :: n in wb.sheetNames ==> !IsKompenToliName(n)
    requires forall j :: 0 <= j < |pre| ==> !IsNimRow(pre[j])
    requires IsNimRow(h)
    ensures DetectFileType(wb, None) == HeaderKind(h)
  {
    assert FirstSheetRows(wb) == pre + [h] + post;
    FirstNimRowSplit(pre, h, post);
  }

  /** When the NAMA-count rule selects TL, the TL parser's first header opens
      several name blocks. */
  lemma DetectedTlOpensBlocks(wb: Workbook)
    requires HasFirstSheet(wb) && forall n :: n in wb.sheetNames ==> !IsKompenToliName(n)
    requires FirstNimRow(FirstSheetRows(wb)).Some?
    requires CountNama(FirstNimRow(FirstSheetRows(wb)).value) > 1
    ensures DetectFileType(wb, None) == Some(Tl)
    ensures |ColumnBlocks(FirstNimRow(FirstSheetRows(wb)).value)| > 1
  {
    var h := FirstNimRow(FirstSheetRows(wb)).value;
    BlocksFromCount(h, 0);
    assert h[0..] == h;
  }

  // -------------------------------------------------------------------- TL

  /** The shapes a TL class group can take. */
  predicate IsTlGroupShape(g: string) {
    || g == "Unknown"
    || (|g| == 5 && g[..2] == "TL" && IsDigit(g[2]) && IsDigit(g[3]) && 'A' <= g[4] <= 'D')
    || (g != "" && NoSpaces(g) && forall i :: 0 <= i < |g| ==> !('a' <= g[i] <= 'z'))
  }

  /** The class group `parseTL` derives from a block header. */
  function TlGroup(header: string): (g: string)
    ensures IsTlGroupShape(g)
    ensures NamaMahasiswaGroup(header).None? ==> g == "Unknown"
  {
    match NamaMahasiswaGroup(header)
    case None => "Unknown"
    case Some(tail) =>
      if tail == "" then "Unknown"
      else
        TrimNonBlank(tail);
        TlClassInfoGroup(Trim(tail))
  }

  /** The class group for a trimmed, non-blank header tail: `TL`, the two digits
      and the class letter when the tail holds them, else the tail upper-cased
      without whitespace. */
  function TlClassInfoGroup(info: string): (g: string)
    requires |info| > 0 && !IsSpace(info[0])
    ensures IsTlGroupShape(g)
    ensures YearClass(info).Some? ==> |g| == 5 && g[..2] == "TL" && g[2..4] == YearClass(info).value.0
  {
    match YearClass(info)
    case Some((year, letter)) =>
      TlShape(year, letter);
      "TL" + year + [letter]
    case None =>
      UpperNonBlank(info);
      Upper(StripSpaces(info))
  }

  lemma TlShape(year: string, letter: char)
    requires |year| == 2 && AllDigits(year) && 'A' <= letter <= 'D'
    ensures var g := "TL" + year + [letter];
      |g| == 5 && g[..2] == "TL" && g[2..4] == year && IsTlGroupShape(g)
  {
    var g := "TL" + year + [letter];
    assert g[2] == year[0] && g[3] == year[1] && g[4] == letter;
    assert IsDigit(year[0]) && IsDigit(year[1]);
  }

  /** The upper-cased, whitespace-free form of a trimmed non-blank string is non-blank. */
  lemma UpperNonBlank(info: string)
    requires |info| > 0 && !IsSpace(info[0])
    ensures var u := Upper(StripSpaces(info));
      u != "" && NoSpaces(u) && forall i :: 0 <= i < |u| ==> !('a' <= u[i] <= 'z')
  {
    var s := StripSpaces(info);
    assert s == [info[0]] + StripSpaces(info[1..]);
    var u := Upper(s);
    forall i | 0 <= i < |u| ensures !IsSpace(u[i]) && !('a' <= u[i] <= 'z') {
      assert u[i] == UpperChar(s[i]);
    }
  }

  /** `parseTL` (and `parsePerColumn`, which only forwards to it): the first
      sheet alone, read by the column loop. The result is the reference
      reading of that sheet, so every accepted (row, block) pair yields its
      student in row-then-block order and repeated NIMs are kept. */
  function ParseTL(wb: Workbook): (r: seq<ParsedStudent>)
    ensures var rows := FirstSheetRows(wb);
      r == ColumnYields(rows, [], TlGroup, |rows|)
    ensures var rows := FirstSheetRows(wb);
      forall i, k, st ::
        (0 <= i < |rows| && !IsNimRow(rows[i]) && 0 <= k < |BlocksAt(rows, [], i)|
         && ReadBy(rows[i], BlocksAt(rows, [], i)[k], TlGroup, st)) ==> st in r
    ensures forall st :: st in r ==> Trim(st.name) != "" && IsTlGroupShape(st.classGroup)
  {
    var rows := FirstSheetRows(wb);
    ColumnLoopIsReference(rows, [], TlGroup);
    ColumnLoopSound(rows, [], TlGroup);
    forall i, k, st | 0 <= i < |rows| && !IsNimRow(rows[i]) && 0 <= k < |BlocksAt(rows, [], i)|
      && ReadBy(rows[i], BlocksAt(rows, [], i)[k], TlGroup, st)
      ensures st in ColumnLoop(rows, [], TlGroup)
    {
      ColumnLoopComplete(rows, [], TlGroup, i, k, st);
    }
    ColumnLoop(rows, [], TlGroup)
  }

  /** Only the first sheet matters: workbooks whose first sheets hold the same
      rows parse alike, whatever their other sheets hold. */
  lemma ParseTLFirstSheetOnly(wb: Workbook, wb': Workbook)
    requires FirstSheetRows(wb) == FirstSheetRows(wb')
    ensures ParseTL(wb) == ParseTL(wb')
  {
  }

  // ------------------------------------------------------------------ TOLI

  /** The sheet-name filter of `parseTOLI`. */
  predicate IsToliStudentSheet(n: string) {
    var u := Upper(n);
    && Contains(u, "KOMPEN") && Contains(u, "TOLI")
    && (Contains(u, "1A") || Contains(u, "1B") || Contains(u, "3B") || Contains(u, "5A") || Contains(u, "5B"))
  }

  /** `workbook.SheetNames.filter(...)`, order kept. */
  function ToliSheets(names: seq<string>): (r: seq<string>)
    ensures |r| <= |names|
    ensures forall n :: n in r <==> n in names && IsToliStudentSheet(n)
  {
    if |names| == 0 then []
    else if IsToliStudentSheet(names[0]) then [names[0]] + ToliSheets(names[1..])
    else ToliSheets(names[1..])
  }

  /** A TOLI sheet's class group: the `TOLI <digits><A|B>` part of its name, else the name. */
  function ToliGroup(sheetName: string): (g: string)
    ensures KompenToliGroup(sheetName).None? ==> g == sheetName
    ensures KompenToliGroup(sheetName).Some? ==> |g| >= 7 && Upper(g[..4]) == "TOLI"
  {
    match KompenToliGroup(sheetName)
    case Some(g) => g
    case None => sheetName
  }

  /** `parseTOLI`: the per-sheet reading of the TOLI student sheets, in
      workbook order, keeping the first student of each NIM. */
  function ParseTOLI(wb: Workbook): (r: seq<ParsedStudent>)
    ensures DistinctNims(r)
    ensures NimsOf(r) == NimsOf(SheetsCandidates(wb, ToliSheets(wb.sheetNames), ToliGroup))
    ensures forall i :: 0 <= i < |r| ==>
      FirstWithNim(SheetsCandidates(wb, ToliSheets(wb.sheetNames), ToliGroup), r[i].nim) == Some(r[i])
    ensures forall st :: st in r ==>
      (Trim(st.name) != "" && exists n :: n in wb.sheetNames && IsToliStudentSheet(n) && st.classGroup == ToliGroup(n))
  {
    var names := ToliSheets(wb.sheetNames);
    var r := ParseSheets(wb, names, ToliGroup);
    assert forall st :: st in r ==> exists n :: n in wb.sheetNames && IsToliStudentSheet(n) && st.classGroup == ToliGroup(n) by {
      forall st | st in r
        ensures exists n :: n in wb.sheetNames && IsToliStudentSheet(n) && st.classGroup == ToliGroup(n)
      {
        var k :| 0 <= k < |names| && st.classGroup == ToliGroup(names[k]);
        assert names[k] in names;
      }
    }
    r
  }

  // -------------------------------------------------------------- acronym

  /** `extractAkronim(fileName)`: the first of TOLI, TEKNIK LISTRIK, BMM the
      upper-cased name mentions decides. */
  function ExtractAkronim(fileName: string): (a: string)
    ensures a in {"TOLI", "TL", "BMM", ""}
    ensures a == "TOLI" <==> Contains(Upper(fileName), "TOLI")
    ensures a == "TL" <==> !Contains(Upper(fileName), "TOLI") && Contains(Upper(fileName), "TEKNIK LISTRIK")
    ensures a == "BMM" <==> !Contains(Upper(fileName), "TOLI") && !Contains(Upper(fileName), "TEKNIK LISTRIK")
                            && Contains(Upper(fileName), "BMM")
    ensures a == "" <==> !Contains(Upper(fileName), "TOLI") && !Contains(Upper(fileName), "TEKNIK LISTRIK")
                         && !Contains(Upper(fileName), "BMM")
  {
    var u := Upper(fileName);
    if Contains(u, "TOLI") then "TOLI"
    else if Contains(u, "TEKNIK LISTRIK") then "TL"
    else if Contains(u, "BMM") then "BMM"
    else ""
  }

  /** Every acronym `extractAkronim` produces is a template type `detectFileType`
      honours, naming the same layout. */
  lemma AkronimIsTemplateType(wb: Workbook, fileName: string)
    requires ExtractAkronim(fileName) != ""
    ensures DetectFileType(wb, Some(ExtractAkronim(fileName))) ==
      Some(if ExtractAkronim(fileName) == "TOLI" then Toli else if ExtractAkronim(fileName) == "TL" then Tl else Bmm)
  {
    var a := ExtractAkronim(fileName);
    UpperOfUpperCase(a);
  }

  /** Upper-casing a string without lower-case ASCII letters changes nothing. */
  lemma {:induction false} UpperOfUpperCase(s: string)
    requires forall i :: 0 <= i < |s| ==> !('a' <= s[i] <= 'z')
    ensures Upper(s) == s
  {
    if |s| > 0 {
      UpperOfUpperCase(s[1..]);
    }
  }
}

=== FILE: text.dfy ===
/** The JavaScript string operations the source relies on, on `seq<char>`.
    `IsSpace` is exactly the class `\s` of ECMAScript regular expressions
    (WhiteSpace and LineTerminator), which is also the set `String.prototype.trim`
    removes. Upper-casing covers ASCII letters only. */
module Text {
  import opened Wrappers

  predicate IsLineTerminator(c: char) {
    c == '\n' || c == '\r' || c == '\U{2028}' || c == '\U{2029}'
  }

  predicate IsSpace(c: char) {
    || IsLineTerminator(c)
    || c == ' ' || c == '\t' || c == '\U{000B}' || c == '\U{000C}'
    || c == '\U{00A0}' || c == '\U{1680}' || ('\U{2000}' <= c <= '\U{200A}')
    || c == '\U{202F}' || c == '\U{205F}' || c == '\U{3000}' || c == '\U{FEFF}'
  }

  predicate IsDigit(c: char) {
    '0' <= c <= '9'
  }

  predicate NoSpaces(s: string) {
    forall i :: 0 <= i < |s| ==> !IsSpace(s[i])
  }

  predicate AllSpaces(s: string) {
    forall i :: 0 <= i < |s| ==> IsSpace(s[i])
  }

  predicate AllDigits(s: string) {
    forall i :: 0 <= i < |s| ==> IsDigit(s[i])
  }

  /** `s.replace(/\s/g, "")` and `s.replace(/\s+/g, "")`: every whitespace
      character removed, everything else kept in order. */
  function StripSpaces(s: string): (r: string)
    ensures NoSpaces(r)
    ensures |r| <= |s|
    ensures NoSpaces(s) ==> r == s
  {
    if |s| == 0 then ""
    else if IsSpace(s[0]) then StripSpaces(s[1..])
    else [s[0]] + StripSpaces(s[1..])
  }

  /** The longest suffix of `s` that does not start with whitespace. */
  function DropLeadingSpaces(s: string): (r: string)
    ensures |r| <= |s| && r == s[|s| - |r|..]
    ensures AllSpaces(s[..|s| - |r|])
    ensures |r| > 0 ==> !IsSpace(r[0])
  {
    if |s| > 0 && IsSpace(s[0]) then DropLeadingSpaces(s[1..]) else s
  }

  /** The longest prefix of `s` that does not end with whitespace. */
  function DropTrailingSpaces(s: string): (r: string)
    ensures |r| <= |s| && r == s[..|r|]
    ensures AllSpaces(s[|r|..])
    ensures |r| > 0 ==> !IsSpace(r[|r| - 1])
  {
    if |s| > 0 && IsSpace(s[|s| - 1]) then DropTrailingSpaces(s[..|s| - 1]) else s
  }

  /** `s.trim()`. */
  function Trim(s: string): string {
    DropTrailingSpaces(DropLeadingSpaces(s))
  }

  /** `s.trim() === ""` holds exactly for strings made of whitespace only. */
  lemma TrimEmptyIffBlank(s: string)
    ensures Trim(s) == "" <==> AllSpaces(s)
  {
    var l := DropLeadingSpaces(s);
    if Trim(s) == "" {
      assert l[0..] == l;
      forall i | 0 <= i < |s| ensures IsSpace(s[i]) {
        assert s[i] == s[..|s| - |l|][i];
      }
    }
  }

  /** Trimming a string that starts with a non-space character keeps that character first. */
  lemma TrimNonBlank(s: string)
    requires |s| > 0 && !IsSpace(s[0])
    ensures |Trim(s)| > 0 && Trim(s)[0] == s[0]
  {
  }

  function UpperChar(c: char): (u: char)
    ensures IsSpace(u) <==> IsSpace(c)
    ensures IsDigit(u) <==> IsDigit(c)
  {
    if 'a' <= c <= 'z' then (c as int - 32) as char else c
  }

  /** `s.toUpperCase()` restricted to ASCII letters. */
  function Upper(s: string): (r: string)
    ensures |r| == |s|
    ensures forall i :: 0 <= i < |s| ==> r[i] == UpperChar(s[i])
  {
    if |s| == 0 then "" else [UpperChar(s[0])] + Upper(s[1..])
  }

  predicate StartsWith(s: string, prefix: string) {
    |prefix| <= |s| && s[..|prefix|] == prefix
  }

  /** `s.includes(sub)`. */
  predicate Contains(s: string, sub: string)
    decreases |s|
  {
    StartsWith(s, sub) || (|s| > 0 && Contains(s[1..], sub))
  }

  function DigitChar(d: nat): (c: char)
    requires d < 10
    ensures IsDigit(c)
  {
    ('0' as int + d) as char
  }

  function DigitValue(c: char): (d: nat)
    requires IsDigit(c)
    ensures d < 10 && DigitChar(d) == c
  {
    c as int - '0' as int
  }

  /** JavaScript's `String(n)` for a non-negative integer. */
  function NatToString(n: nat): (r: string)
    ensures |r| > 0 && AllDigits(r)
  {
    if n < 10 then [DigitChar(n)] else NatToString(n / 10) + [DigitChar(n % 10)]
  }

  /** JavaScript's `String(n)` for an integer. */
  function IntToString(n: int): (r: string)
    ensures |r| > 0
    ensures n >= 0 ==> AllDigits(r)
    ensures n < 0 ==> r[0] == '-' && AllDigits(r[1..])
  {
    if n >= 0 then NatToString(n) else "-" + NatToString(-n)
  }

  /** The value of a decimal digit string, most significant digit first. */
  function DecimalValue(s: string): nat
    requires AllDigits(s)
  {
    if |s| == 0 then 0 else DecimalValue(s[..|s| - 1]) * 10 + DigitValue(s[|s| - 1])
  }

  /** Reading back what `NatToString` wrote gives the number again. */
  lemma {:induction false} NatToStringRoundTrip(n: nat)
    ensures DecimalValue(NatToString(n)) == n
  {
    if n >= 10 {
      var r := NatToString(n);
      NatToStringRoundTrip(n / 10);
      assert r[..|r| - 1] == NatToString(n / 10);
    }
  }

  /** The leftmost position in `from..n` where `at` holds: how a regular
      expression without the `g` flag picks its match. */
  function Leftmost(n: nat, from: nat, at: nat -> bool): (r: Option<nat>)
    requires from <= n + 1
    ensures r.Some? ==> from <= r.value <= n && at(r.value)
    ensures r.Some? ==> forall q :: from <= q < r.value ==> !at(q)
    ensures r.None? ==> forall q :: from <= q <= n ==> !at(q)
    decreases n + 1 - from
  {
    if from > n then None
    else if at(from) then Some(from)
    else Leftmost(n, from + 1, at)
  }
}

=== FILE: upload_preview.dfy ===
/** The preview upload handler of `dokumentasi/routes/students.mjs`: locate one
    header row on the first sheet, then read a NIM and a name column below it. */
module UploadPreview {
  import opened Wrappers
  import opened Text
  import opened Cells
  import opened SheetRows

  /** One previewed student: the cell left of the NIM (the "No." column), the numeric NIM and the name. */
  datatype PreviewRecord = PreviewRecord(no: Cell, nim: int, name: string)

  datatype PreviewHeader = PreviewHeader(row: nat, nimCol: nat, nameCol: nat)

  /** A row with a string cell mentioning NIM and one mentioning NAMA. */
  predicate HasNimAndNama(row: Row) {
    FindIndex(row, MentionsNim) != -1 && FindIndex(row, MentionsNama) != -1
  }

  /** Row `i` is the first row holding both a NIM and a NAMA cell. */
  predicate IsFirstHeader(rows: seq<Row>, i: int) {
    0 <= i < |rows| && HasNimAndNama(rows[i]) && forall j :: 0 <= j < i ==> !HasNimAndNama(rows[j])
  }

  /** The first header row and, in it, the first NIM column and the first NAMA column. */
  function FindPreviewHeader(rows: seq<Row>): (h: Option<PreviewHeader>)
    ensures h.None? <==> forall i :: 0 <= i < |rows| ==> !HasNimAndNama(rows[i])
    ensures h.Some? ==>
      && IsFirstHeader(rows, h.value.row)
      && h.value.nimCol == FindIndex(rows[h.value.row], MentionsNim)
      && h.value.nameCol == FindIndex(rows[h.value.row], MentionsNama)
  {
    var i := FindIndex(rows, HasNimAndNama);
    if i == -1 then None
    else Some(PreviewHeader(i, FindIndex(rows[i], MentionsNim), FindIndex(rows[i], MentionsNama)))
  }

  /** What one data row contributes: `typeof nim === "number"` and a non-blank string name. */
  function RecordOf(row: Row, nimCol: nat, nameCol: nat): Option<PreviewRecord> {
    match (CellAt(row, nimCol), CellAt(row, nameCol))
    case (Num(n), Str(s)) => if Trim(s) != "" then Some(PreviewRecord(CellAt(row, nimCol - 1), n, s)) else None
    case _ => None
  }

  /** Reference reading: the records of `rows`, in row order. */
  function PreviewRecords(rows: seq<Row>, nimCol: nat, nameCol: nat): seq<PreviewRecord>
    decreases |rows|
  {
    if |rows| == 0 then []
    else
      var rest := PreviewRecords(rows[..|rows| - 1], nimCol, nameCol);
      match RecordOf(rows[|rows| - 1], nimCol, nameCol)
      case Some(r) => rest + [r]
      case None => rest
  }

  /** Row `i` holds `r`'s NIM and name in the NIM and name columns. */
  predicate ReadFromRow(rows: seq<Row>, i: int, nimCol: nat, nameCol: nat, r: PreviewRecord) {
    0 <= i < |rows| && CellAt(rows[i], nimCol) == Num(r.nim) && CellAt(rows[i], nameCol) == Str(r.name)
  }

  /** Each record comes from one data row whose NIM cell holds that number and
      whose name cell holds that non-blank name; there is at most one per row. */
  lemma {:induction false} PreviewRecordsSound(rows: seq<Row>, nimCol: nat, nameCol: nat)
    ensures |PreviewRecords(rows, nimCol, nameCol)| <= |rows|
    ensures forall r :: r in PreviewRecords(rows, nimCol, nameCol) ==>
      Trim(r.name) != "" && exists i :: ReadFromRow(rows, i, nimCol, nameCol, r)
    decreases |rows|
  {
    if |rows| > 0 {
      var init := rows[..|rows| - 1];
      PreviewRecordsSound(init, nimCol, nameCol);
      forall r | r in PreviewRecords(rows, nimCol, nameCol)
        ensures Trim(r.name) != "" && exists i :: ReadFromRow(rows, i, nimCol, nameCol, r)
      {
        if r in PreviewRecords(init, nimCol, nameCol) {
          var i :| ReadFromRow(init, i, nimCol, nameCol, r);
          assert rows[i] == init[i];
          assert ReadFromRow(rows, i, nimCol, nameCol, r);
        } else {
          assert RecordOf(rows[|rows| - 1], nimCol, nameCol) == Some(r);
          assert ReadFromRow(rows, |rows| - 1, nimCol, nameCol, r);
        }
      }
    }
  }

  /** No row before `i` is a header row. */
  predicate NoHeaderBefore(rows: seq<Row>, i: int)
    requires 0 <= i <= |rows|
  {
    forall j :: 0 <= j < i ==> !HasNimAndNama(rows[j])
  }

  lemma NoHeaderExtend(rows: seq<Row>, i: int)
    requires 0 <= i < |rows| && NoHeaderBefore(rows, i) && !HasNimAndNama(rows[i])
    ensures NoHeaderBefore(rows, i + 1)
  {
  }

  /** A first header row is the one `FindPreviewHeader` reports. */
  lemma FindPreviewHeaderAt(rows: seq<Row>, i: int)
    requires IsFirstHeader(rows, i)
    ensures FindPreviewHeader(rows) == Some(PreviewHeader(i, FindIndex(rows[i], MentionsNim), FindIndex(rows[i], MentionsNama)))
  {
    FindIndexIsFirst(rows, HasNimAndNama, i);
  }

  /** The header search loop with its `break`: -1 when no row qualifies. */
  method SearchHeader(rows: seq<Row>) returns (headerRowIndex: int, nimColIndex: int, nameColIndex: int)
    ensures headerRowIndex == -1 <==> FindPreviewHeader(rows).None?
    ensures headerRowIndex != -1 ==>
      var h := FindPreviewHeader(rows).value;
      h.row == headerRowIndex && h.nimCol == nimColIndex && h.nameCol == nameColIndex
  {
    headerRowIndex := -1;
    nimColIndex := -1;
    nameColIndex := -1;
    var i := 0;
    while i < |rows| && headerRowIndex == -1
      invariant 0 <= i <= |rows|
      invariant headerRowIndex == -1 ==> NoHeaderBefore(rows, i)
      invariant headerRowIndex != -1 ==>
        && headerRowIndex == i - 1 && IsFirstHeader(rows, headerRowIndex)
        && nimColIndex == FindIndex(rows[headerRowIndex], MentionsNim)
        && nameColIndex == FindIndex(rows[headerRowIndex], MentionsNama)
    {
      var nimIndex := FindIndex(rows[i], MentionsNim);
      var nameIndex := FindIndex(rows[i], MentionsNama);
      if nimIndex != -1 && nameIndex != -1 {
        assert HasNimAndNama(rows[i]);
        assert IsFirstHeader(rows, i);
        headerRowIndex := i;
        nimColIndex := nimIndex;
        nameColIndex := nameIndex;
      } else {
        NoHeaderExtend(rows, i);
      }
      i := i + 1;
    }
    if headerRowIndex != -1 {
      FindPreviewHeaderAt(rows, headerRowIndex);
    } else {
      assert NoHeaderBefore(rows, |rows|);
    }
  }

  /** The records of one more row. */
  lemma PreviewRecordsStep(rows: seq<Row>, from: nat, k: nat, nimCol: nat, nameCol: nat)
    requires from <= k < |rows|
    ensures PreviewRecords(rows[from..k + 1], nimCol, nameCol) ==
      PreviewRecords(rows[from..k], nimCol, nameCol)
      + (if RecordOf(rows[k], nimCol, nameCol).Some? then [RecordOf(rows[k], nimCol, nameCol).value] else [])
  {
    var s := rows[from..k + 1];
    assert s[..|s| - 1] == rows[from..k];
    assert s[|s| - 1] == rows[k];
  }

  /** The scan of the rows from `from` on. */
  method ScanRows(rows: seq<Row>, from: nat, nimCol: nat, nameCol: nat) returns (students: seq<PreviewRecord>)
    requires from <= |rows|
    ensures students == PreviewRecords(rows[from..], nimCol, nameCol)
  {
    students := [];
    var k := from;
    assert rows[from..k] == [];
    while k < |rows|
      invariant from <= k <= |rows|
      invariant students == PreviewRecords(rows[from..k], nimCol, nameCol)
    {
      PreviewRecordsStep(rows, from, k, nimCol, nameCol);
      var rec := RecordOf(rows[k], nimCol, nameCol);
      if rec.Some? {
        students := students + [rec.value];
      }
      k := k + 1;
    }
    assert rows[from..|rows|] == rows[from..];
  }

  /** The extraction part of the handler; `|students|` is `studentsFound`. */
  method ExtractStudents(rows: seq<Row>) returns (students: seq<PreviewRecord>)
    ensures FindPreviewHeader(rows).None? ==> students == []
    ensures FindPreviewHeader(rows).Some? ==>
      var h := FindPreviewHeader(rows).value;
      students == PreviewRecords(rows[h.row + 1..], h.nimCol, h.nameCol)
  {
    var headerRowIndex, nimColIndex, nameColIndex := SearchHeader(rows);
    students := [];
    if headerRowIndex != -1 {
      students := ScanRows(rows, headerRowIndex + 1, nimColIndex, nameColIndex);
    }
  }
}

=== FILE: users.dfy ===
/** `routes/users.mjs`: the in-memory user list behind `/api/users/:id`, with
    the id check every route with a parameter runs first. A user is a
    JSON object, modelled as a map from keys to values; the list is the
    `mockUsers` array. Answers are HTTP status codes. */
module Users {
  import opened Wrappers
  import opened Text
  import JsNumber
  import Cells

  datatype Value = VNum(num: int) | VText(text: string) | VFlag(flag: bool)

  type User = map<string, Value>

  const BadRequest: nat := 400
  const NotFound: nat := 404

  /** The message of the 400 answer; `name` is the route parameter's name. */
  function InvalidIdMessage(name: Option<string>): string {
    "Bad request, invalid " + (if name.Some? && name.value != "" then name.value else "ID") + "."
  }

  /** `validateId`: the first route parameter, as `(name, value)`, must parse
      with `parseInt`; the parsed number is what the route then looks for. */
  function ValidateId(param: Option<(string, string)>): (r: Result<int, string>)
    ensures r.Ok? <==> param.Some? && param.value.0 != "" && JsNumber.ParseInt(param.value.1).Some?
    ensures r.Ok? ==> r.value == JsNumber.ParseInt(param.value.1).value
    ensures r.Err? ==> r.error == InvalidIdMessage(if param.Some? then Some(param.value.0) else None)
  {
    if param.None? || param.value.0 == "" then Err(InvalidIdMessage(None))
    else match JsNumber.ParseInt(param.value.1)
      case None => Err(InvalidIdMessage(Some(param.value.0)))
      case Some(n) => Ok(n)
  }

  /** The text of every number passes the check and yields that number. */
  lemma ValidateIdOfNumber(name: string, n: nat)
    requires name != ""
    ensures ValidateId(Some((name, NatToString(n)))) == Ok(n)
  {
    JsNumber.ParseIntOfNatToString(n);
  }

  /** `user.id === parsedId`: the user has a numeric `id` equal to it. */
  predicate HasId(u: User, id: int) {
    "id" in u && u["id"] == VNum(id)
  }

  /** `findIndex` over the list. */
  function IndexOf(users: seq<User>, id: int): (i: int)
    ensures -1 <= i < |users|
    ensures i >= 0 ==> HasId(users[i], id) && forall j :: 0 <= j < i ==> !HasId(users[j], id)
    ensures i == -1 <==> forall j :: 0 <= j < |users| ==> !HasId(users[j], id)
  {
    Cells.FindIndex(users, u => HasId(u, id))
  }

  /** `GET /:id`: the first user with that id, or 404. */
  function GetUser(users: seq<User>, id: int): (r: Result<User, nat>)
    ensures r.Ok? <==> exists j :: 0 <= j < |users| && HasId(users[j], id)
    ensures r.Ok? ==> HasId(r.value, id) && r.value in users
    ensures r.Err? ==> r.error == NotFound
  {
    var i := IndexOf(users, id);
    if i == -1 then Err(NotFound) else Ok(users[i])
  }

  /** `PUT /:id`: the first user with that id is replaced by
      `{ id: parsedId, ...body }` (a body `id` wins); nothing else moves. */
  function PutUser(users: seq<User>, id: int, body: User): (r: Result<seq<User>, nat>)
    ensures r.Err? <==> IndexOf(users, id) == -1
    ensures r.Err? ==> r.error == NotFound
    ensures r.Ok? ==>
      var i := IndexOf(users, id);
      && |r.value| == |users|
      && (forall j :: 0 <= j < |users| && j != i ==> r.value[j] == users[j])
      && r.value[i].Keys == body.Keys + {"id"}
      && (forall k :: k in body ==> r.value[i][k] == body[k])
      && ("id" !in body ==> r.value[i]["id"] == VNum(id))
  {
    var i := IndexOf(users, id);
    if i == -1 then Err(NotFound) else Ok(users[i := map["id" := VNum(id)] + body])
  }

  /** `PATCH /:id`: the fields of the body override, every other field of the
      first matching user stays; nothing else moves. */
  function PatchUser(users: seq<User>, id: int, body: User): (r: Result<seq<User>, nat>)
    ensures r.Err? <==> IndexOf(users, id) == -1
    ensures r.Err? ==> r.error == NotFound
    ensures r.Ok? ==>
      var i := IndexOf(users, id);
      && |r.value| == |users|
      && (forall j :: 0 <= j < |users| && j != i ==> r.value[j] == users[j])
      && r.value[i].Keys == users[i].Keys + body.Keys
      && (forall k :: k in body ==> r.value[i][k] == body[k])
      && (forall k :: k in users[i] && k !in body ==> r.value[i][k] == users[i][k])
  {
    var i := IndexOf(users, id);
    if i == -1 then Err(NotFound) else Ok(users[i := users[i] + body])
  }

  /** `DELETE /:id`: the first matching user is spliced out, the rest keep
      their order. */
  function DeleteUser(users: seq<User>, id: int): (r: Result<seq<User>, nat>)
    ensures r.Err? <==> IndexOf(users, id) == -1
    ensures r.Err? ==> r.error == NotFound
    ensures r.Ok? ==>
      var i := IndexOf(users, id);
      && |r.value| == |users| - 1
      && (forall j :: 0 <= j < i ==> r.value[j] == users[j])
      && (forall j :: i <= j < |r.value| ==> r.value[j] == users[j + 1])
  {
    var i := IndexOf(users, id);
    if i == -1 then Err(NotFound) else Ok(users[..i] + users[i + 1..])
  }

  /** After a PUT whose body leaves `id` alone, GET finds the new user. */
  lemma PutThenGet(users: seq<User>, id: int, body: User)
    requires PutUser(users, id, body).Ok? && "id" !in body
    ensures GetUser(PutUser(users, id, body).value, id) == Ok(map["id" := VNum(id)] + body)
  {
    var i := IndexOf(users, id);
    var after := PutUser(users, id, body).value;
    assert HasId(after[i], id);
    Cells.FindIndexIsFirst(after, u => HasId(u, id), i);
  }

  /** Applying the same PATCH twice is the same as applying it once. */
  lemma PatchIdempotent(users: seq<User>, id: int, body: User)
    requires PatchUser(users, id, body).Ok? && "id" !in body
    ensures PatchUser(PatchUser(users, id, body).value, id, body) == PatchUser(users, id, body)
  {
    var i := IndexOf(users, id);
    var once := PatchUser(users, id, body).value;
    assert HasId(once[i], id);
    Cells.FindIndexIsFirst(once, u => HasId(u, id), i);
    assert IndexOf(once, id) == i;
    assert once[i] + body == once[i];
    assert once[i := once[i] + body] == once;
  }

  /** DELETE of an id that only one user carries leaves no user with it. */
  lemma DeleteRemovesUniqueId(users: seq<User>, id: int)
    requires DeleteUser(users, id).Ok?
    requires forall j, k :: 0 <= j < k < |users| && HasId(users[j], id) ==> !HasId(users[k], id)
    ensures GetUser(DeleteUser(users, id).value, id) == Err(NotFound)
  {
    var i := IndexOf(users, id);
    var after := DeleteUser(users, id).value;
    forall j | 0 <= j < |after| ensures !HasId(after[j], id) {
      if j >= i {
        assert after[j] == users[j + 1];
      }
    }
  }
}

=== FILE: validation.dfy ===
/** `utils/validation.js`: the three express-validator chains guarding the
    borrow endpoints, as functions from a request body to the list of error
    messages they collect (empty when the body passes). Every validator of a
    chain runs, so one field can contribute two messages. A body field is
    `None` when absent and otherwise its string form; an absent field reads
    as `""` to the validators. `isISO8601` is a parameter. */
module Validation {
  import opened Wrappers
  import opened Text

  datatype BorrowForm = BorrowForm(
    namaMahasiswa: Option<string>,
    nimMahasiswa: Option<string>,
    namaDosen: Option<string>,
    nipDosen: Option<string>,
    kelas: Option<string>,
    namaProdi: Option<string>,
    jadwalId: Option<string>,
    waktuPengembalian: Option<string>,
    idBarang: Option<string>)

  const NeitherRequester := "Harus ada data mahasiswa (nama dan NIM) atau dosen (nama dan NIP)"
  const BothRequesters := "Tidak bisa mengajukan peminjaman untuk mahasiswa dan dosen secara bersamaan"

  /** The string a validator sees. */
  function Seen(v: Option<string>): string {
    v.GetOr("")
  }

  /** `.notEmpty().withMessage(emptyMsg).isLength({min, max}).withMessage(lengthMsg)`. */
  function LengthChain(v: string, min: nat, max: nat, emptyMsg: string, lengthMsg: string): (r: seq<string>)
    requires 1 <= min
    ensures r == [] <==> min <= |v| <= max
    ensures |v| == 0 ==> r == [emptyMsg, lengthMsg]
    ensures forall m :: m in r ==> m == emptyMsg || m == lengthMsg
  {
    (if |v| == 0 then [emptyMsg] else []) + (if min <= |v| <= max then [] else [lengthMsg])
  }

  /** The same chain behind `.if(body(field).exists())`: an absent field is not checked. */
  function OptionalChain(v: Option<string>, min: nat, max: nat, emptyMsg: string, lengthMsg: string): (r: seq<string>)
    requires 1 <= min
    ensures r == [] <==> v.None? || min <= |v.value| <= max
  {
    if v.None? then [] else LengthChain(v.value, min, max, emptyMsg, lengthMsg)
  }

  /** The integer `isInt` recognises: an optional sign and at least one decimal
      digit, leading zeroes allowed. */
  function IntText(s: string): (r: Option<int>)
    ensures r.Some? ==> |s| > 0
  {
    var body := if |s| > 0 && (s[0] == '+' || s[0] == '-') then s[1..] else s;
    if |body| > 0 && AllDigits(body) then
      Some(if |s| > 0 && s[0] == '-' then -(DecimalValue(body) as int) else DecimalValue(body))
    else None
  }

  /** `isInt({ min })`. */
  predicate IsIntAtLeast(s: string, min: int) {
    IntText(s).Some? && IntText(s).value >= min
  }

  /** The decimal form of a number passes `isInt({ min: 1 })` exactly when
      the number is positive. */
  lemma IsIntOfNatToString(n: nat)
    ensures IsIntAtLeast(NatToString(n), 1) <==> n >= 1
  {
    var s := NatToString(n);
    assert IsDigit(s[0]);
    assert IntText(s) == Some(DecimalValue(s) as int);
    NatToStringRoundTrip(n);
  }

  /** A negative number written with its sign is rejected. */
  lemma IsIntRejectsNegative(n: nat)
    requires n >= 1
    ensures !IsIntAtLeast(IntToString(-(n as int)), 1)
  {
    var s := IntToString(-(n as int));
    assert s[1..] == NatToString(n);
    NatToStringRoundTrip(n);
  }

  /** `req.body.x && req.body.y`: both fields present and non-empty. */
  predicate Complete(x: Option<string>, y: Option<string>) {
    x.Some? && x.value != "" && y.Some? && y.value != ""
  }

  /** The custom rule: exactly one of the two requester pairs is complete. */
  function RequesterErrors(f: BorrowForm): (r: seq<string>)
    ensures r == [] <==> Complete(f.namaMahasiswa, f.nimMahasiswa) != Complete(f.namaDosen, f.nipDosen)
    ensures !Complete(f.namaMahasiswa, f.nimMahasiswa) && !Complete(f.namaDosen, f.nipDosen) ==> r == [NeitherRequester]
    ensures Complete(f.namaMahasiswa, f.nimMahasiswa) && Complete(f.namaDosen, f.nipDosen) ==> r == [BothRequesters]
  {
    var hasStudent := Complete(f.namaMahasiswa, f.nimMahasiswa);
    var hasLecturer := Complete(f.namaDosen, f.nipDosen);
    if !hasStudent && !hasLecturer then [NeitherRequester]
    else if hasStudent && hasLecturer then [BothRequesters]
    else []
  }

  const KelasMissing := "Nama kelas/mata kuliah harus diisi"

  /** The optional requester fields, when present, have admissible lengths. */
  predicate IdentityAcceptable(f: BorrowForm) {
    && (f.namaMahasiswa.Some? ==> 2 <= |f.namaMahasiswa.value| <= 255)
    && (f.nimMahasiswa.Some? ==> 5 <= |f.nimMahasiswa.value| <= 50)
    && (f.namaDosen.Some? ==> 2 <= |f.namaDosen.value| <= 255)
    && (f.nipDosen.Some? ==> 5 <= |f.nipDosen.value| <= 50)
  }

  /** Class, programme and schedule are present and well formed. */
  predicate CourseAcceptable(f: BorrowForm) {
    && 2 <= |Seen(f.kelas)| <= 100
    && 2 <= |Seen(f.namaProdi)| <= 50
    && IsIntAtLeast(Seen(f.jadwalId), 1)
  }

  /** The return time is a non-empty ISO-8601 date and the item id a positive integer. */
  predicate LoanAcceptable(f: BorrowForm, isIso: string -> bool) {
    && Seen(f.waktuPengembalian) != "" && isIso(Seen(f.waktuPengembalian))
    && IsIntAtLeast(Seen(f.idBarang), 1)
  }

  /** What `borrowRequestValidation` demands of a body, stated field by field. */
  predicate BorrowFormAcceptable(f: BorrowForm, isIso: string -> bool) {
    && IdentityAcceptable(f)
    && CourseAcceptable(f)
    && LoanAcceptable(f, isIso)
    && (Complete(f.namaMahasiswa, f.nimMahasiswa) != Complete(f.namaDosen, f.nipDosen))
  }

  /** The chains of the four optional requester fields. */
  function IdentityErrors(f: BorrowForm): (r: seq<string>)
    ensures r == [] <==> IdentityAcceptable(f)
  {
    OptionalChain(f.namaMahasiswa, 2, 255, "Nama mahasiswa harus diisi", "Nama mahasiswa harus antara 2-255 karakter")
    + OptionalChain(f.nimMahasiswa, 5, 50, "NIM harus diisi", "NIM harus 5 karakter atau lebih")
    + OptionalChain(f.namaDosen, 2, 255, "Nama dosen harus diisi", "Nama dosen harus 2 karakter atau lebih")
    + OptionalChain(f.nipDosen, 5, 50, "NIP dosen harus diisi", "NIP harus 5 karakter atau lebih")
  }

  /** The chains of `kelas`, `nama_prodi` and `jadwal_id`. */
  function CourseErrors(f: BorrowForm): (r: seq<string>)
    ensures r == [] <==> CourseAcceptable(f)
    ensures f.kelas.None? ==> KelasMissing in r
  {
    var kelas := LengthChain(Seen(f.kelas), 2, 100, KelasMissing, "Nama kelas harus 2 karakter atau lebih");
    assert f.kelas.None? ==> kelas[0] == KelasMissing;
    kelas
    + LengthChain(Seen(f.namaProdi), 2, 50, "Nama program studi harus diisi", "Nama prodi harus 2 karakter atau lebih")
    + (if IsIntAtLeast(Seen(f.jadwalId), 1) then [] else ["ID jadwal harus berupa integer"])
  }

  /** The chains of `waktu_pengembalian` and `id_barang`. */
  function LoanErrors(f: BorrowForm, isIso: string -> bool): (r: seq<string>)
    ensures r == [] <==> LoanAcceptable(f, isIso)
  {
    var waktu := Seen(f.waktuPengembalian);
    (if waktu != "" then [] else ["Waktu pengembalian harus diisi"])
    + (if isIso(waktu) then [] else ["Waktu pengembalian harus dalam format datetime yang valid"])
    + (if IsIntAtLeast(Seen(f.idBarang), 1) then [] else ["ID barang harus berupa angka yang valid"])
  }

  /** `borrowRequestValidation`: the messages of every failing validator, in
      the order the chains are declared; the requester rule comes last. */
  function BorrowRequestErrors(f: BorrowForm, isIso: string -> bool): (r: seq<string>)
    ensures r == [] <==> BorrowFormAcceptable(f, isIso)
    ensures !Complete(f.namaMahasiswa, f.nimMahasiswa) && !Complete(f.namaDosen, f.nipDosen) ==>
      |r| > 0 && r[|r| - 1] == NeitherRequester
    ensures Complete(f.namaMahasiswa, f.nimMahasiswa) && Complete(f.namaDosen, f.nipDosen) ==>
      |r| > 0 && r[|r| - 1] == BothRequesters
    ensures f.kelas.None? ==> KelasMissing in r
  {
    var fields := IdentityErrors(f) + CourseErrors(f) + LoanErrors(f, isIso);
    var requester := RequesterErrors(f);
    assert f.kelas.None? ==> KelasMissing in fields;
    fields + requester
  }

  /** `completeTransactionValidation` over `item_id` and `waktu_pengembalian`. */
  function CompleteErrors(itemId: Option<string>, waktu: Option<string>, isIso: string -> bool): (r: seq<string>)
    ensures r == [] <==> IsIntAtLeast(Seen(itemId), 1) && Seen(waktu) != "" && isIso(Seen(waktu))
    ensures waktu.None? ==> "Waktu pengembalian harus diisi" in r
  {
    (if IsIntAtLeast(Seen(itemId), 1) then [] else ["ID item harus berupa angka yang valid"])
    + (if Seen(waktu) != "" then [] else ["Waktu pengembalian harus diisi"])
    + (if isIso(Seen(waktu)) then [] else ["Waktu pengembalian harus dalam format datetime yang valid"])
  }

  /** `rejectRequestValidation`: a reason of 5 to 500 characters. */
  function RejectErrors(reason: Option<string>): (r: seq<string>)
    ensures r == [] <==> 5 <= |Seen(reason)| <= 500
    ensures reason.None? ==> r == ["Alasan penolakan harus diisi", "Alasan penolakan harus 5 karakter lebih"]
  {
    LengthChain(Seen(reason), 5, 500, "Alasan penolakan harus diisi", "Alasan penolakan harus 5 karakter lebih")
  }
}

=== FILE: wrappers.dfy ===
/** Failure-carrying result types shared by every module of the model.
    A JavaScript `throw` becomes `Err(reason)`; an absent value
    (`undefined`, `null`, no row) becomes `None`. */
module Wrappers {

  datatype Option<+T> = None | Some(value: T) {
    function GetOr(default: T): T {
      match this
      case Some(v) => v
      case None => default
    }
  }

  datatype Result<+T, +E> = Ok(value: T) | Err(error: E) {
    predicate IsFailure() {
      Err?
    }

    function PropagateFailure<U>(): Result<U, E>
      requires Err?
    {
      Err(error)
    }

    function Extract(): T
      requires Ok?
    {
      value
    }
  }
}
